=== FILE: README.md ===
# Revenue Integrity Engine — a Dafny model of its core

The Revenue Integrity Engine pulls Salesforce CPQ records into pandas
tables and runs fifteen leakage detectors over them (`usecase10` is not part of this model). The detectors are
called "use cases" here: zombie renewals, lost uplift, ghost orders,
threshold huggers and so on. Each use case does the same things in turn:

- it segments its table with the filter engine or with boolean masks;
- it counts the segments for a pie chart;
- it asks a language model to describe the segments;
- it writes the model's answer as a summary text;
- it returns a small result dict: name, records found, total revenue and total loss.

`main.py` then discovers the use-case modules, runs them and records each
outcome. It summarises the successful runs into an executive table:
sorted by loss, numbered, classified High/Medium/Low, with Indian-grouped
rupee amounts and R/A/G ticks. It also cleans each summary text into
report markup.

This project models that core as pure functions over immutable data:

- `Values`, `Dicts`, `Tables`: cell values with pandas' null semantics,
  ordered Python dicts (a dict literal's later duplicate wins), and tables
  as a column list plus rows that carry their index label.
- `Filters`: the filter engine `apply_filters` and the two hard-coded
  contract predicates.
- `Loaders`: `records_to_df`, `extract_nested_fields`, `extract_from_dict`,
  `extract_nested_fields_n_level` and `clean_soql_dataframe`.
- `Overview`: `generate_prompt` and `build_pie_segments`.
- `Report`: `format_inr` and the R/A/G tick columns of the executive table.
- `Pipeline`: the orchestration logic of `main.py`. This covers the risk
  classifiers, module discovery, the success/failure records, the
  executive summary, the KPI, the table rows and the folder-name sanitiser.
- `SummaryText`: the summary writer every use case carries, and the
  cleaner of `main.py`, proved to invert it.
- `Segments`: the result dict, plus the algebra the use cases rely on.
  That algebra covers filters read as row predicates, index and key
  complements, and totals that split.
- `Usecase1` … `Usecase9`, `Usecase11` … `Usecase15`: each use case's
  segmentation and bookkeeping.

Every operation is paired with what it means: a reference predicate, an
inverse, a partition or an invariant, connected by a lemma.

## Model

| member | source | states |
|---|---|---|
| Filters.ApplyFilters | filters/contract_filters.py:32-91 | The call succeeds exactly when every condition can be evaluated. Every operator must be supported, every column must exist, and every comparison must be defined on the column's cells. On success the result keeps all columns and exactly the rows satisfying every condition, in table order. |
| Filters.EvalOp | filters/contract_filters.py:57-85 | A single operator fails exactly when the source raises: unsupported operator, missing column, or incomparable operand. Otherwise it yields one flag per row, which is the operator's pandas meaning on that row's cell (`isna`, `notna`, `=`, `!=`, `in`, orderings). |
| Filters.EvalOps | filters/contract_filters.py:54-85 | An operator map succeeds iff each of its operators does. The mask it yields is the incoming mask and-ed with the conjunction of the operators. |
| Filters.EvalCond | filters/contract_filters.py:53-89 | One column condition succeeds iff it can be evaluated. It and-s its meaning into the mask, for both an operator map and a bare value. |
| Filters.EvalSpec | filters/contract_filters.py:51-89 | The loop over conditions succeeds iff every condition can be evaluated. Each mask entry becomes the starting flag and-ed with "the row satisfies the whole filter". |
| Filters.FilterKeepsExactlySatisfyingRows | filters/contract_filters.py:51-91 | The filtered rows are a subsequence of the input. A row is kept iff it is an input row that satisfies the filter. |
| Filters.EmptySpecKeepsAll | filters/contract_filters.py:51-91 | An empty filter dict returns the table unchanged (the mask starts all-true). |
| Filters.BareValueIsEquality | filters/contract_filters.py:87-89 | A bare value as a condition filters exactly like `{"=": value}`. |
| Filters.BareValueEvaluatesAlike | filters/contract_filters.py:63-64 | The same equivalence at the level of the loop: the mask, and whether evaluation succeeds, are the same. |
| Filters.UnsupportedOperatorFails | filters/contract_filters.py:84-85 | An operator outside the nine supported ones makes the whole call fail. |
| Filters.MissingColumnFails | filters/contract_filters.py:53-89 | A condition on a column the table lacks makes the call fail when it is a bare value or opens with a supported operator. |
| Filters.IsnaNotnaPartition | filters/contract_filters.py:57-61 | The operand of `isna`/`notna` is ignored. On an existing column the two filters never fail, split the table between them, and keep only null, resp. only non-null, cells. |
| Filters.ContractSpecMeaning | filters/contract_filters.py:15-30 | Both contract predicates demand an activated contract, no renewal opportunity and a date end date. The zombie predicate adds `EndDate <= today - 30`; the expiring predicate adds `EndDate >= today - 30`. |
| Filters.ContractPredicatesOverlap | filters/contract_filters.py:15-30 | On the same day the two predicates overlap exactly at `EndDate == today - 30`. Together they cover every activated contract with a date end date and no renewal opportunity. |
| Dicts.Literal | usecase/usecase4.py:63-66 | A Python dict literal has distinct keys, and each key maps to the value of its last occurrence. |
| Dicts.LiteralDuplicateCollapses | usecase/usecase4.py:63-66 | A literal that repeats a key keeps one entry, holding the second value. |
| Loaders.RecordsToDf | data_extraction/loaders.py:9-14 | One row per record, with positional index labels. The columns are the union of the records' keys, minus `attributes`, in first-seen order. Each cell is the record's value, or null where the record lacks the key. |
| Loaders.RecordsToDfNoAttributes | data_extraction/loaders.py:12-13 | Without an `attributes` key the frame is returned as built. |
| Loaders.ExtractFields | data_extraction/loaders.py:33-38 | Extracting one nested column keeps every row, index label and column. It only adds or overwrites the destination columns; every other cell is unchanged. |
| Loaders.ExtractFieldsValue | data_extraction/loaders.py:35-38 | Each destination column holds, per row, the nested object's field. It holds null when the cell is not an object or lacks the field. |
| Loaders.ExtractNestedFields | data_extraction/loaders.py:17-40 | Over the whole mapping the table keeps its rows and columns. Only destination columns change. |
| Loaders.ExtractNestedFieldsValue | data_extraction/loaders.py:33-38 | With separated destinations, a present source column fills its destination column with the projected field. An absent source column adds nothing (line 34). |
| Loaders.ExtractFromDictGet | data_extraction/loaders.py:47-70 | The extracted dict maps each destination to the value of its last leaf, in mapping order. Nested nodes are flattened and non-objects yield `{}`. |
| Loaders.LaterLeafWins | data_extraction/loaders.py:57-61 | When two leaves share a destination, the later key's value wins. |
| Loaders.NonObjectSubtreeOmitted | data_extraction/loaders.py:63-68 | A nested node whose data is not an object contributes no key at all, not even a null. |
| Loaders.ExtractTopColumn | data_extraction/loaders.py:80-92 | For one top column, the concatenated table has the original columns plus one column per key some row's extraction produced. Extracted cells come from the row's extraction, or are null where that row lacks the key. Other cells are unchanged. |
| Loaders.ExtractNestedFieldsNLevel | data_extraction/loaders.py:73-94 | The n-level extraction keeps the row count, positional index labels and every original column. |
| Loaders.NLevelMissingTopSkipped | data_extraction/loaders.py:82-83 | A top column the table lacks is skipped, leaving the table unchanged. |
| Loaders.ExtractedKeyDeclared | data_extraction/loaders.py:47-70 | Extraction only produces keys that some leaf of the mapping declares as a destination. |
| Loaders.NLevelUntouched | data_extraction/loaders.py:73-94 | A column no leaf of any entry names keeps its presence and every cell through the whole n-level extraction. |
| Loaders.NLevelCellValue | data_extraction/loaders.py:73-94 | Once some row's object yields a key for entry `j`, the final table has that column and each row holds what its own object yields, or null. This needs no earlier entry to rewrite the top-level column and no later entry to name the key. |
| Loaders.Rename | data_extraction/loaders.py:119-120 | Renaming maps every column name and keeps each cell under its new name. |
| Loaders.CleanSoqlDataframe | data_extraction/loaders.py:96-122 | The columns to drop default to `attributes`, and only existing ones are dropped. Every kept column survives under its renamed name with the same cells, and the rows are unchanged. |
| Loaders.CleanDefaultsMatchRecordsToDf | data_extraction/loaders.py:112-117 | With the default arguments the cleaner does what `records_to_df` does: it drops `attributes` and nothing else. |
| Overview.DescriptionMap | ai_chart_overview_generator/groq_overview_generator.py:126-130 | For an answer that is a list of objects, the map succeeds iff every title is text; otherwise it reports the first item whose title is not. Each base title maps to the description of its last item. |
| Overview.BaseTitleOfHeading | ai_chart_overview_generator/groq_overview_generator.py:129 | Removing the count suffix from `"<title> (<n>)"` gives back a stripped title. |
| Overview.BaseTitlePlain | ai_chart_overview_generator/groq_overview_generator.py:129 | A stripped title without a count suffix is left as it is. |
| Overview.HeadingSuffixStart | ai_chart_overview_generator/groq_overview_generator.py:129 | The suffix pattern `\s*\(\d+\)$` matches right after the title text. |
| Overview.DigitRunStartAt | ai_chart_overview_generator/groq_overview_generator.py:129 | The `\d+` run ending at a position starts at the unique maximal-run position. |
| Overview.BuildPieSegments | ai_chart_overview_generator/groq_overview_generator.py:102-147 | For an answer that is a list of objects, the call succeeds iff all titles are text. It yields one segment per label present in the label map, in label order. Each segment carries that label's row count, the description matched by base title (empty when none), and the label's colour, or `#CCCCCC` past the colour list. |
| Overview.ItemDict | ai_chart_overview_generator/groq_overview_generator.py:127-130 | Reading `title` or `description` from the dictionary of an answer object gives the object's own field, or nothing when the object lacks it. |
| Overview.ListDescriptionMap | ai_chart_overview_generator/groq_overview_generator.py:126-130 | On a list answer, the first loop succeeds iff every element is an object with a text title. On a list of objects it is the dictionary-level map, errors included. |
| Overview.ListFailsAtFirstBad | ai_chart_overview_generator/groq_overview_generator.py:126-130 | A list answer that does not get through fails at its first element that is not an object with a text title. The error is AttributeError for a non-object and TypeError for a non-text title, and every earlier element is a good object. |
| Overview.NonObjectStops | ai_chart_overview_generator/groq_overview_generator.py:126-130 | A list holding a non-object fails at the first bad title among the objects before it, or else at the non-object itself. |
| Overview.FirstBadTitleIsFirstBadItem | ai_chart_overview_generator/groq_overview_generator.py:126-130 | In a list of objects, the first dictionary whose title is not text is the first element that is not a good object. |
| Overview.AnswerDescriptionMap | ai_chart_overview_generator/groq_overview_generator.py:126-130 | For any value `json.loads` returns, the first loop succeeds iff the value is a list of objects with text titles, an empty string or an empty object. A list is handled as above. A non-empty string or object fails at its first element, because iterating it yields one-character strings or keys, which lack `.get`. A number, boolean or null is not iterable. An answer with nothing to iterate gives an empty map. |
| Overview.PieSegmentsFromAnswer | ai_chart_overview_generator/groq_overview_generator.py:102-147 | For any answer value, the segments are built iff the first loop gets through it. On a list of objects they are those of the dictionary-level call. An answer with nothing to iterate still gives one segment per known label, each with its table's row count and an empty description. |
| Overview.SegmentsCoverKnownLabels | ai_chart_overview_generator/groq_overview_generator.py:134-145 | A name heads a segment iff it is a pie label with a table in the map. |
| Overview.HeadingMatchesLabel | ai_chart_overview_generator/groq_overview_generator.py:126-130 | An answer item titled `"<label> (<n>)"`, not overridden by a later item with the same base title, supplies that label's description. |
| Overview.SegmentLinesRoundTrip | ai_chart_overview_generator/groq_overview_generator.py:34-36 | Splitting the segments block on line breaks gives back the per-label lines, provided no label holds a line break. |
| Overview.FilterLinesNote | ai_chart_overview_generator/groq_overview_generator.py:38-48 | A label's line carries the "No explicit filter provided" note iff its filter is missing or falsy. A truthy filter's line shows `filters = ` and the filter's `str` instead. |
| Overview.MissingFilterGetsNote | ai_chart_overview_generator/groq_overview_generator.py:40-47 | A label without a filter gets the "No explicit filter provided" note. |
| Overview.ColumnLinesRoundTrip | ai_chart_overview_generator/groq_overview_generator.py:50 | Splitting the columns block on line breaks and removing each `- ` marker gives back the column names in order, provided no name holds a line break. |
| Overview.PromptStrip | ai_chart_overview_generator/groq_overview_generator.py:52-98 | The filled-in template opens on a letter and closes on `]`. So `.strip()` removes exactly its opening and closing newline, whatever the segments, filters and columns. |
| Overview.GeneratePrompt | ai_chart_overview_generator/groq_overview_generator.py:33-100 | The prompt is the template body with the three blocks filled in. Stripping takes nothing from the filled-in text itself. |
| Report.IntegerPart | report/report_generator.py:24-28 | The integer part of `f"{amount:.2f}"` is non-empty and has neither point nor comma. |
| Report.FormatInr | report/report_generator.py:24-36 | The result ends in a point and two digits, with no point before them. |
| Report.IndianGroups | report/report_generator.py:30-34 | Above three characters the groups concatenate back to the integer part. The first group has 1–2 characters, the middle ones 2 and the last 3. |
| Report.FormatInrWithoutCommas | report/report_generator.py:24-36 | Deleting the commas from `format_inr` gives back the plain `.2f` rendering. |
| Report.ShortAmountsUngrouped | report/report_generator.py:30 | An integer part of at most three characters is not grouped. |
| Report.NegativeGrouping | report/report_generator.py:30-34 | As written, the minus sign counts as a digit: -1234567 is rendered `-,12,34,567.00`. |
| Report.FormatInrTextOfAmount | report/report_generator.py:26 | Any text that, without its commas, is the plain rendering of an amount is parsed back and formatted as that amount. |
| Report.FormatInrIdempotent | report/report_generator.py:26 | `format_inr` applied to its own output returns it unchanged. |
| Report.WesternToIndian | report/report_generator.py:24-36 | The Western-grouped text `main.py` writes (`:,.2f`) is regrouped to the Indian form of the same amount. |
| Report.OneTickPerKnownRisk | report/report_generator.py:548-552 | After lower-casing, a known category (`high`, `medium`, `low`) gets exactly one tick and any other text gets none. |
| Report.RenderRows | report/report_generator.py:543-562 | Rendering succeeds iff every loss text, with its commas removed, has the shape `[-]digits.dd`. Each row keeps its serial number and name, shows `INR ` plus the Indian-grouped loss, and carries its ticks. |
| Pipeline.ClassifyRisk | main.py:194-200 | The category is High iff count > 100, Medium iff 25 < count <= 100, and Low iff count <= 25. |
| Pipeline.ClassifyRiskMonotone | main.py:194-200 | A larger count never gets a milder category. |
| Pipeline.ClassifyLossRisk | main.py:318-324 | The category is High iff loss > 100000, Medium iff 50000 < loss <= 100000, and Low otherwise. |
| Pipeline.ClassifyLossRiskMonotone | main.py:318-324 | A larger loss never gets a milder category. |
| Pipeline.Candidates | main.py:234-237 | A name is a candidate iff some directory entry starts with `usecase`, ends with `.py` and is not `__init__.py`, and the name is that entry without `.py`. |
| Pipeline.DiscoverSpec | main.py:234-237 | The discovered modules are sorted lexicographically and are a permutation of the candidates. |
| Pipeline.DiscoverIsTheSortedOrder | main.py:234-237 | Every sorted permutation of the candidates is the discovered list (the sorted order is unique). |
| Pipeline.TenBeforeTwo | main.py:234-237 | Sorting is by string, so `usecase10` runs before `usecase2`. |
| Pipeline.RunRecordsPartition | main.py:248-290 | There is one record per discovered module, in order. A record is "success" iff its module returned and "failed" otherwise. Failed records carry zeros and an error message. The two lists split the records as a multiset. |
| Pipeline.SummaryFrame | main.py:305-309 | There is one summary row per successful run. A numeric loss is kept and anything else becomes 0. |
| Pipeline.SortByLossSorted | main.py:312 | Sorting by loss yields a non-increasing order and a permutation of the rows. |
| Pipeline.SummarySpec | main.py:305-326 | The executive summary has one line per successful run. The lines are ordered by non-increasing loss and numbered from 1, each with the category of its loss. They are a permutation of the coerced rows. |
| Pipeline.SumLossOrderFree | main.py:329 | The total loss of the sorted, numbered summary equals the total over the successful runs in run order. |
| Pipeline.LossPercentage | main.py:331 | The percentage is 0 when total revenue is 0. Otherwise it times the revenue equals 100 times the loss. |
| Pipeline.LossTicks | main.py:318-326 | The R, A and G ticks of a loss's category fall exactly on the loss bands > 100000, (50000, 100000] and <= 50000. |
| Pipeline.ExecutiveTableTicks | main.py:352-362 | The rendered executive table has one row per summary line. Each shows the Indian-grouped loss and exactly the tick of its loss band. |
| Pipeline.SanitizeCategory | main.py:73 | Folder and file names of a category contain no space and no `&`. |
| Pipeline.SanitizeCleanName | main.py:79 | A name with neither character is left unchanged. |
| Pipeline.SanitizeExample | main.py:73 | `R & D` becomes `R_and_D`. |
| SummaryText.DictAnswerLikeList | usecase/usecase3.py:140-157 | An object answer is written exactly like a list holding only that object. |
| SummaryText.CleanTitleLine | main.py:171-174 | A `title:` line becomes its text in bold. |
| SummaryText.CleanDescriptionLine | main.py:176-179 | A `description:` line becomes its text. |
| SummaryText.CleanOtherLine | main.py:168-179 | Any other line is dropped. |
| SummaryText.ItemCleans | main.py:166-182 | A well-formed answer item (segment number, title, description) cleans to its bold title followed by its description. |
| SummaryText.ListCleans | main.py:166-182 | The formatted lines of recoverable items clean to their titles and descriptions in order. |
| SummaryText.SplitSpaced | main.py:168 | Splitting a text joined by blank lines and cleaning it gives what cleaning the original lines gives. |
| SummaryText.CleanInvertsFormat | main.py:166-182 | The cleaner inverts the use cases' summary writer. For a list of recoverable items it yields the titles in bold and the descriptions, joined by `<br/><br/>`. |
| Segments.RecordOfResult | main.py:262-269 | `main` records a use case's returned dict field for field, with status "success". |
| Segments.FilterSplit | usecase/usecase3.py:56-57 | A filter and its index complement: the kept rows are exactly the satisfying rows, and with unique labels the complement holds the others. Sizes and column totals add up. |
| Segments.FilterKeySplit | usecase/usecase7.py:64-67 | A filter and its complement by a unique key column: the complement holds exactly the rejected rows. Sizes and totals add up. |
| Segments.WhereTwice | usecase/usecase11.py:78-96 | Filtering the filtered rows keeps the rows satisfying both predicates, in order. |
| Segments.DisjointUnion | usecase/usecase4.py:63-66 | Two exclusive predicates split the rows satisfying either, in count and in total. |
| Usecase1.ZombieRenewal | usecase/usecase1.py:38-248 | The call succeeds iff both filters can be evaluated and the detail table has an `Opportunity Amount` column, whose absence raises its KeyError. When the zombie filter fails, the call fails with its error. Otherwise the detail rows split by index label into zombie, expiring and healthy segments. |
| Usecase1.Segment | usecase/usecase1.py:90-133 | The leakage and warning tables hold the detail rows whose labels the zombie, resp. expiring, contracts carry; healthy holds the rest. The tables have their titles, counts and colours. |
| Usecase1.ZombieRevenue | usecase/usecase1.py:243-248 | Revenue is the opportunity amount of the detail rows outside the zombie segment, so revenue and loss add up to the total opportunity amount. |
| Usecase1.ZombieCoverage | usecase/usecase1.py:90-95 | Every detail row lies in some segment, and a healthy row lies in neither of the others. |
| Usecase1.PositionalMatch | usecase/usecase1.py:44-91 | With positional labels in both queries, a detail row is a zombie, resp. expiring, iff its contract satisfies the predicate. |
| Usecase1.SameDayOverlap | usecase/usecase1.py:47-48 | On one day a contract is both zombie and expiring iff it ended exactly 30 days ago and is activated with no renewal opportunity. |
| Usecase1.TablesMatchPie | usecase/usecase1.py:117-133 | The three tables carry the colours and, without their counts, the titles of their pie labels. |
| Usecase2.WithExpected | usecase/usecase2.py:95-100 | Every row gets `old + old * uplift / 100` as expected renewal value, null when either operand is null. Each row keeps its old, uplift and renewal amounts. |
| Usecase2.LostUplift | usecase/usecase2.py:95-160 | The computation fails iff a column is missing, or some row's old amount and rate are both non-null and not both numbers, or some row's old and renewal amounts are both non-null and cannot be ordered against each other. The errors come in the source's order. A row with a null on either side of an operation is skipped by it, as pandas' masked retry and its comparisons do. Otherwise the result is the segmentation of the table with expected values. |
| Usecase2.TextBesideNullRate | usecase/usecase2.py:95-128 | A text old amount beside a null rate raises nothing. With a null renewal amount, the contract lands in the renewal-missing segment only. |
| Usecase2.TextTimesRateFails | usecase/usecase2.py:95-98 | A text old amount beside a numeric rate raises the arithmetic's TypeError. |
| Usecase2.TextDownsell | usecase/usecase2.py:116-119 | Between two text amounts, `old > renewal` holds iff the renewal text sorts strictly before the old one. |
| Usecase2.TextAmountsCompare | usecase/usecase2.py:106-124 | Two text amounts compare without raising, and a text downsell lands among the downsells. |
| Usecase2.ComparisonsExclusive | usecase/usecase2.py:106-124 | Whatever the amounts, no contract is both a downsell and an upsell, or both equal and ordered. |
| Values.OrderTrichotomy | usecase/usecase2.py:106-124 | Two non-null values Python can order are equal, less or greater, and exactly one of the three. |
| Usecase2.ComparisonPartition | usecase/usecase2.py:106-130 | The three comparison segments are disjoint and cover every row with both amounts. A missing renewal amount lands only in the renewal-missing segment; a missing old amount lands in no comparison and is not healthy. |
| Usecase2.ZombieCount | usecase/usecase2.py:130 | The zombie list has one row per row with both amounts present. |
| Usecase2.NoUpliftHealthyIsSame | usecase/usecase2.py:111-114 | For every row with a zero uplift, the row is healthy iff its old and renewal amounts are equal. |
| Usecase2.PositiveUpliftHealthyIsUpsell | usecase/usecase2.py:111-124 | Every healthy row with a positive uplift and a positive old amount is also an upsell. |
| Usecase3.GhostSpecFails | usecase/usecase3.py:50-56 | The ghost filter fails iff a needed column is missing or an activation cell is neither a date nor null. |
| Usecase3.GhostOrders | usecase/usecase3.py:50-215 | The call succeeds iff the filter can be evaluated and a `TotalAmount` column exists; a missing amount column raises its KeyError. The ghost orders are exactly the activated orders older than 7 days with no reference number, in order, and they are counted in the second pie value and in the result. |
| Usecase3.GhostOrdersPartition | usecase/usecase3.py:57-216 | With unique labels the others are exactly the non-ghost orders. The pie values sum to the row count, and revenue is the others' total. |
| Usecase4.HealthySpecCollapses | usecase/usecase4.py:63-66 | The healthy filter, as written, is only the band [20, 100]. |
| Usecase4.Segment | usecase/usecase4.py:63-99 | The healthy, bypass and incorrect segments are the rows in [20,100], in [19.01,19.99] and below 0 respectively. The pie counts them, and loss is the bypass rows' discount amount. |
| Usecase4.ThresholdHugger | usecase/usecase4.py:63-281 | The call succeeds iff the discount column exists and is comparable and both the `Opportunity Amount` and `Discount Amount` columns exist. A bad discount column fails with the healthy filter's error; otherwise the first missing amount column raises its KeyError, opportunity amount first. |
| Usecase4.HuggerSegments | usecase/usecase4.py:63-78 | The segments are disjoint. Discounts in [0, 19.01) or (19.99, 20) land in no segment. |
| Usecase4.IncorrectHasNoPieSegment | usecase/usecase4.py:234-242 | The label map omits the incorrect table, so no pie segment carries that label, while the other two labels appear. |
| Usecase4.LowBandDropped | usecase/usecase4.py:63-66 | As written, a quote at a 10% discount is in no segment, though the low band intends it as healthy. |
| Usecase4.IntendedHealthyBands | usecase/usecase4.py:63-66 | With both bands the healthy quotes are the low band's plus the high band's, still disjoint from the other segments, with the counts adding up. |
| Usecase5.ActiveFlagFromProduct | usecase/usecase5.py:45-55 | After extraction and drop, the `Product IsActive` column holds each product's `IsActive` field, or null. |
| Usecase5.MissingFlagIsActive | usecase/usecase5.py:61-63 | A quote line with no flag is never counted as inactive (`= False` is false on null). |
| Usecase5.InactiveSale | usecase/usecase5.py:61-80 | The inactive lines are exactly the rows with flag `False`, in order. The result counts them and reports no amounts. |
| Usecase5.InactiveSalePartition | usecase/usecase5.py:65-80 | With unique labels the active lines are exactly the others, and the pie values sum to the row count. |
| Usecase6.Segment | usecase/usecase6.py:51-94 | The untaxed segment holds positive orders with a null status. Each known status has its segment of positive orders, and the pie counts all five. Loss is 0.46 times the untaxed total. |
| Usecase6.MissingTaxStatus | usecase/usecase6.py:51-76 | The call succeeds iff both columns exist and the amounts compare with 0. Otherwise it fails with the first filter's error. |
| Usecase6.TaxPartition | usecase/usecase6.py:51-76 | The segments are pairwise disjoint, and every positive order with a null or known status is in its segment. Non-positive orders and unknown statuses are in none. |
| Usecase6.TaxRevenue | usecase/usecase6.py:283 | Revenue is the total of the orders outside the untaxed segment. |
| Usecase7.ZeroQuantityLines | usecase/usecase7.py:59-238 | The call succeeds iff the filter can be evaluated and the `Subscription ID` and `Net Price` columns exist; otherwise the first missing one raises its KeyError, subscription id first. The zero-quantity lines are exactly the unterminated lines with quantity 0. The pie counts them and the rest, and loss is their net price. |
| Usecase7.ZeroQuantityPartition | usecase/usecase7.py:64-67 | With unique subscription ids the other lines are exactly the rest, and revenue is their net price. |
| Usecase8.WithDuration | usecase/usecase8.py:69-73 | The duration column is added (a span, or null when a date is missing), the extraction columns are dropped, and the columns the filters read are kept. |
| Usecase8.SpecsMeaning | usecase/usecase8.py:75-94 | Each of the four filters means its band: eternal trial, free short term, priced long term, priced short term. |
| Usecase8.EternalTrial | usecase/usecase8.py:69-291 | The call fails iff a date, family, net price or list price column is missing; with the others present, a missing `List Price` raises its KeyError. Otherwise it is the four-band segmentation of the table with durations. |
| Usecase8.TrialPartition | usecase/usecase8.py:75-99 | The four segments are disjoint. A dated row is in some segment iff it is not a free, long, marketing row; an undated row is in none. |
| Usecase8.TrialBands | usecase/usecase8.py:81-94 | The free and priced short-term segments split the short-term rows, in count and list-price total. |
| Usecase9.FlagAccounts | usecase/usecase9.py:79-91 | The call fails on an account with no contracts. Otherwise it flags exactly the accounts whose first and last end dates lie at most 90 days apart. |
| Usecase9.WindowTestMeaning | usecase/usecase9.py:82-90 | The first-and-last test after sorting by end date says every pair of end dates lies within 90 days. |
| Usecase9.CoTermFailure | usecase/usecase9.py:52-118 | Without accounts everything is empty. Otherwise the call fails on a missing column or an account without contracts, and on success it yields the flagged accounts' contracts. |
| Usecase9.CoTermPartition | usecase/usecase9.py:93-118 | With unique contract ids the other contracts are exactly those not flagged, and the pie values sum to the contract count. |
| Usecase11.BrokenBundle | usecase/usecase11.py:74-254 | The call succeeds iff the filters can be evaluated and the `Required By Product Name` and `Net Price` columns exist; otherwise the first missing one raises its KeyError. Broken components have no parent and linked ones have one; loss is the broken components' net price. |
| Usecase11.BundlePartition | usecase/usecase11.py:78-96 | Broken and linked components split the components. Non-components are in neither. |
| Usecase11.BundleRevenue | usecase/usecase11.py:254 | Revenue is the net price outside the broken segment. |
| Usecase12.DiscountWithoutApproval | usecase/usecase12.py:61-236 | The call succeeds iff the filters can be evaluated and a `Net Amount` column exists, whose absence raises its KeyError. Unapproved quotes have a discount above 20 and a status other than Approved. Healthy quotes have a discount below 20 or missing, and a status other than Approved. The pie counts both. |
| Usecase12.DiscountSegmentsDisjoint | usecase/usecase12.py:61-78 | The two segments are disjoint. Approved quotes and quotes at exactly 20% are in neither. |
| Usecase12.DiscountRevenue | usecase/usecase12.py:236 | Revenue is the net amount outside the unapproved segment. |
| Usecase13.MissingBillingFrequency | usecase/usecase13.py:58-239 | The call succeeds iff both filters can be evaluated and a `Net Total` column exists, whose absence raises its KeyError. After dropping the quote id it yields the renewable lines without a billing frequency and those with one, with the pie counts and the missing lines' loss. |
| Usecase13.BillingPartition | usecase/usecase13.py:64-82 | Missing and billed lines are disjoint and together are the renewable lines. Non-renewable lines are in neither. |
| Usecase13.BillingRevenue | usecase/usecase13.py:239 | Revenue is the net total outside the missing segment. |
| Usecase14.OpportunityAmountFromNested | usecase/usecase14.py:47-63 | The opportunity amount column holds each quote's nested opportunity amount, or null. |
| Usecase14.UnsyncedPrimaryQuotes | usecase/usecase14.py:69-89 | The call fails iff an amount column is missing. Otherwise unsynced quotes have differing amounts (`!=`), healthy ones equal amounts, and the pie counts both. |
| Usecase14.SyncPartition | usecase/usecase14.py:69-89 | Each quote is in exactly one segment, and a quote with a missing amount is unsynced. Revenue is the healthy quotes' net amount. |
| Usecase15.QuoteTypeColumn | usecase/usecase15.py:48-71 | Once some contract carries a quote, the extraction adds the "Quote Type" column. In it, each row holds its contract's quote type, or null where the path breaks off. |
| Usecase15.CoerceDate | usecase/usecase15.py:66-69 | Date coercion keeps dates and turns anything else into null. |
| Usecase15.ExpiredNotRenewed | usecase/usecase15.py:66-246 | The call fails iff the `Subscription End Date`, `Quote Type` or `Net Price` column is missing; with the first two present, a missing `Net Price` raises its KeyError. Not-renewed subscriptions are the expired renewals, and others are the expired non-renewals. Both are among the dated rows, and the pie counts them. |
| Usecase15.RenewalPartition | usecase/usecase15.py:81-92 | The two segments are disjoint and cover every expired subscription, one with no quote type going to the others. Unexpired subscriptions are in neither. |

## Left out

- Network and I/O: the Salesforce client, the SOQL queries, the language-model call, Excel/PNG/PDF output and the sleeps between modules. The language model's answer, the query results and Python's `str`/`repr` rendering are parameters.
- Report layout: charts (`chart_generator/matplotlib_charts.py` is not part of this model) and the reportlab layout around the tick table.
- `usecase10`: it is not part of the modelled core. It appears only as a discovered module name.
- Floating point: money is modelled as exact reals, including the factor 0.46 and the `/ 100` of usecase 2. `format_inr` works on whole hundredths, so `.2f` rounding is the caller's `toCents` parameter. A negative zero is not modelled: `format_inr("-0.00")` keeps the sign, because `float` has a negative zero, and main.py writes that text for a loss in (-0.005, 0]. The model reads it as 0 and gives `0.00`.
- Time: `pd.Timestamp.today()` and the module-load `today` of `filters/contract_filters.py` line 4 are parameters, as whole days.
- `normalize_dates` and `pd.to_datetime`: dates arrive already parsed. The use cases that parse dates require parsed date cells (`Tables.DatesParsed`), apart from the `errors="coerce"` call of usecase 15, which is `Usecase15.CoerceDate`. That call reads a number as an offset from the epoch, where `Usecase15.CoerceDate` gives null; end-date fields never hold numbers.
- Usecases 1–4, 6–9, 11–13 are modelled from the table after extraction and renaming. Extraction is modelled step by step only in usecases 5, 14 and 15, where a property depends on it.
- Usecase1.PositionalMatch: this assumes both queries return the contracts in the same order with positional labels. The source joins the two queries by index label and nothing guarantees that order.
- Loaders.ExtractNestedFieldsNLevel: it requires positional labels (what `records_to_df` produces), because `pd.concat` aligns by label. A key extracted under an existing column name overwrites it instead of adding a duplicate column. Its own contract covers shape only; the extracted cells are stated by `Loaders.NLevelCellValue`.
- Loaders.ExtractTopColumn: `pd.json_normalize` flattens an object-valued leaf into dotted columns (`X.B` for a leaf `X` holding `{"B": 1}`). The model keeps the object as one cell of column `X`. Every modelled use case extracts scalar fields only.
- Loaders.Rename and Loaders.CleanSoqlDataframe: they require the rename to be injective on the kept columns. pandas would otherwise produce duplicate column names.
- Loaders.Drop: like `drop(errors="ignore")`, it ignores names the table lacks. The use cases only drop columns their queries select.
- Usecase2.LostUplift: it raises for a duration in the old amount beside a numeric rate, which pandas scales, and for two lists compared by `>`, which Python orders. The CRM's amount and rate fields hold only numbers or null, so neither occurs.
- Pipeline.SortByLossSorted: pandas' default sort is not stable. The model fixes one order for equal losses, so ties are ordered by the model, not the source.
- Overview.DescriptionMap / Overview.BuildPieSegments: they take the answer as a list of objects. Other shapes of the `json.loads` result are modelled by `Overview.AnswerDescriptionMap` and `Overview.PieSegmentsFromAnswer`. The success iffs of the use-case functions cover the code before the language-model stage only. Parsing the answer text is not modelled.
- Overview.BaseTitle: `\d` is taken as the ASCII digits, where Python's `re` also accepts other Unicode decimal digits. `\s` is Python's full `str.isspace` set. `Lower` in the tick rule is ASCII only.
- Pipeline.SummaryFrame: `to_numeric(errors="coerce")` is modelled on numeric values only. A numeric string becomes 0, not its number.
- Report.RenderRows: `float()` also accepts text such as `12`, `12.5`, ` 7.00`, `1e3` or `+3.00`. The model reads only `[-]digits.dd`, the shape `main.py` writes with `:,.2f`, and treats any other text as unreadable.
- Tables.Total: a cell that is neither a number nor null counts as 0, where `Series.sum()` would raise or concatenate strings.

## Findings

| source | as written | input that shows it | evidently intended | confidence | as-written member | corrected member |
|---|---|---|---|---|---|---|
| usecase/usecase4.py:63-66 | The healthy filter dict repeats the key `"Average Customer Discount"`. Python keeps only the second value, so the healthy band is just [20, 100]. | A quote with an average discount of 10.0 satisfies none of the healthy, bypass or incorrect filters, so it is counted in no pie segment. | Healthy quotes are those in [0, 19] or in [20, 100]. | not executed | Usecase4.LowBandDropped | Usecase4.IntendedHealthyBands |

=== FILE: dicts.dfy ===
/** Python dictionaries keep insertion order, and a dict literal that names a
    key twice keeps the key at its first position with the value of its last
    occurrence. `Dict` models such a dictionary as a sequence of entries. */
module Dicts {
  import opened Wrappers

  type Dict<V> = seq<(string, V)>

  /** No key is stored twice: the invariant every Python dict keeps. */
  ghost predicate DistinctKeys<V>(d: Dict<V>) {
    forall i, j :: 0 <= i < j < |d| ==> d[i].0 != d[j].0
  }

  predicate HasKey<V>(d: Dict<V>, k: string) {
    exists i :: 0 <= i < |d| && d[i].0 == k
  }

  /** Position of the first entry whose key is `k`. */
  function IndexOf<V>(d: Dict<V>, k: string): (r: Option<nat>)
    ensures r.Some? ==> r.value < |d| && d[r.value].0 == k
    ensures r.Some? ==> forall j :: 0 <= j < r.value ==> d[j].0 != k
    ensures r.None? <==> !HasKey(d, k)
  {
    if d == [] then None
    else if d[0].0 == k then Some(0)
    else
      match IndexOf(d[1..], k)
      case None =>
        assert forall j :: 1 <= j < |d| ==> d[j] == d[1..][j - 1];
        None
      case Some(i) =>
        assert d[1..][i] == d[i + 1];
        assert forall j :: 1 <= j <= i ==> d[j] == d[1..][j - 1];
        Some(i + 1)
  }

  /** The first entry holding `k` is the one `IndexOf` finds. */
  lemma IndexOfFirst<V>(d: Dict<V>, i: nat, k: string)
    requires i < |d| && d[i].0 == k && forall j :: 0 <= j < i ==> d[j].0 != k
    ensures IndexOf(d, k) == Some(i)
  {
  }

  /** `d.get(k)`: the value stored under `k`, if any. */
  function Get<V>(d: Dict<V>, k: string): (r: Option<V>)
    ensures r.Some? <==> HasKey(d, k)
    ensures r.Some? ==> exists i :: 0 <= i < |d| && d[i] == (k, r.value)
  {
    match IndexOf(d, k)
    case None => None
    case Some(i) => Some(d[i].1)
  }

  /** `d.get(k, default)`. */
  function GetOr<V>(d: Dict<V>, k: string, default: V): V {
    Get(d, k).GetOr(default)
  }

  /** `d[k] = v`: an existing key keeps its position, a new key is appended. */
  function Put<V>(d: Dict<V>, k: string, v: V): (r: Dict<V>)
    ensures Get(r, k) == Some(v)
    ensures forall k' :: k' != k ==> Get(r, k') == Get(d, k')
    ensures HasKey(d, k) ==> |r| == |d|
    ensures !HasKey(d, k) ==> r == d + [(k, v)]
    ensures DistinctKeys(d) ==> DistinctKeys(r)
  {
    match IndexOf(d, k)
    case Some(i) =>
      var r := d[i := (k, v)];
      assert r[i].0 == k;
      assert HasKey(r, k);
      forall k' | k' != k ensures Get(r, k') == Get(d, k') {
        KeysAgree(d, r, k');
      }
      r
    case None =>
      var r := d + [(k, v)];
      assert r[|d|].0 == k;
      assert HasKey(r, k);
      assert forall j :: 0 <= j < |d| ==> r[j] == d[j];
      forall k' | k' != k ensures Get(r, k') == Get(d, k') {
        KeysAgree(d, r, k');
      }
      r
  }

  /** Two dicts that agree on every entry up to (and including) the first
      occurrence of `k` agree on `k`. */
  lemma KeysAgree<V>(d: Dict<V>, e: Dict<V>, k: string)
    requires |d| <= |e|
    requires forall j :: 0 <= j < |d| && (d[j].0 == k || e[j].0 == k) ==> d[j] == e[j]
    requires forall j :: 0 <= j < |d| ==> (d[j].0 == k <==> e[j].0 == k)
    requires forall j :: |d| <= j < |e| ==> e[j].0 != k
    ensures Get(d, k) == Get(e, k)
  {
    var a := IndexOf(d, k);
    if a.Some? {
      assert e[a.value].0 == k;
      assert HasKey(e, k);
    }
  }

  /** `d.update(entries)`: the entries are stored one after the other. */
  function Update<V>(d: Dict<V>, entries: seq<(string, V)>): (r: Dict<V>)
    ensures DistinctKeys(d) ==> DistinctKeys(r)
    decreases |entries|
  {
    if entries == [] then d
    else Update(Put(d, entries[0].0, entries[0].1), entries[1..])
  }

  /** The value the LAST entry for `k` carries, if any entry does. */
  function LastValue<V>(entries: seq<(string, V)>, k: string): Option<V> {
    if entries == [] then None
    else
      var later := LastValue(entries[1..], k);
      if later.Some? then later
      else if entries[0].0 == k then Some(entries[0].1)
      else None
  }

  lemma {:induction false} UpdateGet<V>(d: Dict<V>, entries: seq<(string, V)>, k: string)
    ensures Get(Update(d, entries), k)
         == (if LastValue(entries, k).Some? then LastValue(entries, k) else Get(d, k))
    decreases |entries|
  {
    if entries != [] {
      UpdateGet(Put(d, entries[0].0, entries[0].1), entries[1..], k);
    }
  }

  /** A dict literal `{k1: v1, k2: v2, ...}`. */
  function Literal<V>(entries: seq<(string, V)>): (r: Dict<V>)
    ensures DistinctKeys(r)
    ensures forall k :: Get(r, k) == LastValue(entries, k)
  {
    var r := Update([], entries);
    forall k ensures Get(r, k) == LastValue(entries, k) {
      UpdateGet([], entries, k);
    }
    r
  }

  /** A literal naming the same key twice collapses to a single entry
      holding the second value. */
  lemma LiteralDuplicateCollapses<V>(k: string, first: V, second: V)
    ensures Literal([(k, first), (k, second)]) == [(k, second)]
  {
    var once := Put([], k, first);
    assert once == [(k, first)];
    assert IndexOf(once, k) == Some(0);
    assert Put(once, k, second) == [(k, second)];
    assert Update([], [(k, first), (k, second)]) == Update(once, [(k, second)]);
    assert Update(once, [(k, second)]) == Update(Put(once, k, second), []);
  }
}

=== FILE: filters.dfy ===
/** The predicate filter engine (`apply_filters`) and the two hard-coded
    contract predicates of filters/contract_filters.py.

    A filter specification is an ordered dict from column name to either a
    bare value (equality) or an operator dict. The engine narrows an all-true
    mask condition by condition and raises on the first unsupported operator,
    missing column or type clash it meets. */
module Filters {
  import opened Wrappers
  import opened Dicts
  import opened Values
  import opened Tables

  /** The nine operators the engine understands. */
  const Operators: set<string> := {"=", "!=", "in", ">=", "<=", ">", "<", "isna", "notna"}

  datatype Cond =
    | Equals(value: Value)          // a bare, non-dict condition
    | Ops(ops: Dict<Value>)          // an operator dict {op: operand, ...}

  type Spec = Dict<Cond>

  datatype FilterError =
    | UnsupportedOperator(op: string)          // ValueError
    | MissingColumn(column: string)            // KeyError from df[column]
    | TypeMismatch(column: string, op: string) // TypeError from the comparison

  // ---------------------------------------------------------------------
  // What a row must satisfy
  // ---------------------------------------------------------------------

  /** `x <op> operand` for one cell. `isna`/`notna` ignore their operand;
      `in` needs a list operand and matches a null against a null. */
  predicate OpHolds(op: string, x: Value, operand: Value) {
    if op == "isna" then x.Null?
    else if op == "notna" then !x.Null?
    else if op == "in" then
      operand.List? && exists k :: 0 <= k < |operand.items| && IsinEq(x, operand.items[k])
    else if IsComparison(op) then Compare(op, x, operand)
    else false
  }

  predicate CondSat(cond: Cond, x: Value) {
    match cond
    case Equals(v) => OpHolds("=", x, v)
    case Ops(ops) => forall j :: 0 <= j < |ops| ==> OpHolds(ops[j].0, x, ops[j].1)
  }

  /** A row passes a specification when it satisfies every condition of
      every column, every operator of an operator dict included. */
  predicate RowSat(spec: Spec, r: Row) {
    forall i :: 0 <= i < |spec| ==> CondSat(spec[i].1, Cell(r, spec[i].0))
  }

  function SatMask(spec: Spec, rows: seq<Row>): (m: seq<bool>)
    ensures |m| == |rows| && forall i :: 0 <= i < |rows| ==> m[i] == RowSat(spec, rows[i])
  {
    seq(|rows|, i requires 0 <= i < |rows| => RowSat(spec, rows[i]))
  }

  // ---------------------------------------------------------------------
  // When evaluation raises
  // ---------------------------------------------------------------------

  /** The operand is acceptable for every cell of the column: `isin` needs
      a list, and the ordering operators need orderable kinds. */
  predicate OperandOk(op: string, operand: Value, cells: seq<Value>) {
    && (op == "in" ==> operand.List?)
    && (IsOrdering(op) ==> forall i :: 0 <= i < |cells| ==> CompareTypeOk(op, cells[i], operand))
  }

  /** The error one operator raises, if any. The unsupported-operator test
      comes first: that branch never looks the column up. */
  function OpError(t: Table, column: string, op: string, operand: Value): Option<FilterError> {
    if op !in Operators then Some(UnsupportedOperator(op))
    else if column !in t.columns then Some(MissingColumn(column))
    else if !OperandOk(op, operand, Column(t.rows, column)) then Some(TypeMismatch(column, op))
    else None
  }

  /** A bare value always indexes the column; an operator dict only does so
      through its operators (an empty dict never fails). */
  predicate CondOk(t: Table, column: string, cond: Cond) {
    match cond
    case Equals(_) => column in t.columns
    case Ops(ops) => forall j :: 0 <= j < |ops| ==> OpError(t, column, ops[j].0, ops[j].1).None?
  }

  predicate SpecOk(t: Table, spec: Spec) {
    forall i :: 0 <= i < |spec| ==> CondOk(t, spec[i].0, spec[i].1)
  }

  // ---------------------------------------------------------------------
  // The engine
  // ---------------------------------------------------------------------

  /** One operator of one column, as a mask over the rows. */
  function EvalOp(t: Table, column: string, op: string, operand: Value): (r: Result<seq<bool>, FilterError>)
    ensures r.Failure? <==> OpError(t, column, op, operand).Some?
    ensures r.Failure? ==> r.error == OpError(t, column, op, operand).value
    ensures r.Success? ==> |r.value| == |t.rows|
    ensures r.Success? ==> forall i :: 0 <= i < |t.rows| ==>
              r.value[i] == OpHolds(op, Cell(t.rows[i], column), operand)
  {
    var err := OpError(t, column, op, operand);
    if err.Some? then Failure(err.value)
    else Success(seq(|t.rows|, i requires 0 <= i < |t.rows| => OpHolds(op, Cell(t.rows[i], column), operand)))
  }

  /** The operators of one operator dict, ANDed into `mask` in order. */
  function EvalOps(t: Table, column: string, ops: Dict<Value>, mask: seq<bool>): (r: Result<seq<bool>, FilterError>)
    requires |mask| == |t.rows|
    ensures r.Success? <==> CondOk(t, column, Ops(ops))
    ensures r.Success? ==> |r.value| == |mask| && forall i :: 0 <= i < |mask| ==>
              r.value[i] == (mask[i] && CondSat(Ops(ops), Cell(t.rows[i], column)))
    decreases |ops|
  {
    if ops == [] then Success(mask)
    else
      match EvalOp(t, column, ops[0].0, ops[0].1)
      case Failure(e) => Failure(e)
      case Success(m) =>
        var r := EvalOps(t, column, ops[1..], And(mask, m));
        assert CondOk(t, column, Ops(ops)) <==> CondOk(t, column, Ops(ops[1..])) by {
          assert forall j :: 1 <= j < |ops| ==> ops[j] == ops[1..][j - 1];
        }
        assert forall x :: CondSat(Ops(ops), x) <==> OpHolds(ops[0].0, x, ops[0].1) && CondSat(Ops(ops[1..]), x) by {
          assert forall j :: 1 <= j < |ops| ==> ops[j] == ops[1..][j - 1];
        }
        r
  }

  /** One column's condition, ANDed into `mask`. */
  function EvalCond(t: Table, column: string, cond: Cond, mask: seq<bool>): (r: Result<seq<bool>, FilterError>)
    requires |mask| == |t.rows|
    ensures r.Success? <==> CondOk(t, column, cond)
    ensures r.Success? ==> |r.value| == |mask| && forall i :: 0 <= i < |mask| ==>
              r.value[i] == (mask[i] && CondSat(cond, Cell(t.rows[i], column)))
  {
    match cond
    case Equals(v) =>
      (match EvalOp(t, column, "=", v)
       case Failure(e) => Failure(e)
       case Success(m) => Success(And(mask, m)))
    case Ops(ops) => EvalOps(t, column, ops, mask)
  }

  /** Every column of the specification, ANDed into `mask` in order. */
  function EvalSpec(t: Table, spec: Spec, mask: seq<bool>): (r: Result<seq<bool>, FilterError>)
    requires |mask| == |t.rows|
    ensures r.Success? <==> SpecOk(t, spec)
    ensures r.Success? ==> |r.value| == |mask| && forall i :: 0 <= i < |mask| ==>
              r.value[i] == (mask[i] && RowSat(spec, t.rows[i]))
    decreases |spec|
  {
    if spec == [] then Success(mask)
    else
      match EvalCond(t, spec[0].0, spec[0].1, mask)
      case Failure(e) =>
        assert !CondOk(t, spec[0].0, spec[0].1);
        Failure(e)
      case Success(m) =>
        var r := EvalSpec(t, spec[1..], m);
        assert SpecOk(t, spec) <==> SpecOk(t, spec[1..]) by {
          assert forall j :: 1 <= j < |spec| ==> spec[j] == spec[1..][j - 1];
        }
        assert forall row :: RowSat(spec, row) <==> CondSat(spec[0].1, Cell(row, spec[0].0)) && RowSat(spec[1..], row) by {
          assert forall j :: 1 <= j < |spec| ==> spec[j] == spec[1..][j - 1];
        }
        r
  }

  /** `apply_filters(df, filters)`: the rows satisfying every condition, in
      their original order, or the error the first failing condition raises. */
  function ApplyFilters(t: Table, spec: Spec): (r: Result<Table, FilterError>)
    ensures r.Success? <==> SpecOk(t, spec)
    ensures r.Success? ==> r.value == Table(t.columns, Select(t.rows, SatMask(spec, t.rows)))
  {
    match EvalSpec(t, spec, AllTrue(|t.rows|))
    case Failure(e) => Failure(e)
    case Success(m) =>
      SelectSameMask(t.rows, m, SatMask(spec, t.rows));
      Success(Table(t.columns, Select(t.rows, m)))
  }

  // ---------------------------------------------------------------------
  // Properties of the engine
  // ---------------------------------------------------------------------

  lemma CondSatSingle(op: string, v: Value, x: Value)
    ensures CondSat(Ops([(op, v)]), x) <==> OpHolds(op, x, v)
  {
    assert [(op, v)][0] == (op, v);
  }

  lemma CondOkSingle(t: Table, column: string, op: string, v: Value)
    ensures CondOk(t, column, Ops([(op, v)])) <==> OpError(t, column, op, v).None?
  {
    assert [(op, v)][0] == (op, v);
  }

  lemma RowSatSingle(column: string, cond: Cond, r: Row)
    ensures RowSat([(column, cond)], r) <==> CondSat(cond, Cell(r, column))
  {
    assert [(column, cond)][0] == (column, cond);
  }

  lemma SpecOkSingle(t: Table, column: string, cond: Cond)
    ensures SpecOk(t, [(column, cond)]) <==> CondOk(t, column, cond)
  {
    assert [(column, cond)][0] == (column, cond);
  }

  /** The result is an order-preserving subsequence of the input rows, and
      a row of the input is kept exactly when it satisfies the whole
      specification. */
  lemma FilterKeepsExactlySatisfyingRows(t: Table, spec: Spec, r: Row)
    requires ApplyFilters(t, spec).Success?
    ensures IsSubsequence(ApplyFilters(t, spec).value.rows, t.rows)
    ensures r in ApplyFilters(t, spec).value.rows <==>
              exists i :: 0 <= i < |t.rows| && t.rows[i] == r && RowSat(spec, r)
  {
    SelectIsSubsequence(t.rows, SatMask(spec, t.rows));
    SelectMembership(t.rows, SatMask(spec, t.rows), r);
  }

  /** An empty specification returns the table unchanged. */
  lemma EmptySpecKeepsAll(t: Table)
    ensures ApplyFilters(t, []) == Success(t)
  {
    SelectSameMask(t.rows, SatMask([], t.rows), AllTrue(|t.rows|));
    SelectAll(t.rows);
  }

  /** A bare value behaves exactly like `{"=": value}`, wherever it stands
      in the specification: same rows kept, same error raised. */
  lemma BareValueIsEquality(t: Table, spec: Spec, i: nat, v: Value)
    requires i < |spec| && spec[i].1 == Equals(v)
    ensures ApplyFilters(t, spec) == ApplyFilters(t, spec[i := (spec[i].0, Ops([("=", v)]))])
  {
    BareValueEvaluatesAlike(t, spec, i, v, AllTrue(|t.rows|));
  }

  lemma {:induction false} BareValueEvaluatesAlike(t: Table, spec: Spec, i: nat, v: Value, mask: seq<bool>)
    requires |mask| == |t.rows|
    requires i < |spec| && spec[i].1 == Equals(v)
    ensures EvalSpec(t, spec, mask) == EvalSpec(t, spec[i := (spec[i].0, Ops([("=", v)]))], mask)
    decreases i
  {
    var spec' := spec[i := (spec[i].0, Ops([("=", v)]))];
    assert spec'[1..] == if i == 0 then spec[1..] else spec[1..][i - 1 := (spec[i].0, Ops([("=", v)]))];
    if i == 0 {
      var ops := [("=", v)];
      match EvalOp(t, spec[0].0, "=", v)
      case Failure(e) =>
      case Success(m) =>
        assert ops[1..] == [];
        assert EvalOps(t, spec[0].0, ops, mask) == EvalOps(t, spec[0].0, ops[1..], And(mask, m));
    } else {
      assert spec'[0] == spec[0];
      match EvalCond(t, spec[0].0, spec[0].1, mask)
      case Failure(e) =>
      case Success(m) =>
        BareValueEvaluatesAlike(t, spec[1..], i - 1, v, m);
    }
  }

  /** An operator outside the nine fails the whole evaluation, whatever
      comes before or after it. */
  lemma UnsupportedOperatorFails(t: Table, spec: Spec, i: nat, j: nat)
    requires i < |spec| && spec[i].1.Ops? && j < |spec[i].1.ops|
    requires spec[i].1.ops[j].0 !in Operators
    ensures ApplyFilters(t, spec).Failure?
  {
    assert !CondOk(t, spec[i].0, spec[i].1);
  }

  /** A column the table lacks fails evaluation for every operator,
      `isna`/`notna` included, and for a bare value. */
  lemma MissingColumnFails(t: Table, spec: Spec, i: nat)
    requires i < |spec| && spec[i].0 !in t.columns
    requires spec[i].1.Equals? || (spec[i].1.ops != [] && spec[i].1.ops[0].0 in Operators)
    ensures ApplyFilters(t, spec).Failure?
  {
    assert !CondOk(t, spec[i].0, spec[i].1);
  }

  /** `isna` and `notna` on the same column split the table into two
      disjoint parts whose sizes add up to the row count, whatever their
      operands say. */
  lemma IsnaNotnaPartition(t: Table, column: string, a: Value, b: Value)
    requires column in t.columns
    ensures ApplyFilters(t, [(column, Ops([("isna", a)]))]).Success?
    ensures ApplyFilters(t, [(column, Ops([("notna", b)]))]).Success?
    ensures ApplyFilters(t, [(column, Ops([("isna", a)]))]) == ApplyFilters(t, [(column, Ops([("isna", Bool(true))]))])
    ensures |ApplyFilters(t, [(column, Ops([("isna", a)]))]).value.rows|
          + |ApplyFilters(t, [(column, Ops([("notna", b)]))]).value.rows| == |t.rows|
    ensures forall r :: r in ApplyFilters(t, [(column, Ops([("notna", b)]))]).value.rows ==> Cell(r, column) != Null
    ensures forall r :: r in ApplyFilters(t, [(column, Ops([("isna", a)]))]).value.rows ==> Cell(r, column) == Null
  {
    var na: Spec := [(column, Ops([("isna", a)]))];
    var na': Spec := [(column, Ops([("isna", Bool(true))]))];
    var nn: Spec := [(column, Ops([("notna", b)]))];
    forall row
      ensures RowSat(na, row) <==> Cell(row, column).Null?
      ensures RowSat(na', row) <==> Cell(row, column).Null?
      ensures RowSat(nn, row) <==> !Cell(row, column).Null?
    {
      RowSatSingle(column, Ops([("isna", a)]), row);
      RowSatSingle(column, Ops([("isna", Bool(true))]), row);
      RowSatSingle(column, Ops([("notna", b)]), row);
      CondSatSingle("isna", a, Cell(row, column));
      CondSatSingle("isna", Bool(true), Cell(row, column));
      CondSatSingle("notna", b, Cell(row, column));
    }
    SpecOkSingle(t, column, Ops([("isna", a)]));
    SpecOkSingle(t, column, Ops([("isna", Bool(true))]));
    SpecOkSingle(t, column, Ops([("notna", b)]));
    CondOkSingle(t, column, "isna", a);
    CondOkSingle(t, column, "isna", Bool(true));
    CondOkSingle(t, column, "notna", b);
    SelectSameMask(t.rows, SatMask(na, t.rows), SatMask(na', t.rows));
    SelectSameMask(t.rows, SatMask(nn, t.rows), Negate(SatMask(na, t.rows)));
    SelectComplementSizes(t.rows, SatMask(na, t.rows));
    forall r | r in ApplyFilters(t, nn).value.rows ensures Cell(r, column) != Null {
      SelectMembership(t.rows, SatMask(nn, t.rows), r);
    }
    forall r | r in ApplyFilters(t, na).value.rows ensures Cell(r, column) == Null {
      SelectMembership(t.rows, SatMask(na, t.rows), r);
    }
  }

  // ---------------------------------------------------------------------
  // The two hard-coded contract predicates
  // ---------------------------------------------------------------------

  const RenewalOpportunity := "SBQQ__RenewalOpportunity__c"

  /** The end-date test is the only difference between the two predicates. */
  function ContractSpec(endDateOp: string, bound: int): Spec {
    [ ("EndDate", Ops([(endDateOp, Date(bound))])),
      ("Status", Equals(Str("Activated"))),
      (RenewalOpportunity, Ops([("isna", Bool(true))])) ]
  }

  /** `leakage_zombies(df, today)`: activated contracts without a renewal
      opportunity that ended at least 30 days ago. */
  function LeakageZombies(t: Table, today: int): Result<Table, FilterError> {
    ApplyFilters(t, ContractSpec("<=", today - 30))
  }

  /** `expiring_soon_contracts(df)`: activated contracts without a renewal
      opportunity whose end date is no earlier than 30 days before the day
      the module was loaded (`moduleToday`). */
  function ExpiringSoon(t: Table, moduleToday: int): Result<Table, FilterError> {
    ApplyFilters(t, ContractSpec(">=", moduleToday - 30))
  }

  /** What each contract predicate demands of a row. */
  lemma ContractSpecMeaning(r: Row, op: string, bound: int)
    requires op == "<=" || op == ">="
    ensures RowSat(ContractSpec(op, bound), r) <==>
      && Cell(r, "EndDate").Date?
      && (if op == "<=" then Cell(r, "EndDate").day <= bound else Cell(r, "EndDate").day >= bound)
      && Cell(r, "Status") == Str("Activated")
      && Cell(r, RenewalOpportunity) == Null
  {
    var spec := ContractSpec(op, bound);
    var e := Cell(r, "EndDate");
    CondSatSingle(op, Date(bound), e);
    CondSatSingle("isna", Bool(true), Cell(r, RenewalOpportunity));
    assert RowSat(spec, r) <==>
      CondSat(spec[0].1, e) && CondSat(spec[1].1, Cell(r, "Status")) && CondSat(spec[2].1, Cell(r, RenewalOpportunity));
  }

  /** Both predicates need an activated contract with no renewal
      opportunity; on the same day their end-date tests overlap exactly at
      `EndDate == today - 30`. */
  lemma ContractPredicatesOverlap(r: Row, today: int)
    ensures RowSat(ContractSpec("<=", today - 30), r) && RowSat(ContractSpec(">=", today - 30), r)
        <==> Cell(r, "EndDate") == Date(today - 30)
             && Cell(r, "Status") == Str("Activated") && Cell(r, RenewalOpportunity) == Null
    ensures Cell(r, "EndDate").Date? && Cell(r, "Status") == Str("Activated")
            && Cell(r, RenewalOpportunity) == Null
        ==> RowSat(ContractSpec("<=", today - 30), r) || RowSat(ContractSpec(">=", today - 30), r)
  {
    ContractSpecMeaning(r, "<=", today - 30);
    ContractSpecMeaning(r, ">=", today - 30);
  }
}

=== FILE: loaders.dfy ===
/** Turning query records into tables and projecting relationship objects
    into flat columns (data_extraction/loaders.py). Every operation here
    returns a new table; none can fail. */
module Loaders {
  import opened Wrappers
  import opened Dicts
  import opened Values
  import opened Tables

  /** A query record: an ordered dict of field values. */
  type Record = Dict<Value>

  // ---------------------------------------------------------------------
  // Columns of a DataFrame built from dicts
  // ---------------------------------------------------------------------

  predicate Distinct(xs: seq<string>) {
    forall i, j :: 0 <= i < j < |xs| ==> xs[i] != xs[j]
  }

  function KeysOf<V>(d: Dict<V>): (ks: seq<string>)
    ensures |ks| == |d| && forall i :: 0 <= i < |d| ==> ks[i] == d[i].0
  {
    seq(|d|, i requires 0 <= i < |d| => d[i].0)
  }

  /** `acc` followed by the keys of `keys` it lacks, in first-seen order. */
  function AddKeys(acc: seq<string>, keys: seq<string>): (r: seq<string>)
    requires Distinct(acc)
    ensures Distinct(r)
    ensures |acc| <= |r| && r[..|acc|] == acc
    ensures forall k :: k in r <==> k in acc || k in keys
    decreases |keys|
  {
    if keys == [] then acc
    else if keys[0] in acc then AddKeys(acc, keys[1..])
    else
      var r := AddKeys(acc + [keys[0]], keys[1..]);
      assert (acc + [keys[0]])[..|acc|] == acc;
      assert r[..|acc|] == r[..|acc| + 1][..|acc|];
      r
  }

  /** The columns `pd.DataFrame(list_of_dicts)` creates: every key of every
      dict, in the order first seen. */
  function UnionKeys<V>(dicts: seq<Dict<V>>): (r: seq<string>)
    ensures Distinct(r)
    ensures forall k :: k in r <==> exists i :: 0 <= i < |dicts| && HasKey(dicts[i], k)
    decreases |dicts|
  {
    if dicts == [] then []
    else
      var last := dicts[|dicts| - 1];
      var r := AddKeys(UnionKeys(dicts[..|dicts| - 1]), KeysOf(last));
      assert forall i :: 0 <= i < |dicts| - 1 ==> dicts[..|dicts| - 1][i] == dicts[i];
      forall k ensures k in KeysOf(last) <==> HasKey(last, k) {
        if HasKey(last, k) {
          var j :| 0 <= j < |last| && last[j].0 == k;
          assert KeysOf(last)[j] == k;
        }
      }
      r
  }

  /** The cells of one dict as a row map. */
  function ToMap(d: Record): (m: map<string, Value>)
    ensures forall k :: k in m <==> HasKey(d, k)
    ensures forall k :: k in m ==> Get(d, k) == Some(m[k])
  {
    map k | k in KeysOf(d) :: Get(d, k).value
  }

  /** `pd.DataFrame(records)`: one row per record, indexed 0..n-1. */
  function Frame(records: seq<Record>): (t: Table)
    ensures |t.rows| == |records|
    ensures forall i :: 0 <= i < |records| ==> t.rows[i].id == i
    ensures forall i, c :: 0 <= i < |records| ==> Cell(t.rows[i], c) == GetOr(records[i], c, Null)
  {
    var t := Table(UnionKeys(records), seq(|records|, i requires 0 <= i < |records| => Row(i, ToMap(records[i]))));
    assert forall i, c :: 0 <= i < |records| ==> Cell(t.rows[i], c) == GetOr(records[i], c, Null) by {
      forall i, c | 0 <= i < |records| ensures Cell(t.rows[i], c) == GetOr(records[i], c, Null) {
        assert Get(records[i], c).None? <==> c !in ToMap(records[i]);
      }
    }
    t
  }

  // ---------------------------------------------------------------------
  // Dropping columns
  // ---------------------------------------------------------------------

  /** `df.drop(columns=...)` restricted to the names the table has. */
  function Drop(t: Table, names: seq<string>): (r: Table)
    ensures IsSubsequence(r.columns, t.columns)
    ensures forall c :: c in r.columns <==> c in t.columns && c !in names
    ensures |r.rows| == |t.rows|
    ensures forall i :: 0 <= i < |t.rows| ==> r.rows[i].id == t.rows[i].id
    ensures forall i, c :: 0 <= i < |t.rows| && c !in names ==> Cell(r.rows[i], c) == Cell(t.rows[i], c)
    ensures forall i, c :: 0 <= i < |t.rows| && c in names ==> Cell(r.rows[i], c) == Null
  {
    Table(Keep(t.columns, names),
          seq(|t.rows|, i requires 0 <= i < |t.rows| =>
            Row(t.rows[i].id, map k | k in t.rows[i].cells && k !in names :: t.rows[i].cells[k])))
  }

  /** The names of `cs` not listed in `names`, in order. */
  function Keep(cs: seq<string>, names: seq<string>): (r: seq<string>)
    ensures IsSubsequence(r, cs)
    ensures forall c :: c in r <==> c in cs && c !in names
    ensures Distinct(cs) ==> Distinct(r)
  {
    if cs == [] then []
    else if cs[0] in names then
      var r := Keep(cs[1..], names);
      SkipHead(r, cs);
      r
    else
      var r := Keep(cs[1..], names);
      assert ([cs[0]] + r)[1..] == r;
      [cs[0]] + r
  }

  /** `records_to_df(records)`: the DataFrame of the records without the
      `attributes` column. */
  function RecordsToDf(records: seq<Record>): (t: Table)
    ensures |t.rows| == |records|
    ensures forall i :: 0 <= i < |records| ==> t.rows[i].id == i
    ensures IsSubsequence(t.columns, UnionKeys(records))
    ensures forall c :: c in t.columns <==>
              c != "attributes" && exists i :: 0 <= i < |records| && HasKey(records[i], c)
    ensures forall i, c :: 0 <= i < |records| && c != "attributes" ==>
              Cell(t.rows[i], c) == GetOr(records[i], c, Null)
  {
    var df := Frame(records);
    if "attributes" in df.columns then Drop(df, ["attributes"])
    else
      KeepNothing(df.columns, ["attributes"]);
      df
  }

  /** Without an `attributes` field anywhere, the columns are exactly those
      of the plain DataFrame. */
  lemma RecordsToDfNoAttributes(records: seq<Record>)
    requires forall i :: 0 <= i < |records| ==> !HasKey(records[i], "attributes")
    ensures RecordsToDf(records) == Frame(records)
  {
  }

  // ---------------------------------------------------------------------
  // One-level extraction
  // ---------------------------------------------------------------------

  /** `x.get(field) if isinstance(x, dict) else None`. */
  function Project(x: Value, field: string): Value {
    if x.Obj? && field in x.fields then x.fields[field] else Null
  }

  /** `df[name] = values`: an existing column is overwritten in place, a new
      one is appended. */
  function SetColumn(t: Table, name: string, values: seq<Value>): (r: Table)
    requires |values| == |t.rows|
    ensures r.columns == if name in t.columns then t.columns else t.columns + [name]
    ensures |r.rows| == |t.rows|
    ensures forall i :: 0 <= i < |t.rows| ==> r.rows[i].id == t.rows[i].id
    ensures forall i :: 0 <= i < |t.rows| ==> Cell(r.rows[i], name) == values[i]
    ensures forall i, c :: 0 <= i < |t.rows| && c != name ==> Cell(r.rows[i], c) == Cell(t.rows[i], c)
  {
    Table(if name in t.columns then t.columns else t.columns + [name],
          seq(|t.rows|, i requires 0 <= i < |t.rows| => Row(t.rows[i].id, t.rows[i].cells[name := values[i]])))
  }

  /** The destination names of one field mapping. */
  function Dests(fm: Dict<string>): (s: set<string>)
    ensures forall d :: d in s <==> exists j :: 0 <= j < |fm| && fm[j].1 == d
  {
    set j | 0 <= j < |fm| :: fm[j].1
  }

  function AllDests(m: Dict<Dict<string>>): (s: set<string>)
    ensures forall d :: d in s <==> exists i :: 0 <= i < |m| && d in Dests(m[i].1)
    decreases |m|
  {
    if m == [] then {}
    else
      assert forall i :: 1 <= i < |m| ==> m[i] == m[1..][i - 1];
      Dests(m[0].1) + AllDests(m[1..])
  }

  /** The inner loop: every field of one relationship column. */
  function ExtractFields(t: Table, source: string, fm: Dict<string>): (r: Table)
    ensures |r.rows| == |t.rows|
    ensures forall i :: 0 <= i < |t.rows| ==> r.rows[i].id == t.rows[i].id
    ensures forall c :: c !in Dests(fm) ==> (c in r.columns <==> c in t.columns)
    ensures forall c :: c in t.columns ==> c in r.columns
    ensures forall i, c :: 0 <= i < |t.rows| && c !in Dests(fm) ==> Cell(r.rows[i], c) == Cell(t.rows[i], c)
    decreases |fm|
  {
    if fm == [] then t
    else
      var values := seq(|t.rows|, i requires 0 <= i < |t.rows| => Project(Cell(t.rows[i], source), fm[0].0));
      assert forall j :: 1 <= j < |fm| ==> fm[j] == fm[1..][j - 1];
      assert Dests(fm) == {fm[0].1} + Dests(fm[1..]);
      ExtractFields(SetColumn(t, fm[0].1, values), source, fm[1..])
  }

  /** `extract_nested_fields(df, nested_mapping)`: for every relationship
      column present at its turn, one destination column per field. Columns
      that are not destinations keep their cells; no row is added or lost. */
  function ExtractNestedFields(t: Table, m: Dict<Dict<string>>): (r: Table)
    ensures |r.rows| == |t.rows|
    ensures forall i :: 0 <= i < |t.rows| ==> r.rows[i].id == t.rows[i].id
    ensures forall c :: c !in AllDests(m) ==> (c in r.columns <==> c in t.columns)
    ensures forall c :: c in t.columns ==> c in r.columns
    ensures forall i, c :: 0 <= i < |t.rows| && c !in AllDests(m) ==> Cell(r.rows[i], c) == Cell(t.rows[i], c)
    decreases |m|
  {
    if m == [] then t
    else
      var t1 := if m[0].0 in t.columns then ExtractFields(t, m[0].0, m[0].1) else t;
      ExtractNestedFields(t1, m[1..])
  }

  /** The destination `d` of field `j` of entry `i` is written by no other
      field of the mapping, and no source column is a destination. */
  predicate Separated(m: Dict<Dict<string>>, i: nat, j: nat)
    requires i < |m| && j < |m[i].1|
  {
    && m[i].0 !in AllDests(m)
    && (forall j' :: 0 <= j' < |m[i].1| && j' != j ==> m[i].1[j'].1 != m[i].1[j].1)
    && (forall i' :: 0 <= i' < |m| && i' != i ==> m[i].1[j].1 !in Dests(m[i'].1))
  }

  lemma {:induction false} ExtractFieldsValue(t: Table, source: string, fm: Dict<string>, j: nat)
    requires j < |fm| && source in t.columns && source !in Dests(fm)
    requires forall j' :: 0 <= j' < |fm| && j' != j ==> fm[j'].1 != fm[j].1
    ensures fm[j].1 in ExtractFields(t, source, fm).columns
    ensures forall k :: 0 <= k < |t.rows| ==>
              Cell(ExtractFields(t, source, fm).rows[k], fm[j].1) == Project(Cell(t.rows[k], source), fm[j].0)
    decreases |fm|
  {
    var values := seq(|t.rows|, i requires 0 <= i < |t.rows| => Project(Cell(t.rows[i], source), fm[0].0));
    var t1 := SetColumn(t, fm[0].1, values);
    assert forall j' :: 1 <= j' < |fm| ==> fm[j'] == fm[1..][j' - 1];
    if j == 0 {
      assert fm[0].1 !in Dests(fm[1..]);
    } else {
      assert fm[0].1 != source;
      ExtractFieldsValue(t1, source, fm[1..], j - 1);
    }
  }

  /** Each destination of a separated mapping holds `cell.get(field)` of its
      relationship column when that column exists, and is not created when
      it does not. */
  lemma {:induction false} ExtractNestedFieldsValue(t: Table, m: Dict<Dict<string>>, i: nat, j: nat)
    requires i < |m| && j < |m[i].1| && Separated(m, i, j)
    ensures m[i].0 in t.columns ==> m[i].1[j].1 in ExtractNestedFields(t, m).columns
    ensures m[i].0 in t.columns ==> forall k :: 0 <= k < |t.rows| ==>
              Cell(ExtractNestedFields(t, m).rows[k], m[i].1[j].1) == Project(Cell(t.rows[k], m[i].0), m[i].1[j].0)
    ensures m[i].0 !in t.columns && m[i].1[j].1 !in t.columns ==>
              m[i].1[j].1 !in ExtractNestedFields(t, m).columns
    decreases |m|, 1
  {
    if i == 0 {
      FirstNestedValue(t, m, j);
    } else {
      LaterNestedValue(t, m, i, j);
    }
  }

  lemma FirstNestedValue(t: Table, m: Dict<Dict<string>>, j: nat)
    requires m != [] && j < |m[0].1| && Separated(m, 0, j)
    ensures m[0].0 in t.columns ==> m[0].1[j].1 in ExtractNestedFields(t, m).columns
    ensures m[0].0 in t.columns ==> forall k :: 0 <= k < |t.rows| ==>
              Cell(ExtractNestedFields(t, m).rows[k], m[0].1[j].1) == Project(Cell(t.rows[k], m[0].0), m[0].1[j].0)
    ensures m[0].0 !in t.columns && m[0].1[j].1 !in t.columns ==>
              m[0].1[j].1 !in ExtractNestedFields(t, m).columns
  {
    assert forall i' :: 1 <= i' < |m| ==> m[i'] == m[1..][i' - 1];
    assert m[0].1[j].1 !in AllDests(m[1..]);
    if m[0].0 in t.columns {
      assert m[0].0 !in Dests(m[0].1);
      ExtractFieldsValue(t, m[0].0, m[0].1, j);
    }
  }

  lemma {:induction false} LaterNestedValue(t: Table, m: Dict<Dict<string>>, i: nat, j: nat)
    requires 0 < i < |m| && j < |m[i].1| && Separated(m, i, j)
    ensures m[i].0 in t.columns ==> m[i].1[j].1 in ExtractNestedFields(t, m).columns
    ensures m[i].0 in t.columns ==> forall k :: 0 <= k < |t.rows| ==>
              Cell(ExtractNestedFields(t, m).rows[k], m[i].1[j].1) == Project(Cell(t.rows[k], m[i].0), m[i].1[j].0)
    ensures m[i].0 !in t.columns && m[i].1[j].1 !in t.columns ==>
              m[i].1[j].1 !in ExtractNestedFields(t, m).columns
    decreases |m|, 0
  {
    var t1 := if m[0].0 in t.columns then ExtractFields(t, m[0].0, m[0].1) else t;
    assert forall i' :: 1 <= i' < |m| ==> m[i'] == m[1..][i' - 1];
    assert m[i].0 !in Dests(m[0].1);
    assert m[i].1[j].1 !in Dests(m[0].1);
    assert m[i].0 in t1.columns <==> m[i].0 in t.columns;
    assert m[i].1[j].1 in t1.columns <==> m[i].1[j].1 in t.columns;
    assert Separated(m[1..], i - 1, j);
    ExtractNestedFieldsValue(t1, m[1..], i - 1, j);
  }

  // ---------------------------------------------------------------------
  // Recursive extraction
  // ---------------------------------------------------------------------

  /** A nested mapping: each key of a source object maps to a destination
      name (a string leaf), to a sub-mapping, or to something else, which is
      ignored. */
  datatype Node =
    | Leaf(dest: string)
    | Nested(entries: seq<(string, Node)>)
    | Ignored

  type NestedMapping = seq<(string, Node)>

  /** `data.get(key)`. */
  function Lookup(fields: map<string, Value>, key: string): Value {
    if key in fields then fields[key] else Null
  }

  /** `extract_from_dict(data, mapping)`: nothing for non-object input;
      otherwise the mapping's entries in order, a leaf storing `data.get(key)`
      under its destination and a sub-mapping merging in what its recursive
      call extracts from an object sub-value. */
  function ExtractFromDict(data: Value, mapping: NestedMapping): (r: Dict<Value>)
    ensures DistinctKeys(r)
    ensures !data.Obj? ==> r == []
    decreases Nested(mapping), |mapping| + 1
  {
    if !data.Obj? then [] else ExtractEntries(data.fields, mapping, 0, [])
  }

  /** The loop over the entries from position `i` on, with `acc` the result
      so far. */
  function ExtractEntries(fields: map<string, Value>, mapping: NestedMapping, i: nat, acc: Dict<Value>): (r: Dict<Value>)
    requires i <= |mapping|
    ensures DistinctKeys(acc) ==> DistinctKeys(r)
    decreases Nested(mapping), |mapping| - i
  {
    if i == |mapping| then acc
    else
      var key := mapping[i].0;
      assert mapping[i] in mapping;
      var acc' :=
        match mapping[i].1
        case Leaf(d) => Put(acc, d, Lookup(fields, key))
        case Nested(sub) =>
          var nested := Lookup(fields, key);
          if nested.Obj? then Update(acc, ExtractFromDict(nested, sub)) else acc
        case Ignored => acc;
      ExtractEntries(fields, mapping, i + 1, acc')
  }

  /** The reference reading: the leaves the mapping reaches in `data`, in
      mapping order, each with the value it copies. */
  function Leaves(data: Value, mapping: NestedMapping): seq<(string, Value)>
    decreases Nested(mapping), |mapping| + 1
  {
    if !data.Obj? then [] else LeavesFrom(data.fields, mapping, 0)
  }

  function LeavesFrom(fields: map<string, Value>, mapping: NestedMapping, i: nat): seq<(string, Value)>
    requires i <= |mapping|
    decreases Nested(mapping), |mapping| - i
  {
    if i == |mapping| then []
    else
      var key := mapping[i].0;
      assert mapping[i] in mapping;
      var here :=
        match mapping[i].1
        case Leaf(d) => [(d, Lookup(fields, key))]
        case Nested(sub) => Leaves(Lookup(fields, key), sub)
        case Ignored => [];
      here + LeavesFrom(fields, mapping, i + 1)
  }

  lemma {:induction false} LastValueAppend<V>(a: seq<(string, V)>, b: seq<(string, V)>, k: string)
    ensures LastValue(a + b, k) == if LastValue(b, k).Some? then LastValue(b, k) else LastValue(a, k)
    decreases |a|
  {
    if a != [] {
      assert (a + b)[1..] == a[1..] + b;
      LastValueAppend(a[1..], b, k);
    } else {
      assert a + b == b;
    }
  }

  lemma {:induction false} LastValueDistinct<V>(d: Dict<V>, k: string)
    requires DistinctKeys(d)
    ensures LastValue(d, k) == Get(d, k)
    decreases |d|
  {
    if d != [] {
      assert DistinctKeys(d[1..]) by {
        assert forall j :: 1 <= j < |d| ==> d[j] == d[1..][j - 1];
      }
      LastValueDistinct(d[1..], k);
      assert forall j :: 1 <= j < |d| ==> d[j] == d[1..][j - 1];
      if d[0].0 == k {
        assert !HasKey(d[1..], k);
      } else if HasKey(d[1..], k) {
        var i := IndexOf(d[1..], k).value;
        assert IndexOf(d, k) == Some(i + 1);
      }
    }
  }

  /** The value extracted under `k` is the one the LAST leaf named `k`
      copies, and `k` is absent when no reachable leaf names it: a missing
      path is omitted, never an error. */
  lemma {:induction false} ExtractFromDictGet(data: Value, mapping: NestedMapping, k: string)
    ensures Get(ExtractFromDict(data, mapping), k) == LastValue(Leaves(data, mapping), k)
    decreases Nested(mapping), |mapping| + 1
  {
    if data.Obj? {
      ExtractEntriesGet(data.fields, mapping, 0, [], k);
    }
  }

  lemma {:induction false} ExtractEntriesGet(fields: map<string, Value>, mapping: NestedMapping, i: nat, acc: Dict<Value>, k: string)
    requires i <= |mapping|
    ensures Get(ExtractEntries(fields, mapping, i, acc), k)
         == if LastValue(LeavesFrom(fields, mapping, i), k).Some? then LastValue(LeavesFrom(fields, mapping, i), k) else Get(acc, k)
    decreases Nested(mapping), |mapping| - i
  {
    if i < |mapping| {
      var key := mapping[i].0;
      var rest := LeavesFrom(fields, mapping, i + 1);
      assert mapping[i] in mapping;
      match mapping[i].1
      case Leaf(d) =>
        var here := [(d, Lookup(fields, key))];
        ExtractEntriesGet(fields, mapping, i + 1, Put(acc, d, Lookup(fields, key)), k);
        assert (here + rest)[1..] == rest;
      case Nested(sub) =>
        var nested := Lookup(fields, key);
        ExtractFromDictGet(nested, sub, k);
        LastValueAppend(Leaves(nested, sub), rest, k);
        if nested.Obj? {
          var got := ExtractFromDict(nested, sub);
          ExtractEntriesGet(fields, mapping, i + 1, Update(acc, got), k);
          UpdateGet(acc, got, k);
          LastValueDistinct(got, k);
        } else {
          ExtractEntriesGet(fields, mapping, i + 1, acc, k);
        }
      case Ignored =>
        ExtractEntriesGet(fields, mapping, i + 1, acc, k);
        assert [] + rest == rest;
    }
  }

  /** Two leaves with the same destination: the later one wins. */
  lemma LaterLeafWins(fields: map<string, Value>, k1: string, k2: string, d: string)
    ensures Get(ExtractFromDict(Obj(fields), [(k1, Leaf(d)), (k2, Leaf(d))]), d) == Some(Lookup(fields, k2))
  {
    var mapping := [(k1, Leaf(d)), (k2, Leaf(d))];
    ExtractFromDictGet(Obj(fields), mapping, d);
    TwoLeaves(fields, k1, k2, d);
    SingleLeafValue(d, Lookup(fields, k2));
    LastValueAppend([(d, Lookup(fields, k1))], [(d, Lookup(fields, k2))], d);
  }

  lemma TwoLeaves(fields: map<string, Value>, k1: string, k2: string, d: string)
    ensures Leaves(Obj(fields), [(k1, Leaf(d)), (k2, Leaf(d))])
         == [(d, Lookup(fields, k1))] + [(d, Lookup(fields, k2))]
  {
    var mapping := [(k1, Leaf(d)), (k2, Leaf(d))];
    assert LeavesFrom(fields, mapping, 2) == [];
    assert LeavesFrom(fields, mapping, 1) == [(d, Lookup(fields, k2))];
  }

  lemma SingleLeafValue(d: string, v: Value)
    ensures LastValue([(d, v)], d) == Some(v)
  {
    assert [(d, v)][1..] == [];
  }

  /** A sub-mapping under a key whose value is not an object contributes
      nothing, however deep it goes. */
  lemma NonObjectSubtreeOmitted(fields: map<string, Value>, key: string, sub: NestedMapping, k: string)
    requires !Lookup(fields, key).Obj?
    ensures Get(ExtractFromDict(Obj(fields), [(key, Nested(sub))]), k).None?
  {
    ExtractFromDictGet(Obj(fields), [(key, Nested(sub))], k);
    assert LeavesFrom(fields, [(key, Nested(sub))], 1) == [];
    assert Leaves(Lookup(fields, key), sub) == [];
    assert LeavesFrom(fields, [(key, Nested(sub))], 0) == [];
  }

  // ---------------------------------------------------------------------
  // N-level extraction
  // ---------------------------------------------------------------------

  predicate PositionalIndex(t: Table) {
    forall i :: 0 <= i < |t.rows| ==> t.rows[i].id == i
  }

  /** Sets each named column from the extracted dicts: null where a row's
      dict lacks the name. */
  function AddExtracted(t: Table, names: seq<string>, ext: seq<Dict<Value>>): (r: Table)
    requires |ext| == |t.rows|
    ensures |r.rows| == |t.rows|
    ensures forall i :: 0 <= i < |t.rows| ==> r.rows[i].id == t.rows[i].id
    ensures forall c :: c in r.columns <==> c in t.columns || c in names
    ensures forall i, c :: 0 <= i < |t.rows| && c in names ==> Cell(r.rows[i], c) == GetOr(ext[i], c, Null)
    ensures forall i, c :: 0 <= i < |t.rows| && c !in names ==> Cell(r.rows[i], c) == Cell(t.rows[i], c)
    decreases |names|
  {
    if names == [] then t
    else
      var values := seq(|t.rows|, i requires 0 <= i < |t.rows| => GetOr(ext[i], names[0], Null));
      AddExtracted(SetColumn(t, names[0], values), names[1..], ext)
  }

  /** `df[top].apply(lambda x: extract_from_dict(x, mapping))`. */
  function ExtractedRows(t: Table, top: string, mapping: NestedMapping): (ext: seq<Dict<Value>>)
    ensures |ext| == |t.rows|
    ensures forall i :: 0 <= i < |t.rows| ==> ext[i] == ExtractFromDict(Cell(t.rows[i], top), mapping)
  {
    seq(|t.rows|, i requires 0 <= i < |t.rows| => ExtractFromDict(Cell(t.rows[i], top), mapping))
  }

  /** One step of the outer loop: the extracted dicts normalised into
      columns (one per name some row produced) and placed beside the table;
      a row lacking a name gets null there. */
  function ExtractTopColumn(t: Table, top: string, mapping: NestedMapping): (r: Table)
    requires top in t.columns
    ensures |r.rows| == |t.rows|
    ensures forall i :: 0 <= i < |t.rows| ==> r.rows[i].id == t.rows[i].id
    ensures forall c :: c in r.columns <==> c in t.columns || c in UnionKeys(ExtractedRows(t, top, mapping))
    ensures forall i, c :: 0 <= i < |t.rows| && c in UnionKeys(ExtractedRows(t, top, mapping)) ==>
              Cell(r.rows[i], c) == GetOr(ExtractFromDict(Cell(t.rows[i], top), mapping), c, Null)
    ensures forall i, c :: 0 <= i < |t.rows| && c !in UnionKeys(ExtractedRows(t, top, mapping)) ==>
              Cell(r.rows[i], c) == Cell(t.rows[i], c)
  {
    var ext := ExtractedRows(t, top, mapping);
    AddExtracted(t, UnionKeys(ext), ext)
  }

  /** `extract_nested_fields_n_level(df, nested_mapping)` on a table indexed
      0..n-1: top-level columns absent at their turn are skipped, and the
      row count and index never change. */
  function ExtractNestedFieldsNLevel(t: Table, m: seq<(string, NestedMapping)>): (r: Table)
    requires PositionalIndex(t)
    ensures |r.rows| == |t.rows| && PositionalIndex(r)
    ensures forall c :: c in t.columns ==> c in r.columns
    decreases |m|
  {
    if m == [] then t
    else
      var t1 := if m[0].0 in t.columns then ExtractTopColumn(t, m[0].0, m[0].1) else t;
      ExtractNestedFieldsNLevel(t1, m[1..])
  }

  /** A top-level column the table lacks adds no column. */
  lemma NLevelMissingTopSkipped(t: Table, top: string, mapping: NestedMapping)
    requires PositionalIndex(t) && top !in t.columns
    ensures ExtractNestedFieldsNLevel(t, [(top, mapping)]) == t
  {
    assert [(top, mapping)][1..] == [];
  }

  /** Every destination name a leaf of the mapping declares, at any depth. */
  function LeafDests(mapping: NestedMapping): set<string>
    decreases Nested(mapping), |mapping| + 1
  {
    LeafDestsFrom(mapping, 0)
  }

  function LeafDestsFrom(mapping: NestedMapping, i: nat): set<string>
    requires i <= |mapping|
    decreases Nested(mapping), |mapping| - i
  {
    if i == |mapping| then {}
    else
      assert mapping[i] in mapping;
      var here :=
        match mapping[i].1
        case Leaf(d) => {d}
        case Nested(sub) => LeafDests(sub)
        case Ignored => {};
      here + LeafDestsFrom(mapping, i + 1)
  }

  lemma {:induction false} LeavesInDests(data: Value, mapping: NestedMapping)
    ensures forall p :: p in Leaves(data, mapping) ==> p.0 in LeafDests(mapping)
    decreases Nested(mapping), |mapping| + 1
  {
    if data.Obj? {
      LeavesFromInDests(data.fields, mapping, 0);
    }
  }

  lemma {:induction false} LeavesFromInDests(fields: map<string, Value>, mapping: NestedMapping, i: nat)
    requires i <= |mapping|
    ensures forall p :: p in LeavesFrom(fields, mapping, i) ==> p.0 in LeafDestsFrom(mapping, i)
    decreases Nested(mapping), |mapping| - i
  {
    if i < |mapping| {
      assert mapping[i] in mapping;
      LeavesFromInDests(fields, mapping, i + 1);
      match mapping[i].1
      case Leaf(d) =>
      case Nested(sub) => LeavesInDests(Lookup(fields, mapping[i].0), sub);
      case Ignored =>
    }
  }

  lemma {:induction false} LastValueFound<V>(entries: seq<(string, V)>, k: string)
    requires LastValue(entries, k).Some?
    ensures exists p :: p in entries && p.0 == k
    decreases |entries|
  {
    if LastValue(entries[1..], k).Some? {
      LastValueFound(entries[1..], k);
      var p :| p in entries[1..] && p.0 == k;
      assert p in entries;
    } else {
      assert entries[0] in entries;
    }
  }

  /** Extraction only ever produces keys the mapping declares. */
  lemma ExtractedKeyDeclared(data: Value, mapping: NestedMapping, k: string)
    requires HasKey(ExtractFromDict(data, mapping), k)
    ensures k in LeafDests(mapping)
  {
    ExtractFromDictGet(data, mapping, k);
    LastValueFound(Leaves(data, mapping), k);
    LeavesInDests(data, mapping);
  }

  /** One step of the outer loop leaves a column no leaf of its mapping
      names exactly as it was. */
  lemma StepUntouched(t: Table, top: string, mapping: NestedMapping, c: string)
    requires top in t.columns && c !in LeafDests(mapping)
    ensures var r := ExtractTopColumn(t, top, mapping);
      && (c in r.columns <==> c in t.columns)
      && forall i :: 0 <= i < |t.rows| ==> Cell(r.rows[i], c) == Cell(t.rows[i], c)
  {
    var ext := ExtractedRows(t, top, mapping);
    if c in UnionKeys(ext) {
      var k :| 0 <= k < |ext| && HasKey(ext[k], c);
      ExtractedKeyDeclared(Cell(t.rows[k], top), mapping, c);
    }
  }

  /** A column that no leaf of any entry names survives the whole
      extraction with the same cells. */
  lemma {:induction false} NLevelUntouched(t: Table, m: seq<(string, NestedMapping)>, c: string)
    requires PositionalIndex(t)
    requires forall l :: 0 <= l < |m| ==> c !in LeafDests(m[l].1)
    ensures var r := ExtractNestedFieldsNLevel(t, m);
      && (c in r.columns <==> c in t.columns)
      && forall i :: 0 <= i < |t.rows| ==> Cell(r.rows[i], c) == Cell(t.rows[i], c)
    decreases |m|
  {
    if m != [] {
      var t1 := if m[0].0 in t.columns then ExtractTopColumn(t, m[0].0, m[0].1) else t;
      if m[0].0 in t.columns {
        StepUntouched(t, m[0].0, m[0].1, c);
      }
      assert forall l :: 0 <= l < |m| - 1 ==> m[1..][l] == m[l + 1];
      NLevelUntouched(t1, m[1..], c);
    }
  }

  /** What entry `j` of the mapping extracts reaches the final table: once
      some row produces `key`, every row's `key` cell holds what that row's
      top-level object yields for it (null where it yields nothing),
      provided no earlier entry rewrites the top-level column and no later
      one names `key` again. */
  lemma NLevelCellValue(t: Table, m: seq<(string, NestedMapping)>, j: nat, key: string)
    requires PositionalIndex(t) && j < |m| && m[j].0 in t.columns
    requires forall l :: 0 <= l < j ==> m[j].0 !in LeafDests(m[l].1)
    requires forall l :: j < l < |m| ==> key !in LeafDests(m[l].1)
    requires exists k :: 0 <= k < |t.rows| && HasKey(ExtractFromDict(Cell(t.rows[k], m[j].0), m[j].1), key)
    ensures var r := ExtractNestedFieldsNLevel(t, m);
      && key in r.columns
      && forall i :: 0 <= i < |t.rows| ==>
           Cell(r.rows[i], key) == GetOr(ExtractFromDict(Cell(t.rows[i], m[j].0), m[j].1), key, Null)
  {
    var top := m[j].0;
    var before, after := m[..j], m[j..];
    assert m == before + after;
    NLevelAppend(t, before, after);
    var t1 := ExtractNestedFieldsNLevel(t, before);
    assert forall l :: 0 <= l < |before| ==> top !in LeafDests(before[l].1);
    NLevelUntouched(t, before, top);
    var k :| 0 <= k < |t.rows| && HasKey(ExtractFromDict(Cell(t.rows[k], top), m[j].1), key);
    assert Cell(t1.rows[k], top) == Cell(t.rows[k], top);
    assert after[0] == m[j];
    assert forall l :: 0 < l < |after| ==> after[l] == m[j + l];
    FirstEntryCell(t1, after, key);
  }

  /** Extracting by a mapping in two parts is extracting by the first part
      and then by the second. */
  lemma {:induction false} NLevelAppend(t: Table, a: seq<(string, NestedMapping)>, b: seq<(string, NestedMapping)>)
    requires PositionalIndex(t)
    ensures ExtractNestedFieldsNLevel(t, a + b) == ExtractNestedFieldsNLevel(ExtractNestedFieldsNLevel(t, a), b)
    decreases |a|
  {
    if a == [] {
      assert a + b == b;
    } else {
      var t1 := if a[0].0 in t.columns then ExtractTopColumn(t, a[0].0, a[0].1) else t;
      var ab := a + b;
      assert ab[0] == a[0] && ab[1..] == a[1..] + b;
      assert ExtractNestedFieldsNLevel(t, ab) == ExtractNestedFieldsNLevel(t1, a[1..] + b);
      assert ExtractNestedFieldsNLevel(t, a) == ExtractNestedFieldsNLevel(t1, a[1..]);
      NLevelAppend(t1, a[1..], b);
    }
  }

  lemma FirstEntryCell(t: Table, m: seq<(string, NestedMapping)>, key: string)
    requires PositionalIndex(t) && m != [] && m[0].0 in t.columns
    requires forall l :: 0 < l < |m| ==> key !in LeafDests(m[l].1)
    requires exists k :: 0 <= k < |t.rows| && HasKey(ExtractFromDict(Cell(t.rows[k], m[0].0), m[0].1), key)
    ensures var r := ExtractNestedFieldsNLevel(ExtractTopColumn(t, m[0].0, m[0].1), m[1..]);
      && key in r.columns
      && forall i :: 0 <= i < |t.rows| ==>
           Cell(r.rows[i], key) == GetOr(ExtractFromDict(Cell(t.rows[i], m[0].0), m[0].1), key, Null)
  {
    TopColumnCell(t, m[0].0, m[0].1, key);
    assert forall l :: 0 <= l < |m| - 1 ==> m[1..][l] == m[l + 1];
    NLevelUntouched(ExtractTopColumn(t, m[0].0, m[0].1), m[1..], key);
  }

  /** A key some row's extraction produces becomes a column holding each
      row's extracted value, or null. */
  lemma TopColumnCell(t: Table, top: string, mapping: NestedMapping, key: string)
    requires top in t.columns
    requires exists k :: 0 <= k < |t.rows| && HasKey(ExtractFromDict(Cell(t.rows[k], top), mapping), key)
    ensures var r := ExtractTopColumn(t, top, mapping);
      && key in r.columns
      && forall i :: 0 <= i < |t.rows| ==> Cell(r.rows[i], key) == GetOr(ExtractFromDict(Cell(t.rows[i], top), mapping), key, Null)
  {
    var ext := ExtractedRows(t, top, mapping);
    var k :| 0 <= k < |t.rows| && HasKey(ExtractFromDict(Cell(t.rows[k], top), mapping), key);
    assert HasKey(ext[k], key);
  }


  // ---------------------------------------------------------------------
  // Cleaning
  // ---------------------------------------------------------------------

  /** The new name of column `c` under `df.rename(columns=renames)`. */
  function Renamed(renames: Dict<string>, c: string): string {
    GetOr(renames, c, c)
  }

  predicate RenameInjective(cs: seq<string>, renames: Dict<string>) {
    forall i, j :: 0 <= i < j < |cs| ==> Renamed(renames, cs[i]) != Renamed(renames, cs[j])
  }

  /** The cells of `r` under their new names. */
  function RenamedCells(r: Row, cs: seq<string>, renames: Dict<string>): (m: map<string, Value>)
    requires RenameInjective(cs, renames)
    ensures forall p :: 0 <= p < |cs| ==> Renamed(renames, cs[p]) in m && m[Renamed(renames, cs[p])] == Cell(r, cs[p])
    decreases |cs|
  {
    if cs == [] then map[]
    else
      assert forall p :: 1 <= p < |cs| ==> cs[p] == cs[1..][p - 1];
      RenamedCells(r, cs[1..], renames)[Renamed(renames, cs[0]) := Cell(r, cs[0])]
  }

  function Rename(t: Table, renames: Dict<string>): (r: Table)
    requires RenameInjective(t.columns, renames)
    ensures |r.columns| == |t.columns|
    ensures forall p :: 0 <= p < |t.columns| ==> r.columns[p] == Renamed(renames, t.columns[p])
    ensures |r.rows| == |t.rows|
    ensures forall i :: 0 <= i < |t.rows| ==> r.rows[i].id == t.rows[i].id
    ensures forall i, p :: 0 <= i < |t.rows| && 0 <= p < |t.columns| ==>
              Cell(r.rows[i], r.columns[p]) == Cell(t.rows[i], t.columns[p])
  {
    Table(seq(|t.columns|, p requires 0 <= p < |t.columns| => Renamed(renames, t.columns[p])),
          seq(|t.rows|, i requires 0 <= i < |t.rows| => Row(t.rows[i].id, RenamedCells(t.rows[i], t.columns, renames))))
  }

  /** `clean_soql_dataframe(df, columns_to_drop, rename_columns)`: drops the
      listed columns that exist (`["attributes"]` when none are given), then
      renames. */
  function CleanSoqlDataframe(t: Table, columnsToDrop: Option<seq<string>>, renames: Dict<string>): (r: Table)
    requires RenameInjective(Keep(t.columns, columnsToDrop.GetOr(["attributes"])), renames)
    ensures |r.rows| == |t.rows|
    ensures forall i :: 0 <= i < |t.rows| ==> r.rows[i].id == t.rows[i].id
    ensures forall c :: c in t.columns && c !in columnsToDrop.GetOr(["attributes"]) ==> Renamed(renames, c) in r.columns
    ensures forall i, c :: 0 <= i < |t.rows| && c in t.columns && c !in columnsToDrop.GetOr(["attributes"]) ==>
              Cell(r.rows[i], Renamed(renames, c)) == Cell(t.rows[i], c)
    ensures |r.columns| == |Keep(t.columns, columnsToDrop.GetOr(["attributes"]))|
  {
    var drop := columnsToDrop.GetOr(["attributes"]);
    var kept := Drop(t, drop);
    var r := if renames == [] then kept else Rename(kept, renames);
    forall c | c in t.columns && c !in drop ensures Renamed(renames, c) in r.columns {
      var p :| 0 <= p < |kept.columns| && kept.columns[p] == c;
    }
    forall i, c | 0 <= i < |t.rows| && c in t.columns && c !in drop
      ensures Cell(r.rows[i], Renamed(renames, c)) == Cell(t.rows[i], c)
    {
      var p :| 0 <= p < |kept.columns| && kept.columns[p] == c;
    }
    r
  }

  /** With its defaults, the cleaner does what `records_to_df` does to the
      DataFrame of the same records. */
  lemma CleanDefaultsMatchRecordsToDf(records: seq<Record>)
    ensures RenameInjective(Keep(Frame(records).columns, ["attributes"]), [])
    ensures var a := CleanSoqlDataframe(Frame(records), None, []);
            var b := RecordsToDf(records);
            && a.columns == b.columns && |a.rows| == |b.rows|
            && forall i, c :: 0 <= i < |a.rows| ==> a.rows[i].id == b.rows[i].id && Cell(a.rows[i], c) == Cell(b.rows[i], c)
  {
    var t := Frame(records);
    assert RenameInjective(Keep(t.columns, ["attributes"]), []);
    if "attributes" !in t.columns {
      KeepNothing(t.columns, ["attributes"]);
    }
  }

  lemma {:induction false} KeepNothing(cs: seq<string>, names: seq<string>)
    requires forall c :: c in cs ==> c !in names
    ensures Keep(cs, names) == cs
  {
    if cs != [] {
      KeepNothing(cs[1..], names);
      assert [cs[0]] + cs[1..] == cs;
    }
  }
}

=== FILE: overview.dfy ===
/** The pure halves of the pie-chart overview: the prompt text sent to the
    language model (`generate_prompt`) and the assembly of pie segments from
    its answer (`build_pie_segments`). The model call itself and the JSON
    decoding of its answer are outside this module; the answer arrives here
    as whatever value the decoding produced, and the dictionary-level
    functions take the list-of-objects case. */
module Overview {
  import opened Wrappers
  import opened Dicts
  import opened Text
  import opened Values
  import opened Tables

  // ---------------------------------------------------------------------
  // Base titles: `re.sub(r"\s*\(\d+\)$", "", title).strip()`
  // ---------------------------------------------------------------------

  /** The start of the run of digits that ends at `hi`. */
  function DigitRunStart(s: string, hi: nat): (k: nat)
    requires hi <= |s|
    ensures k <= hi
    ensures forall j :: k <= j < hi ==> IsDigit(s[j])
    ensures k == 0 || !IsDigit(s[k - 1])
    decreases hi
  {
    if hi == 0 || !IsDigit(s[hi - 1]) then hi else DigitRunStart(s, hi - 1)
  }

  lemma {:induction false} DigitRunStartAt(s: string, k: nat, hi: nat)
    requires k <= hi <= |s|
    requires forall j :: k <= j < hi ==> IsDigit(s[j])
    requires k == 0 || !IsDigit(s[k - 1])
    ensures DigitRunStart(s, hi) == k
    decreases hi
  {
    if hi > k {
      DigitRunStartAt(s, k, hi - 1);
    }
  }

  /** `s` ends with `(` digits `)`, at least one digit. */
  predicate EndsWithCount(s: string) {
    && |s| >= 1 && s[|s| - 1] == ')'
    && var k := DigitRunStart(s, |s| - 1);
       1 <= k < |s| - 1 && s[k - 1] == '('
  }

  /** Where the match of `\s*\(\d+\)` at the end of `s` begins: the first
      of the whitespace characters before the parenthesis. */
  function CountSuffixStart(s: string): (k: nat)
    requires EndsWithCount(s)
    ensures k < |s|
  {
    TrimEnd(s, 0, DigitRunStart(s, |s| - 1) - 1)
  }

  /** The substitution: the pattern is anchored by `$`, which matches at the
      very end and also just before a final newline, so at most one match
      is removed and such a newline survives. */
  function RemoveCountSuffix(s: string): (r: string)
    ensures |r| <= |s|
  {
    if EndsWithCount(s) then s[..CountSuffixStart(s)]
    else if |s| >= 1 && s[|s| - 1] == '\n' && EndsWithCount(s[..|s| - 1]) then
      s[..CountSuffixStart(s[..|s| - 1])] + "\n"
    else s
  }

  function BaseTitle(raw: string): (r: string)
    ensures IsStripped(r)
  {
    Strip(RemoveCountSuffix(raw))
  }

  /** The heading format the prompt asks for, "Title (Count)", maps back to
      its title. */
  lemma BaseTitleOfHeading(title: string, n: nat)
    requires IsStripped(title)
    ensures BaseTitle(title + " (" + NatToString(n) + ")") == title
  {
    var s := title + " (" + NatToString(n) + ")";
    HeadingEndsWithCount(title, NatToString(n));
    HeadingSuffixStart(title, NatToString(n));
    assert s[..|title|] == title;
    StripStripped(title);
  }

  lemma HeadingEndsWithCount(title: string, digits: string)
    requires digits != [] && AllDigits(digits)
    ensures var s := title + " (" + digits + ")";
      EndsWithCount(s) && DigitRunStart(s, |s| - 1) == |title| + 2
  {
    var s := title + " (" + digits + ")";
    var L := |title|;
    assert s[L] == ' ' && s[L + 1] == '(' && s[|s| - 1] == ')';
    assert forall j :: L + 2 <= j < |s| - 1 ==> s[j] == digits[j - L - 2];
    DigitRunStartAt(s, L + 2, |s| - 1);
  }

  lemma HeadingSuffixStart(title: string, digits: string)
    requires IsStripped(title) && digits != [] && AllDigits(digits)
    ensures var s := title + " (" + digits + ")";
      EndsWithCount(s) && CountSuffixStart(s) == |title|
  {
    var s := title + " (" + digits + ")";
    var L := |title|;
    HeadingEndsWithCount(title, digits);
    assert s[L] == ' ';
    if L > 0 {
      assert s[L - 1] == title[L - 1];
    }
    TrimEndAt(s, 0, L, L + 1);
  }

  /** A title without a trailing count is kept as it is. */
  lemma BaseTitlePlain(title: string)
    requires IsStripped(title) && !EndsWithCount(title)
    ensures BaseTitle(title) == title
  {
    StripStripped(title);
  }

  // ---------------------------------------------------------------------
  // Pie segments
  // ---------------------------------------------------------------------

  datatype PieSegment = PieSegment(title: string, count: nat, description: Value, color: string)

  datatype OverviewError =
    | TitleNotText(item: nat)   // `re.sub` raises TypeError on a non-string title
    | ItemNotObject(item: nat)  // `.get` on an element that is not a dict raises AttributeError
    | AnswerNotIterable         // `for item in` a number, boolean or null raises TypeError

  const FallbackColor := "#CCCCCC"

  /** `item.get("title", "")`. */
  function TitleOf(item: Dict<Value>): Value {
    GetOr(item, "title", Str(""))
  }

  predicate TitlesAreText(items: seq<Dict<Value>>) {
    forall i :: 0 <= i < |items| ==> TitleOf(items[i]).Str?
  }

  /** `(base title, description)` for every model answer item, in order. */
  function TitlePairs(items: seq<Dict<Value>>): (ps: seq<(string, Value)>)
    requires TitlesAreText(items)
    ensures |ps| == |items|
    ensures forall i :: 0 <= i < |items| ==>
              ps[i] == (BaseTitle(TitleOf(items[i]).s), GetOr(items[i], "description", Str("")))
  {
    seq(|items|, i requires 0 <= i < |items| =>
      (BaseTitle(TitleOf(items[i]).s), GetOr(items[i], "description", Str(""))))
  }

  /** The position of the first item whose title is not text. */
  function FirstBadTitle(items: seq<Dict<Value>>): (i: nat)
    requires !TitlesAreText(items)
    ensures i < |items| && !TitleOf(items[i]).Str?
    ensures forall j :: 0 <= j < i ==> TitleOf(items[j]).Str?
  {
    if !TitleOf(items[0]).Str? then 0
    else
      assert forall j :: 1 <= j < |items| ==> items[1..][j - 1] == items[j];
      FirstBadTitle(items[1..]) + 1
  }

  /** The base-title → description lookup the first loop builds. */
  function DescriptionMap(items: seq<Dict<Value>>): (r: Result<Dict<Value>, OverviewError>)
    ensures r.Success? <==> TitlesAreText(items)
    ensures r.Success? ==> forall b :: Get(r.value, b) == LastValue(TitlePairs(items), b)
    ensures r.Failure? ==> r.error == TitleNotText(FirstBadTitle(items))
  {
    if !TitlesAreText(items) then Failure(TitleNotText(FirstBadTitle(items)))
    else
      var d := Update([], TitlePairs(items));
      forall b ensures Get(d, b) == LastValue(TitlePairs(items), b) {
        UpdateGet([], TitlePairs(items), b);
      }
      Success(d)
  }

  /** The positions (from `from` on) of the labels the label map knows:
      increasing, and none left out. */
  function PresentIndices(labels: seq<string>, m: Dict<Table>, from: nat): (ps: seq<nat>)
    requires from <= |labels|
    ensures forall k :: 0 <= k < |ps| ==> from <= ps[k] < |labels| && HasKey(m, labels[ps[k]])
    ensures forall k, l :: 0 <= k < l < |ps| ==> ps[k] < ps[l]
    ensures forall j :: from <= j < |labels| && HasKey(m, labels[j]) ==> j in ps
    decreases |labels| - from
  {
    if from == |labels| then []
    else if HasKey(m, labels[from]) then [from] + PresentIndices(labels, m, from + 1)
    else PresentIndices(labels, m, from + 1)
  }

  /** The colour of the label at position `idx`. */
  function ColorAt(colors: seq<string>, idx: nat): string {
    if idx < |colors| then colors[idx] else FallbackColor
  }

  function SegmentsFrom(dm: Dict<Value>, m: Dict<Table>, labels: seq<string>, colors: seq<string>, from: nat)
    : (r: seq<PieSegment>)
    requires from <= |labels|
    ensures var ps := PresentIndices(labels, m, from);
      && |r| == |ps|
      && forall k :: 0 <= k < |r| ==>
           && r[k].title == labels[ps[k]]
           && r[k].count == |Get(m, labels[ps[k]]).value.rows|
           && r[k].description == GetOr(dm, labels[ps[k]], Str(""))
           && r[k].color == ColorAt(colors, ps[k])
    decreases |labels| - from
  {
    if from == |labels| then []
    else
      var rest := SegmentsFrom(dm, m, labels, colors, from + 1);
      match Get(m, labels[from])
      case None => rest
      case Some(t) =>
        [PieSegment(labels[from], |t.rows|, GetOr(dm, labels[from], Str("")), ColorAt(colors, from))] + rest
  }

  /** `build_pie_segments(llm_output, label_to_df_map, pie_labels, pie_colors)`:
      one segment per name the map knows, in name order; its count is
      the size of the label's table, its colour the one at the label's own
      position (labels skipped before it do not shift it), its description
      the one the last answer item with that base title carries. */
  function BuildPieSegments(items: seq<Dict<Value>>, m: Dict<Table>, labels: seq<string>, colors: seq<string>)
    : (r: Result<seq<PieSegment>, OverviewError>)
    ensures r.Success? <==> TitlesAreText(items)
    ensures r.Success? ==> var ps := PresentIndices(labels, m, 0);
      && |r.value| == |ps|
      && forall k :: 0 <= k < |r.value| ==>
           && r.value[k].title == labels[ps[k]]
           && r.value[k].count == |Get(m, labels[ps[k]]).value.rows|
           && r.value[k].description == LastValue(TitlePairs(items), labels[ps[k]]).GetOr(Str(""))
           && r.value[k].color == ColorAt(colors, ps[k])
  {
    var dm :- DescriptionMap(items);
    Success(SegmentsFrom(dm, m, labels, colors, 0))
  }

  // ---------------------------------------------------------------------
  // The answer as `json.loads` returns it
  // ---------------------------------------------------------------------

  /** `item.get("title", "")` on an answer object. */
  function ObjectTitle(fields: map<string, Value>): Value {
    if "title" in fields then fields["title"] else Str("")
  }

  /** The two fields `build_pie_segments` reads from an answer object. */
  function ItemDict(fields: map<string, Value>): (d: Dict<Value>)
    ensures TitleOf(d) == ObjectTitle(fields)
    ensures Get(d, "title") == (if "title" in fields then Some(fields["title"]) else None)
    ensures Get(d, "description") == (if "description" in fields then Some(fields["description"]) else None)
  {
    var withTitle: Dict<Value> := if "title" in fields then Put([], "title", fields["title"]) else [];
    if "description" in fields then Put(withTitle, "description", fields["description"]) else withTitle
  }

  /** An answer element the first loop gets through: an object whose title is text. */
  predicate GoodItem(v: Value) {
    v.Obj? && ObjectTitle(v.fields).Str?
  }

  predicate ItemsGood(es: seq<Value>) {
    forall i :: 0 <= i < |es| ==> GoodItem(es[i])
  }

  predicate AllObjects(es: seq<Value>) {
    forall i :: 0 <= i < |es| ==> es[i].Obj?
  }

  /** The answer objects as the dictionaries the first loop reads. */
  function ItemDicts(es: seq<Value>): (ds: seq<Dict<Value>>)
    requires AllObjects(es)
    ensures |ds| == |es|
    ensures forall i :: 0 <= i < |es| ==> ds[i] == ItemDict(es[i].fields)
  {
    if es == [] then []
    else
      assert forall j :: 1 <= j < |es| ==> es[1..][j - 1] == es[j];
      [ItemDict(es[0].fields)] + ItemDicts(es[1..])
  }

  /** The position of the first element that is not an object. */
  function FirstNonObject(es: seq<Value>): (i: nat)
    requires !AllObjects(es)
    ensures i < |es| && !es[i].Obj?
    ensures forall j :: 0 <= j < i ==> es[j].Obj?
  {
    if !es[0].Obj? then 0
    else
      assert forall j :: 1 <= j < |es| ==> es[1..][j - 1] == es[j];
      FirstNonObject(es[1..]) + 1
  }

  lemma GoodItemsAreTextTitles(es: seq<Value>)
    requires AllObjects(es)
    ensures ItemsGood(es) <==> TitlesAreText(ItemDicts(es))
  {
  }

  /** The answers the first loop gets through: a list of objects with text
      titles, or a value whose iteration yields nothing (an empty string or
      an empty object). */
  predicate AnswerReadable(answer: Value) {
    || (answer.List? && ItemsGood(answer.items))
    || answer == Str("")
    || answer == Obj(map[])
  }

  /** The first loop over a list: the objects before the first element
      that is not one are read in order, and that element has no `.get`. */
  function ListDescriptionMap(es: seq<Value>): (r: Result<Dict<Value>, OverviewError>)
    ensures r.Success? <==> ItemsGood(es)
    ensures AllObjects(es) ==> r == DescriptionMap(ItemDicts(es))
  {
    if AllObjects(es) then
      GoodItemsAreTextTitles(es);
      DescriptionMap(ItemDicts(es))
    else
      var i := FirstNonObject(es);
      assert forall j :: 0 <= j < i ==> es[..i][j] == es[j];
      var d :- DescriptionMap(ItemDicts(es[..i]));
      Failure(ItemNotObject(i))
  }

  /** The first loop of `build_pie_segments` over whatever `json.loads`
      returned. On a list it reads the objects in order and stops at the
      first element without a `.get`; iterating a string yields
      one-character strings and iterating an object yields its keys, so
      neither gets through unless there is nothing to iterate. */
  function AnswerDescriptionMap(answer: Value): (r: Result<Dict<Value>, OverviewError>)
    ensures r.Success? <==> AnswerReadable(answer)
    ensures answer.List? && AllObjects(answer.items) ==> r == DescriptionMap(ItemDicts(answer.items))
    ensures r.Success? && !answer.List? ==> forall b :: Get(r.value, b).None?
    ensures r.Failure? && (answer.Str? || answer.Obj?) ==> r.error == ItemNotObject(0)
    ensures r.Failure? && !answer.List? && !answer.Str? && !answer.Obj? ==> r.error == AnswerNotIterable
  {
    match answer
    case List(es) => ListDescriptionMap(es)
    case Str(s) => if s == "" then Success([]) else Failure(ItemNotObject(0))
    case Obj(f) => if f == map[] then Success([]) else Failure(ItemNotObject(0))
    case _ => Failure(AnswerNotIterable)
  }

  /** On a list the loop fails at its first element that is not an object
      with a text title, and the error says which of the two it lacks. */
  lemma ListFailsAtFirstBad(es: seq<Value>)
    requires !ItemsGood(es)
    ensures var r := ListDescriptionMap(es);
      && r.Failure?
      && (r.error.TitleNotText? || r.error.ItemNotObject?)
      && r.error.item < |es|
      && !GoodItem(es[r.error.item])
      && (r.error.ItemNotObject? <==> !es[r.error.item].Obj?)
      && forall j :: 0 <= j < r.error.item ==> GoodItem(es[j])
  {
    if AllObjects(es) {
      GoodItemsAreTextTitles(es);
      FirstBadTitleIsFirstBadItem(es);
    } else {
      NonObjectStops(es);
    }
  }

  /** A list holding a non-object fails at the first bad title before
      it, or else at the non-object itself. */
  lemma NonObjectStops(es: seq<Value>)
    requires !AllObjects(es)
    ensures var i := FirstNonObject(es);
            var r := ListDescriptionMap(es);
      && r.Failure?
      && (r.error.TitleNotText? || r.error == ItemNotObject(i))
      && r.error.item <= i
      && (r.error.TitleNotText? ==> !GoodItem(es[r.error.item]) && es[r.error.item].Obj?)
      && forall j :: 0 <= j < r.error.item ==> GoodItem(es[j])
  {
    var i := FirstNonObject(es);
    var pre := es[..i];
    assert forall j :: 0 <= j < i ==> pre[j] == es[j];
    GoodItemsAreTextTitles(pre);
    if ItemsGood(pre) {
      StopsAtNonObject(es, pre);
    } else {
      StopsAtBadTitle(es, pre);
    }
  }

  lemma StopsAtNonObject(es: seq<Value>, pre: seq<Value>)
    requires !AllObjects(es) && pre == es[..FirstNonObject(es)]
    requires AllObjects(pre) && ItemsGood(pre) && TitlesAreText(ItemDicts(pre))
    ensures ListDescriptionMap(es) == Failure(ItemNotObject(FirstNonObject(es)))
    ensures forall j :: 0 <= j < FirstNonObject(es) ==> GoodItem(es[j])
  {
    assert forall j :: 0 <= j < |pre| ==> pre[j] == es[j];
  }

  lemma StopsAtBadTitle(es: seq<Value>, pre: seq<Value>)
    requires !AllObjects(es) && pre == es[..FirstNonObject(es)]
    requires AllObjects(pre) && !TitlesAreText(ItemDicts(pre))
    ensures var k := FirstBadTitle(ItemDicts(pre));
      && ListDescriptionMap(es) == Failure(TitleNotText(k))
      && k < FirstNonObject(es) && es[k].Obj? && !GoodItem(es[k])
      && forall j :: 0 <= j < k ==> GoodItem(es[j])
  {
    FirstBadTitleIsFirstBadItem(pre);
    assert forall j :: 0 <= j < |pre| ==> pre[j] == es[j];
  }

  /** In a list of objects, the first dictionary whose title is not text
      is the first element that is not a good item. */
  lemma FirstBadTitleIsFirstBadItem(es: seq<Value>)
    requires AllObjects(es) && !TitlesAreText(ItemDicts(es))
    ensures var k := FirstBadTitle(ItemDicts(es));
      && k < |es| && !GoodItem(es[k])
      && forall j :: 0 <= j < k ==> GoodItem(es[j])
  {
  }

  /** `build_pie_segments` on whatever `json.loads` returned: it succeeds
      iff the first loop gets through the answer; on a list of objects it
      is the dictionary-level call, and an answer with nothing to iterate
      leaves every description empty. */
  function PieSegmentsFromAnswer(answer: Value, m: Dict<Table>, labels: seq<string>, colors: seq<string>)
    : (r: Result<seq<PieSegment>, OverviewError>)
    ensures r.Success? <==> AnswerReadable(answer)
    ensures answer.List? && AllObjects(answer.items) ==>
              r == BuildPieSegments(ItemDicts(answer.items), m, labels, colors)
    ensures r.Success? && !answer.List? ==> var ps := PresentIndices(labels, m, 0);
      && |r.value| == |ps|
      && forall k :: 0 <= k < |r.value| ==>
           && r.value[k].title == labels[ps[k]]
           && r.value[k].count == |Get(m, labels[ps[k]]).value.rows|
           && r.value[k].description == Str("")
           && r.value[k].color == ColorAt(colors, ps[k])
  {
    var dm :- AnswerDescriptionMap(answer);
    Success(SegmentsFrom(dm, m, labels, colors, 0))
  }

  /** Every label the map knows gets a segment, and no other label does. */
  lemma SegmentsCoverKnownLabels(items: seq<Dict<Value>>, m: Dict<Table>, labels: seq<string>, colors: seq<string>, name: string)
    requires TitlesAreText(items)
    ensures name in labels && HasKey(m, name) <==>
              exists k :: 0 <= k < |BuildPieSegments(items, m, labels, colors).value|
                && BuildPieSegments(items, m, labels, colors).value[k].title == name
  {
    var r := BuildPieSegments(items, m, labels, colors).value;
    var ps := PresentIndices(labels, m, 0);
    if name in labels && HasKey(m, name) {
      var j :| 0 <= j < |labels| && labels[j] == name;
      var k :| 0 <= k < |ps| && ps[k] == j;
      assert r[k].title == name;
    }
  }

  /** A heading "Title (n)" from the model supplies the description of the
      label "Title" unless a later item claims the same title. */
  lemma HeadingMatchesLabel(items: seq<Dict<Value>>, i: nat, name: string, n: nat)
    requires TitlesAreText(items) && i < |items| && IsStripped(name)
    requires TitleOf(items[i]) == Str(name + " (" + NatToString(n) + ")")
    requires forall j :: i < j < |items| ==> BaseTitle(TitleOf(items[j]).s) != name
    ensures LastValue(TitlePairs(items), name) == Some(GetOr(items[i], "description", Str("")))
  {
    BaseTitleOfHeading(name, n);
    LastValueAt(TitlePairs(items), i, name);
  }

  /** The entry at `i` carries the last value for its key when no later
      entry has that key. */
  lemma {:induction false} LastValueAt<V>(ps: seq<(string, V)>, i: nat, k: string)
    requires i < |ps| && ps[i].0 == k
    requires forall j :: i < j < |ps| ==> ps[j].0 != k
    ensures LastValue(ps, k) == Some(ps[i].1)
    decreases i
  {
    assert forall j :: 1 <= j < |ps| ==> ps[1..][j - 1] == ps[j];
    if i == 0 {
      LastValueNone(ps[1..], k);
    } else {
      LastValueAt(ps[1..], i - 1, k);
    }
  }

  lemma {:induction false} LastValueNone<V>(ps: seq<(string, V)>, k: string)
    requires forall j :: 0 <= j < |ps| ==> ps[j].0 != k
    ensures LastValue(ps, k).None?
    decreases |ps|
  {
    if ps != [] {
      assert forall j :: 1 <= j < |ps| ==> ps[1..][j - 1] == ps[j];
      LastValueNone(ps[1..], k);
    }
  }

  // ---------------------------------------------------------------------
  // The prompt
  // ---------------------------------------------------------------------

  /** Python truthiness of a filter value (`if filt:`). */
  predicate Truthy(v: Value) {
    match v
    case Null => false
    case Bool(b) => b
    case Num(x) => x != 0.0
    case Str(s) => s != []
    case Date(_) => true
    case Span(d) => d != 0
    case Obj(f) => |f| > 0
    case List(items) => |items| > 0
  }

  const NoFilterNote :=
    "No explicit filter provided."
    + " This segment represents all remaining records not captured by other segment filters."

  /** One `- label: count` line per label, in the label map's order. */
  function SegmentLines(labels: Dict<int>): (ls: seq<string>)
    ensures |ls| == |labels|
    ensures forall i :: 0 <= i < |labels| ==> ls[i] == "- " + labels[i].0 + ": " + IntToString(labels[i].1)
  {
    seq(|labels|, i requires 0 <= i < |labels| => "- " + labels[i].0 + ": " + IntToString(labels[i].1))
  }

  /** The filter line of one label; `repr` renders a value as Python's
      `str` does. */
  function FilterLine(name: string, filters: Dict<Value>, repr: Value -> string): string {
    var filt := GetOr(filters, name, Null);
    if Truthy(filt) then "- " + name + ": filters = " + repr(filt)
    else "- " + name + ": " + NoFilterNote
  }

  function FilterLines(labels: Dict<int>, filters: Dict<Value>, repr: Value -> string): (ls: seq<string>)
    ensures |ls| == |labels|
    ensures forall i :: 0 <= i < |labels| ==> ls[i] == FilterLine(labels[i].0, filters, repr)
  {
    seq(|labels|, i requires 0 <= i < |labels| => FilterLine(labels[i].0, filters, repr))
  }

  function ColumnLines(columns: seq<string>): (ls: seq<string>)
    ensures |ls| == |columns|
    ensures forall i :: 0 <= i < |columns| ==> ls[i] == "- " + columns[i]
  {
    seq(|columns|, i requires 0 <= i < |columns| => "- " + columns[i])
  }

  /** The template text up to the segments block. The long template
      parts are kept as their lines, joined by line breaks. */
  const PromptHead := Join("\n", HeadLines)

  /** The lines of the opening instructions; the last, empty, line ends the
      `Segments:` line. */
  const HeadLines: seq<string> := [
    "For each pie chart segment, generate:",
    "",
    "1. A heading in the format:",
    "{{Segment Title}} ({{Count}})",
    "",
    "2. A 2–3 sentence explanation describing:",
    "- What the segment represents",
    "- Why these records fall into this category (based on columns involved)",
    "- The operational or business implication, if evident",
    "",
    "Guidelines:",
    "- Write a separate block for each segment",
    "- Use clear, professional business language",
    "- Base explanations strictly on the data and filters provided",
    "- Do not compare segments with each other",
    "- Do not mention chart mechanics or visualization terms",
    "- Keep each explanation concise (40–60 words max)",
    "- You are a function that returns ONLY valid JSON",
    "- Do not include explanations, markdown, or text outside JSON",
    "",
    "Input:",
    "Segments:",
    ""
  ]

  const PromptFilters := "\n\nFilters applied per segment:\n"

  const PromptColumns :=
    "\n\nIf a filter is not provided for a segment, treat it as all records excluding those covered by other segment filters.\n\nColumns involved:\n"

  /** The template text after the columns block. */
  const PromptTail := Join("\n", TailLines)

  /** The lines of the output instructions; the first two, empty, lines are
      the break after the columns block. */
  const TailLines: seq<string> := [
    "",
    "",
    "Output:",
    "Return ONLY valid JSON.",
    "Do not include markdown, explanations, or extra text.",
    "",
    "The response MUST be a JSON array.",
    "Each array item MUST follow this schema:",
    "[",
    "  {",
    "    \"segment_no\": number,",
    "    \"title\": string,",
    "    \"description\": string",
    "  }",
    "]"
  ]

  /** The three filled-in blocks with the template text between them. */
  function PromptBlocks(labels: Dict<int>, filters: Dict<Value>, columns: seq<string>, repr: Value -> string): string {
    Join("\n", SegmentLines(labels))
    + PromptFilters + Join("\n", FilterLines(labels, filters, repr))
    + PromptColumns + Join("\n", ColumnLines(columns))
  }

  /** The prompt body between the template's opening and closing newlines. */
  function PromptBody(labels: Dict<int>, filters: Dict<Value>, columns: seq<string>, repr: Value -> string): string {
    PromptHead + PromptBlocks(labels, filters, columns, repr) + PromptTail
  }

  /** The filled-in template opens on a letter and closes on a bracket, so
      stripping the newlines around it gives it back. */
  lemma PromptStrip(labels: Dict<int>, filters: Dict<Value>, columns: seq<string>, repr: Value -> string)
    ensures var body := PromptBody(labels, filters, columns, repr);
      Strip("\n" + body + "\n") == body
  {
    var blocks := PromptBlocks(labels, filters, columns, repr);
    HeadOpens();
    TailCloses();
    Framed(PromptHead, blocks, PromptTail);
    StripFramed(PromptHead + blocks + PromptTail);
  }

  lemma HeadOpens()
    ensures PromptHead != [] && !IsSpace(PromptHead[0])
  {
    assert HeadLines[0][0] == 'F';
    JoinStarts("\n", HeadLines);
  }

  lemma TailCloses()
    ensures PromptTail != [] && !IsSpace(PromptTail[|PromptTail| - 1])
  {
    var last := TailLines[|TailLines| - 1];
    assert last == "]";
    JoinEnds("\n", TailLines);
  }

  lemma Framed(a: string, m: string, b: string)
    requires a != [] && !IsSpace(a[0]) && b != [] && !IsSpace(b[|b| - 1])
    ensures a + m + b != [] && IsStripped(a + m + b)
  {
    assert (a + m + b)[0] == a[0] && (a + m + b)[|a + m + b| - 1] == b[|b| - 1];
  }

  /** `generate_prompt(labels, segment_filters, columns)`: the template,
      whose text opens and closes with a newline, filled in and stripped. */
  function GeneratePrompt(labels: Dict<int>, filters: Dict<Value>, columns: seq<string>, repr: Value -> string): (p: string)
    ensures p == PromptBody(labels, filters, columns, repr)
  {
    PromptStrip(labels, filters, columns, repr);
    Strip("\n" + PromptBody(labels, filters, columns, repr) + "\n")
  }

  /** The segments block reads back, line by line, as one `- label: count`
      line per label in order, when no label holds a line break. */
  lemma SegmentLinesRoundTrip(labels: Dict<int>)
    requires labels != []
    requires forall i :: 0 <= i < |labels| ==> !HasLineBreak(labels[i].0)
    ensures SplitLines(Join("\n", SegmentLines(labels))) == SegmentLines(labels)
  {
    var ls := SegmentLines(labels);
    forall i | 0 <= i < |ls| ensures !HasLineBreak(ls[i]) {
      var d := IntToString(labels[i].1);
      assert forall j :: 0 <= j < |d| ==> !IsLineBreak(d[j]) by {
        if labels[i].1 >= 0 {
          assert forall j :: 0 <= j < |d| ==> IsDigit(d[j]);
        } else {
          assert forall j :: 1 <= j < |d| ==> d[j] == NatToString(-labels[i].1)[j - 1];
        }
      }
      assert forall j :: 0 <= j < |ls[i]| ==> !IsLineBreak(ls[i][j]) by {
        var l := labels[i].0;
        assert ls[i] == "- " + l + ": " + d;
        forall j | 0 <= j < |ls[i]| ensures !IsLineBreak(ls[i][j]) {
          if 2 <= j < 2 + |l| {
            assert ls[i][j] == l[j - 2];
          } else if j >= 4 + |l| {
            assert ls[i][j] == d[j - 4 - |l|];
          }
        }
      }
    }
    SplitJoin(ls);
  }

  /** Each filter line carries the note exactly when the label's filter is
      missing or falsy; otherwise it carries the filter's rendering. */
  lemma FilterLinesNote(labels: Dict<int>, filters: Dict<Value>, repr: Value -> string)
    ensures forall i :: 0 <= i < |labels| ==>
      (!Truthy(GetOr(filters, labels[i].0, Null)) <==>
       FilterLines(labels, filters, repr)[i] == "- " + labels[i].0 + ": " + NoFilterNote)
    ensures forall i :: 0 <= i < |labels| && Truthy(GetOr(filters, labels[i].0, Null)) ==>
      FilterLines(labels, filters, repr)[i]
        == "- " + labels[i].0 + ": filters = " + repr(GetOr(filters, labels[i].0, Null))
  {
    var ls := FilterLines(labels, filters, repr);
    forall i | 0 <= i < |labels| && Truthy(GetOr(filters, labels[i].0, Null))
      ensures ls[i] != "- " + labels[i].0 + ": " + NoFilterNote
    {
      var n := |labels[i].0|;
      assert ls[i][n + 4] == 'f';
      var note := "- " + labels[i].0 + ": " + NoFilterNote;
      assert note[n + 4] == NoFilterNote[0] == 'N';
    }
  }

  /** The columns block reads back, line by line, as the column names in
      order behind their `- ` markers, when no name holds a line break. */
  lemma ColumnLinesRoundTrip(columns: seq<string>)
    requires columns != []
    requires forall i :: 0 <= i < |columns| ==> !HasLineBreak(columns[i])
    ensures var back := SplitLines(Join("\n", ColumnLines(columns)));
      && |back| == |columns|
      && forall i :: 0 <= i < |columns| ==>
           |back[i]| >= 2 && back[i][..2] == "- " && back[i][2..] == columns[i]
  {
    var ls := ColumnLines(columns);
    forall i | 0 <= i < |ls| ensures !HasLineBreak(ls[i]) {
      forall j | 0 <= j < |ls[i]| ensures !IsLineBreak(ls[i][j]) {
        if j >= 2 {
          assert ls[i][j] == columns[i][j - 2];
        }
      }
    }
    SplitJoin(ls);
  }

  /** A label without a usable filter gets the note instead of a filter. */
  lemma MissingFilterGetsNote(name: string, filters: Dict<Value>, repr: Value -> string)
    requires !HasKey(filters, name)
    ensures FilterLine(name, filters, repr) == "- " + name + ": " + NoFilterNote
  {
  }
}

=== FILE: pipeline.dfy ===
/** The orchestration logic of main.py, without the imports, the sleeping
    and the file system: which modules are discovered, how each run is
    recorded, how the successful runs are summarised for the executive
    report, and how category names become folder and file names. */
module Pipeline {
  import opened Wrappers
  import opened Dicts
  import opened Values
  import opened Text
  import Report

  // ---------------------------------------------------------------------
  // Risk classifiers
  // ---------------------------------------------------------------------

  /** `classify_risk(count)`. */
  function ClassifyRisk(count: int): (r: string)
    ensures r in {"High", "Medium", "Low"}
    ensures r == "High" <==> count > 100
    ensures r == "Medium" <==> 25 < count <= 100
    ensures r == "Low" <==> count <= 25
  {
    if count > 100 then "High" else if count > 25 then "Medium" else "Low"
  }

  /** The severity order of the three categories. */
  function Rank(risk: string): nat {
    if risk == "High" then 2 else if risk == "Medium" then 1 else 0
  }

  /** A larger count never gets a milder category. */
  lemma ClassifyRiskMonotone(a: int, b: int)
    requires a <= b
    ensures Rank(ClassifyRisk(a)) <= Rank(ClassifyRisk(b))
  {
  }

  /** `classify_loss_risk(loss)`, nested inside `main`. */
  function ClassifyLossRisk(loss: real): (r: string)
    ensures r in {"High", "Medium", "Low"}
    ensures r == "High" <==> loss > 100000.0
    ensures r == "Medium" <==> 50000.0 < loss <= 100000.0
    ensures r == "Low" <==> loss <= 50000.0
  {
    if loss > 100000.0 then "High" else if loss > 50000.0 then "Medium" else "Low"
  }

  lemma ClassifyLossRiskMonotone(a: real, b: real)
    requires a <= b
    ensures Rank(ClassifyLossRisk(a)) <= Rank(ClassifyLossRisk(b))
  {
  }

  // ---------------------------------------------------------------------
  // Module discovery
  // ---------------------------------------------------------------------

  /** A directory entry that names a use-case module. */
  predicate IsUsecaseFile(f: string) {
    StartsWith(f, "usecase") && EndsWith(f, ".py") && f != "__init__.py"
  }

  /** The use-case module names among `files`, in directory order. */
  function Candidates(files: seq<string>): (names: seq<string>)
    ensures forall x :: x in names <==> exists f :: f in files && IsUsecaseFile(f) && x == f[..|f| - 3]
  {
    if files == [] then []
    else
      var f := files[0];
      var rest := Candidates(files[1..]);
      assert forall g :: g in files <==> g == f || g in files[1..];
      if IsUsecaseFile(f) then [f[..|f| - 3]] + rest else rest
  }

  predicate SortedNames(xs: seq<string>) {
    forall i, j :: 0 <= i < j < |xs| ==> LexLessEq(xs[i], xs[j])
  }

  function InsertName(x: string, xs: seq<string>): seq<string> {
    if xs == [] then [x]
    else if LexLessEq(x, xs[0]) then [x] + xs
    else [xs[0]] + InsertName(x, xs[1..])
  }

  function SortNames(xs: seq<string>): seq<string> {
    if xs == [] then [] else InsertName(xs[0], SortNames(xs[1..]))
  }

  /** `y` orders before every element of `xs`. */
  predicate NameBelowAll(y: string, xs: seq<string>) {
    forall k :: 0 <= k < |xs| ==> LexLessEq(y, xs[k])
  }

  lemma SortedNamesCons(h: string, t: seq<string>)
    requires NameBelowAll(h, t) && SortedNames(t)
    ensures SortedNames([h] + t)
  {
    var r := [h] + t;
    forall i, j | 0 <= i < j < |r| ensures LexLessEq(r[i], r[j]) {
      assert r[j] == t[j - 1];
      if i > 0 {
        assert r[i] == t[i - 1];
      }
    }
  }

  lemma SortedNamesTail(xs: seq<string>)
    requires xs != [] && SortedNames(xs)
    ensures NameBelowAll(xs[0], xs[1..]) && SortedNames(xs[1..])
  {
    assert forall k :: 0 <= k < |xs| - 1 ==> xs[1..][k] == xs[k + 1];
  }

  lemma {:induction false} InsertNameBound(y: string, x: string, xs: seq<string>)
    requires LexLessEq(y, x) && NameBelowAll(y, xs)
    ensures NameBelowAll(y, InsertName(x, xs))
    decreases |xs|
  {
    if xs != [] && !LexLessEq(x, xs[0]) {
      assert NameBelowAll(y, xs[1..]) by {
        assert forall k :: 0 <= k < |xs| - 1 ==> xs[1..][k] == xs[k + 1];
      }
      InsertNameBound(y, x, xs[1..]);
      var r := [xs[0]] + InsertName(x, xs[1..]);
      assert forall k :: 1 <= k < |r| ==> r[k] == InsertName(x, xs[1..])[k - 1];
    }
  }

  lemma {:induction false} InsertNameCount(x: string, xs: seq<string>)
    ensures multiset(InsertName(x, xs)) == multiset(xs) + multiset{x}
    decreases |xs|
  {
    if xs != [] && !LexLessEq(x, xs[0]) {
      InsertNameCount(x, xs[1..]);
      assert xs == [xs[0]] + xs[1..];
    }
  }

  lemma {:induction false} InsertNameSorted(x: string, xs: seq<string>)
    requires SortedNames(xs)
    ensures SortedNames(InsertName(x, xs))
    ensures multiset(InsertName(x, xs)) == multiset(xs) + multiset{x}
    decreases |xs|
  {
    InsertNameCount(x, xs);
    if xs == [] {
    } else if LexLessEq(x, xs[0]) {
      forall j | 0 <= j < |xs| ensures LexLessEq(x, xs[j]) {
        if j > 0 {
          LexTransitive(x, xs[0], xs[j]);
        }
      }
      SortedNamesCons(x, xs);
    } else {
      LexTotal(x, xs[0]);
      SortedNamesTail(xs);
      InsertNameSorted(x, xs[1..]);
      InsertNameBound(xs[0], x, xs[1..]);
      SortedNamesCons(xs[0], InsertName(x, xs[1..]));
    }
  }

  lemma {:induction false} SortNamesSorted(xs: seq<string>)
    ensures SortedNames(SortNames(xs))
    ensures multiset(SortNames(xs)) == multiset(xs)
    decreases |xs|
  {
    if xs != [] {
      SortNamesSorted(xs[1..]);
      InsertNameSorted(xs[0], SortNames(xs[1..]));
      assert xs == [xs[0]] + xs[1..];
    }
  }

  /** The first element of a sorted sequence orders below every member. */
  lemma SortedHeadBelow(xs: seq<string>, y: string)
    requires xs != [] && SortedNames(xs) && y in xs
    ensures LexLessEq(xs[0], y)
  {
    var i :| 0 <= i < |xs| && xs[i] == y;
    if i == 0 {
      LexTotal(y, y);
    }
  }

  lemma MultisetTail<T>(a: seq<T>, b: seq<T>)
    requires a != [] && b != [] && a[0] == b[0] && multiset(a) == multiset(b)
    ensures multiset(a[1..]) == multiset(b[1..])
  {
    assert a == [a[0]] + a[1..] && b == [b[0]] + b[1..];
    assert multiset(a[1..]) == multiset(a) - multiset{a[0]};
    assert multiset(b[1..]) == multiset(b) - multiset{b[0]};
  }

  /** Two sorted arrangements of the same names are the same sequence, so
      `sorted` is pinned down by "ordered and a permutation". */
  lemma {:induction false} SortedUnique(a: seq<string>, b: seq<string>)
    requires SortedNames(a) && SortedNames(b)
    requires multiset(a) == multiset(b)
    ensures a == b
    decreases |a|
  {
    assert |a| == |multiset(a)| == |multiset(b)| == |b|;
    if a != [] {
      assert a[0] in multiset(b) && b[0] in multiset(a);
      SortedHeadBelow(b, a[0]);
      SortedHeadBelow(a, b[0]);
      LexAntisymmetric(a[0], b[0]);
      MultisetTail(a, b);
      SortedNamesTail(a);
      SortedNamesTail(b);
      SortedUnique(a[1..], b[1..]);
      assert a == [a[0]] + a[1..] && b == [b[0]] + b[1..];
    }
  }

  /** The module names `main` runs, in the order it runs them. */
  function Discover(files: seq<string>): seq<string> {
    SortNames(Candidates(files))
  }

  /** Discovery yields every use-case module exactly as often as its file
      is listed, in lexicographic order, and nothing else. */
  lemma DiscoverSpec(files: seq<string>)
    ensures SortedNames(Discover(files))
    ensures multiset(Discover(files)) == multiset(Candidates(files))
    ensures forall x :: x in Discover(files) <==> exists f :: f in files && IsUsecaseFile(f) && x == f[..|f| - 3]
  {
    SortNamesSorted(Candidates(files));
    forall x ensures x in Discover(files) <==> x in Candidates(files) {
      assert x in Discover(files) <==> x in multiset(Discover(files));
      assert x in Candidates(files) <==> x in multiset(Candidates(files));
    }
  }

  /** Any ordered rearrangement of the discovered names is the discovery
      order itself. */
  lemma DiscoverIsTheSortedOrder(files: seq<string>, names: seq<string>)
    requires SortedNames(names) && multiset(names) == multiset(Candidates(files))
    ensures names == Discover(files)
  {
    DiscoverSpec(files);
    SortedUnique(names, Discover(files));
  }

  /** The order is by code point, so "usecase10" runs before "usecase2". */
  lemma TenBeforeTwo()
    ensures Discover(["usecase2.py", "usecase10.py", "__init__.py", "notes.txt"]) == ["usecase10", "usecase2"]
  {
    ExampleCandidates();
    TenOrdersFirst();
    assert ["usecase2", "usecase10"][1..] == ["usecase10"];
    assert SortNames(["usecase10"]) == ["usecase10"];
    assert InsertName("usecase2", ["usecase10"]) == ["usecase10"] + InsertName("usecase2", []);
  }

  lemma ExampleCandidates()
    ensures Candidates(["usecase2.py", "usecase10.py", "__init__.py", "notes.txt"]) == ["usecase2", "usecase10"]
  {
    var files := ["usecase2.py", "usecase10.py", "__init__.py", "notes.txt"];
    assert IsUsecaseFile(files[0]) && IsUsecaseFile(files[1]);
    assert !IsUsecaseFile(files[2]) && !IsUsecaseFile(files[3]);
    assert Candidates(files[2..]) == [] by {
      assert files[2..][1..] == ["notes.txt"];
      assert ["notes.txt"][1..] == [];
    }
    assert files[1..][1..] == files[2..];
    assert files[0][..|files[0]| - 3] == "usecase2";
    assert files[1][..|files[1]| - 3] == "usecase10";
    assert Candidates(files[1..]) == ["usecase10"];
  }

  lemma TenOrdersFirst()
    ensures LexLessEq("usecase10", "usecase2") && !LexLessEq("usecase2", "usecase10")
  {
    assert "usecase10"[7..] == "10" && "usecase2"[7..] == "2";
    assert LexLessEq("usecase10"[7..], "usecase2"[7..]);
    assert !LexLessEq("usecase2"[7..], "usecase10"[7..]);
    assert forall k :: 0 <= k < 7 ==> "usecase10"[k] == "usecase2"[k];
    LexSharedPrefix("usecase10", "usecase2", 7);
  }

  /** Strings agreeing on their first `n` characters compare as their rests. */
  lemma {:induction false} LexSharedPrefix(a: string, b: string, n: nat)
    requires n <= |a| && n <= |b|
    requires forall k :: 0 <= k < n ==> a[k] == b[k]
    ensures LexLessEq(a, b) == LexLessEq(a[n..], b[n..])
    ensures LexLessEq(b, a) == LexLessEq(b[n..], a[n..])
    decreases n
  {
    if n > 0 {
      assert a[1..][n - 1..] == a[n..] && b[1..][n - 1..] == b[n..];
      LexSharedPrefix(a[1..], b[1..], n - 1);
    }
  }

  // ---------------------------------------------------------------------
  // Recording each run
  // ---------------------------------------------------------------------

  /** What happened when `main` imported a module and called its `run`:
      the dict it returned, the message of the exception it raised (an
      import failure, an exception in `run`, or a `run` result without
      `.get`), or the module having no `run` at all. */
  datatype Outcome =
    | Returned(result: Dict<Value>)
    | Raised(message: string)
    | NoRun

  /** One entry of `results`. */
  datatype RunRecord = RunRecord(
    moduleName: string, name: Value, recordsFound: Value, loss: Value, revenue: Value,
    status: string, error: Option<string>)

  const Success := "success"
  const Failure := "failed"

  /** `str(e)` for the exception a failed run produced. */
  function ErrorText(moduleName: string, outcome: Outcome): string {
    match outcome
    case Raised(message) => message
    case _ => moduleName + " has no run() function"
  }

  /** The record `main` appends for one module. */
  function RecordOf(moduleName: string, outcome: Outcome): RunRecord {
    match outcome
    case Returned(result) =>
      RunRecord(moduleName, GetOr(result, "name", Str(moduleName)), GetOr(result, "records_found", Num(0.0)),
                GetOr(result, "total_loss", Num(0.0)), GetOr(result, "total_revenue", Num(0.0)), Success, None)
    case _ =>
      RunRecord(moduleName, Str(moduleName), Num(0.0), Num(0.0), Num(0.0), Failure, Some(ErrorText(moduleName, outcome)))
  }

  /** `results` after the loop over the discovered modules. */
  function RunAll(modules: seq<string>, outcome: string -> Outcome): (results: seq<RunRecord>)
    ensures |results| == |modules|
    ensures forall i :: 0 <= i < |modules| ==> results[i] == RecordOf(modules[i], outcome(modules[i]))
  {
    seq(|modules|, i requires 0 <= i < |modules| => RecordOf(modules[i], outcome(modules[i])))
  }

  /** `[r for r in results if r["status"] == status]`. */
  function WithStatus(results: seq<RunRecord>, status: string): (r: seq<RunRecord>)
    ensures forall x :: x in r <==> x in results && x.status == status
  {
    if results == [] then []
    else
      var rest := WithStatus(results[1..], status);
      assert forall x :: x in results <==> x == results[0] || x in results[1..];
      if results[0].status == status then [results[0]] + rest else rest
  }

  lemma {:induction false} StatusSplit(results: seq<RunRecord>)
    requires forall i :: 0 <= i < |results| ==> results[i].status in {Success, Failure}
    ensures multiset(WithStatus(results, Success)) + multiset(WithStatus(results, Failure)) == multiset(results)
    decreases |results|
  {
    if results != [] {
      StatusSplit(results[1..]);
      assert results == [results[0]] + results[1..];
    }
  }

  /** Every module yields one record; a run is a success exactly when `run`
      returned, a failure carries zero records, loss and revenue, and the
      successful and failed lists partition the results. */
  lemma RunRecordsPartition(modules: seq<string>, outcome: string -> Outcome)
    ensures var results := RunAll(modules, outcome);
      && (forall i :: 0 <= i < |modules| ==>
            results[i].moduleName == modules[i]
            && (results[i].status == Success <==> outcome(modules[i]).Returned?)
            && (results[i].status == Failure <==> !outcome(modules[i]).Returned?))
      && (forall r :: r in WithStatus(results, Failure) ==>
            r.recordsFound == Num(0.0) && r.loss == Num(0.0) && r.revenue == Num(0.0) && r.error.Some?)
      && multiset(WithStatus(results, Success)) + multiset(WithStatus(results, Failure)) == multiset(results)
      && |WithStatus(results, Success)| + |WithStatus(results, Failure)| == |modules|
  {
    var results := RunAll(modules, outcome);
    StatusSplit(results);
    assert |multiset(WithStatus(results, Success)) + multiset(WithStatus(results, Failure))| == |multiset(results)|;
  }

  // ---------------------------------------------------------------------
  // The summary table
  // ---------------------------------------------------------------------

  /** `pd.to_numeric(..., errors="coerce").fillna(0)` for one value: a
      number is kept, anything else becomes 0. */
  function Numeric(v: Value): real {
    if v.Num? then v.x else 0.0
  }

  datatype SummaryRow = SummaryRow(name: Value, loss: real, revenue: real)

  /** `pd.DataFrame(successful)` with the two money columns coerced. */
  function SummaryFrame(successful: seq<RunRecord>): (rows: seq<SummaryRow>)
    ensures |rows| == |successful|
    ensures forall i :: 0 <= i < |rows| ==>
      rows[i].name == successful[i].name
      && (successful[i].loss.Num? ==> rows[i].loss == successful[i].loss.x)
      && (!successful[i].loss.Num? ==> rows[i].loss == 0.0)
  {
    seq(|successful|, i requires 0 <= i < |successful| =>
      SummaryRow(successful[i].name, Numeric(successful[i].loss), Numeric(successful[i].revenue)))
  }

  predicate SortedByLoss(rows: seq<SummaryRow>) {
    forall i, j :: 0 <= i < j < |rows| ==> rows[i].loss >= rows[j].loss
  }

  /** Places `x` before the first row whose loss does not exceed its own. */
  function InsertByLoss(x: SummaryRow, rows: seq<SummaryRow>): seq<SummaryRow> {
    if rows == [] then [x]
    else if rows[0].loss <= x.loss then [x] + rows
    else [rows[0]] + InsertByLoss(x, rows[1..])
  }

  /** `sort_values(by="loss", ascending=False)`; rows with equal loss keep
      their order. */
  function SortByLoss(rows: seq<SummaryRow>): seq<SummaryRow> {
    if rows == [] then [] else InsertByLoss(rows[0], SortByLoss(rows[1..]))
  }

  predicate LossBelowAll(y: real, rows: seq<SummaryRow>) {
    forall k :: 0 <= k < |rows| ==> rows[k].loss <= y
  }

  lemma SortedByLossCons(h: SummaryRow, t: seq<SummaryRow>)
    requires LossBelowAll(h.loss, t) && SortedByLoss(t)
    ensures SortedByLoss([h] + t)
  {
    var r := [h] + t;
    forall i, j | 0 <= i < j < |r| ensures r[i].loss >= r[j].loss {
      assert r[j] == t[j - 1];
      if i > 0 {
        assert r[i] == t[i - 1];
      }
    }
  }

  lemma SortedByLossTail(rows: seq<SummaryRow>)
    requires rows != [] && SortedByLoss(rows)
    ensures LossBelowAll(rows[0].loss, rows[1..]) && SortedByLoss(rows[1..])
  {
    assert forall k :: 0 <= k < |rows| - 1 ==> rows[1..][k] == rows[k + 1];
  }

  lemma {:induction false} InsertByLossBound(y: real, x: SummaryRow, rows: seq<SummaryRow>)
    requires x.loss <= y && LossBelowAll(y, rows)
    ensures LossBelowAll(y, InsertByLoss(x, rows))
    decreases |rows|
  {
    if rows != [] && rows[0].loss > x.loss {
      assert LossBelowAll(y, rows[1..]) by {
        assert forall k :: 0 <= k < |rows| - 1 ==> rows[1..][k] == rows[k + 1];
      }
      InsertByLossBound(y, x, rows[1..]);
      var r := [rows[0]] + InsertByLoss(x, rows[1..]);
      assert forall k :: 1 <= k < |r| ==> r[k] == InsertByLoss(x, rows[1..])[k - 1];
    }
  }

  lemma {:induction false} InsertByLossCount(x: SummaryRow, rows: seq<SummaryRow>)
    ensures multiset(InsertByLoss(x, rows)) == multiset(rows) + multiset{x}
    decreases |rows|
  {
    if rows != [] && rows[0].loss > x.loss {
      InsertByLossCount(x, rows[1..]);
      assert rows == [rows[0]] + rows[1..];
    }
  }

  lemma {:induction false} InsertByLossSorted(x: SummaryRow, rows: seq<SummaryRow>)
    requires SortedByLoss(rows)
    ensures SortedByLoss(InsertByLoss(x, rows))
    ensures multiset(InsertByLoss(x, rows)) == multiset(rows) + multiset{x}
    decreases |rows|
  {
    InsertByLossCount(x, rows);
    if rows == [] {
    } else if rows[0].loss <= x.loss {
      SortedByLossTail(rows);
      SortedByLossCons(x, rows);
    } else {
      SortedByLossTail(rows);
      InsertByLossSorted(x, rows[1..]);
      InsertByLossBound(rows[0].loss, x, rows[1..]);
      SortedByLossCons(rows[0], InsertByLoss(x, rows[1..]));
    }
  }

  lemma {:induction false} SortByLossSorted(rows: seq<SummaryRow>)
    ensures SortedByLoss(SortByLoss(rows))
    ensures multiset(SortByLoss(rows)) == multiset(rows)
    decreases |rows|
  {
    if rows != [] {
      SortByLossSorted(rows[1..]);
      InsertByLossSorted(rows[0], SortByLoss(rows[1..]));
      assert rows == [rows[0]] + rows[1..];
    }
  }

  /** A row of the summary after numbering and classification. */
  datatype SummaryLine = SummaryLine(sno: nat, name: Value, loss: real, revenue: real, risk: string)

  /** `summary_df["S.NO."] = summary_df.index + 1` after `reset_index`,
      together with the `Risk Category` column. */
  function Numbered(rows: seq<SummaryRow>): (lines: seq<SummaryLine>)
    ensures |lines| == |rows|
    ensures forall i :: 0 <= i < |lines| ==>
      lines[i] == SummaryLine(i + 1, rows[i].name, rows[i].loss, rows[i].revenue, ClassifyLossRisk(rows[i].loss))
  {
    seq(|rows|, i requires 0 <= i < |rows| =>
      SummaryLine(i + 1, rows[i].name, rows[i].loss, rows[i].revenue, ClassifyLossRisk(rows[i].loss)))
  }

  /** The executive summary built from the successful records. */
  function Summary(successful: seq<RunRecord>): seq<SummaryLine> {
    Numbered(SortByLoss(SummaryFrame(successful)))
  }

  /** The summary holds the successful runs (losses coerced), highest loss
      first, numbered 1..n without gaps, each with its loss category. */
  lemma SummarySpec(successful: seq<RunRecord>)
    ensures var lines := Summary(successful);
      && |lines| == |successful|
      && (forall i, j :: 0 <= i < j < |lines| ==> lines[i].loss >= lines[j].loss)
      && (forall i :: 0 <= i < |lines| ==> lines[i].sno == i + 1 && lines[i].risk == ClassifyLossRisk(lines[i].loss))
      && multiset(seq(|lines|, i requires 0 <= i < |lines| => SummaryRow(lines[i].name, lines[i].loss, lines[i].revenue)))
         == multiset(SummaryFrame(successful))
  {
    var frame := SummaryFrame(successful);
    SortByLossSorted(frame);
    var sorted := SortByLoss(frame);
    var lines := Summary(successful);
    assert |sorted| == |multiset(sorted)| == |frame|;
    var back := seq(|lines|, i requires 0 <= i < |lines| => SummaryRow(lines[i].name, lines[i].loss, lines[i].revenue));
    assert back == sorted;
  }

  // ---------------------------------------------------------------------
  // KPIs
  // ---------------------------------------------------------------------

  function SumLoss(lines: seq<SummaryLine>): real {
    if lines == [] then 0.0 else lines[0].loss + SumLoss(lines[1..])
  }

  function SumRevenue(lines: seq<SummaryLine>): real {
    if lines == [] then 0.0 else lines[0].revenue + SumRevenue(lines[1..])
  }

  /** `total_loss / total_revenue * 100`, or 0 when there is no revenue. */
  function LossPercentage(totalLoss: real, totalRevenue: real): (p: real)
    ensures totalRevenue == 0.0 ==> p == 0.0
    ensures totalRevenue != 0.0 ==> p * totalRevenue == totalLoss * 100.0
  {
    if totalRevenue != 0.0 then totalLoss / totalRevenue * 100.0 else 0.0
  }

  /** The two KPI values of the report. */
  function Kpis(lines: seq<SummaryLine>): (k: (real, real)) {
    (SumLoss(lines), LossPercentage(SumLoss(lines), SumRevenue(lines)))
  }

  /** The KPIs do not depend on the order of the summary rows. */
  lemma {:induction false} SumLossOrderFree(rows: seq<SummaryRow>)
    ensures SumLoss(Numbered(SortByLoss(rows))) == SumRows(rows)
  {
    SortByLossSorted(rows);
    SumRowsPermutation(SortByLoss(rows), rows);
    NumberedSum(SortByLoss(rows));
  }

  function SumRows(rows: seq<SummaryRow>): real {
    if rows == [] then 0.0 else rows[0].loss + SumRows(rows[1..])
  }

  lemma {:induction false} NumberedSum(rows: seq<SummaryRow>)
    ensures SumLoss(Numbered(rows)) == SumRows(rows)
    decreases |rows|
  {
    if rows != [] {
      NumberedSum(rows[1..]);
      var n := Numbered(rows);
      assert forall i :: 0 <= i < |n| - 1 ==> n[1..][i].loss == Numbered(rows[1..])[i].loss;
      SumLossPointwise(n[1..], Numbered(rows[1..]));
    }
  }

  lemma {:induction false} SumLossPointwise(a: seq<SummaryLine>, b: seq<SummaryLine>)
    requires |a| == |b|
    requires forall i :: 0 <= i < |a| ==> a[i].loss == b[i].loss
    ensures SumLoss(a) == SumLoss(b)
    decreases |a|
  {
    if a != [] {
      SumLossPointwise(a[1..], b[1..]);
    }
  }

  /** Removing one row from a sum. */
  lemma {:induction false} SumRowsRemove(rows: seq<SummaryRow>, k: nat)
    requires k < |rows|
    ensures SumRows(rows) == rows[k].loss + SumRows(rows[..k] + rows[k + 1..])
    decreases k
  {
    if k > 0 {
      SumRowsRemove(rows[1..], k - 1);
      assert rows[1..][..k - 1] + rows[1..][k..] == (rows[..k] + rows[k + 1..])[1..];
    } else {
      assert rows[..0] + rows[1..] == rows[1..];
    }
  }

  lemma {:induction false} SumRowsPermutation(a: seq<SummaryRow>, b: seq<SummaryRow>)
    requires multiset(a) == multiset(b)
    ensures SumRows(a) == SumRows(b)
    decreases |a|
  {
    if a != [] {
      assert a[0] in multiset(b);
      var k :| 0 <= k < |b| && b[k] == a[0];
      PermutationStep(a, b, k);
      SumRowsPermutation(a[1..], b[..k] + b[k + 1..]);
      SumRowsRemove(b, k);
    }
  }

  /** Taking the first element off one arrangement and its match off the
      other leaves two arrangements of the same rows. */
  lemma PermutationStep<T>(a: seq<T>, b: seq<T>, k: nat)
    requires multiset(a) == multiset(b) && a != [] && k < |b| && b[k] == a[0]
    ensures multiset(a[1..]) == multiset(b[..k] + b[k + 1..])
  {
    calc {
      multiset(a[1..]);
      { assert a == [a[0]] + a[1..]; }
      multiset(a) - multiset{a[0]};
      multiset(b) - multiset{b[k]};
      { MultisetRemoveAt(b, k); }
      multiset(b[..k] + b[k + 1..]);
    }
  }

  lemma MultisetRemoveAt<T>(b: seq<T>, k: nat)
    requires k < |b|
    ensures multiset(b[..k] + b[k + 1..]) == multiset(b) - multiset{b[k]}
  {
    assert b == b[..k] + [b[k]] + b[k + 1..];
  }

  // ---------------------------------------------------------------------
  // Executive table
  // ---------------------------------------------------------------------

  const Header := Report.TableRow("S.NO.", "Dimension", "Total Loss (INR)", "Risk Category")

  /** `table_data`: the header, then one row per summary line with the loss
      in Western grouping. `toCents` is the float's rounding to hundredths
      and `show` the conversion of a name to text. */
  function TableData(lines: seq<SummaryLine>, toCents: real -> int, show: Value -> string): (t: seq<Report.TableRow>)
    ensures |t| == |lines| + 1 && t[0] == Header
    ensures forall i :: 0 <= i < |lines| ==>
      t[i + 1] == Report.TableRow(NatToString(lines[i].sno), show(lines[i].name), Report.Western(toCents(lines[i].loss)), lines[i].risk)
  {
    [Header] + seq(|lines|, i requires 0 <= i < |lines| =>
      Report.TableRow(NatToString(lines[i].sno), show(lines[i].name), Report.Western(toCents(lines[i].loss)), lines[i].risk))
  }

  /** A loss gets exactly the tick of its category. */
  lemma LossTicks(loss: real)
    ensures var ticks := Report.RagTicks(ClassifyLossRisk(loss));
      && (ticks.0 == Report.Tick <==> loss > 100000.0)
      && (ticks.1 == Report.Tick <==> 50000.0 < loss <= 100000.0)
      && (ticks.2 == Report.Tick <==> loss <= 50000.0)
  {
    assert Lower("High") == "high";
    assert Lower("Medium") == "medium";
    assert Lower("Low") == "low";
  }

  /** The executive table renders every summary line: its loss in Indian
      grouping, and exactly one tick, in the column of its loss category. */
  lemma ExecutiveTableTicks(lines: seq<SummaryLine>, toCents: real -> int, show: Value -> string)
    requires forall i :: 0 <= i < |lines| ==> lines[i].risk == ClassifyLossRisk(lines[i].loss)
    ensures var rows := Report.ReportRows(TableData(lines, toCents, show));
      && rows.Some? && |rows.value| == |lines|
      && forall i :: 0 <= i < |lines| ==>
        && rows.value[i].loss == "INR " + Report.FormatInr(toCents(lines[i].loss))
        && (rows.value[i].r == Report.Tick <==> lines[i].loss > 100000.0)
        && (rows.value[i].a == Report.Tick <==> 50000.0 < lines[i].loss <= 100000.0)
        && (rows.value[i].g == Report.Tick <==> lines[i].loss <= 50000.0)
  {
    var t := TableData(lines, toCents, show);
    var losses := seq(|lines|, i requires 0 <= i < |lines| => toCents(lines[i].loss));
    Report.ReportOfWesternLosses(t, losses);
    forall i | 0 <= i < |lines| {
      LossTicks(lines[i].loss);
    }
  }

  // ---------------------------------------------------------------------
  // Category names
  // ---------------------------------------------------------------------

  /** `name.replace(" ", "_").replace("&", "and")`, used for both the
      category folder and its PDF. */
  function SanitizeCategory(name: string): (r: string)
    ensures ' ' !in r && '&' !in r
  {
    var underscored := ReplaceAll(name, " ", "_");
    ReplaceAllRemoves(name, ' ', "_");
    ReplaceAllRemoves(underscored, '&', "and");
    ReplaceAllAvoids(underscored, "&", "and", ' ');
    ReplaceAll(underscored, "&", "and")
  }

  /** A name that already avoids both characters is used unchanged. */
  lemma SanitizeCleanName(name: string)
    requires ' ' !in name && '&' !in name
    ensures SanitizeCategory(name) == name
  {
    ReplaceCharAbsent(name, ' ', "_");
    ReplaceCharAbsent(name, '&', "and");
  }

  /** Each character is rewritten on its own: "R & D" becomes "R_and_D". */
  lemma SanitizeExample()
    ensures SanitizeCategory("R & D") == "R_and_D"
  {
    SpacesExample();
    AmpersandExample();
  }

  lemma SpacesExample()
    ensures ReplaceAll("R & D", " ", "_") == "R_&_D"
  {
    ReplaceCharConcat("R", " & D", ' ', "_");
    ReplaceCharConcat(" ", "& D", ' ', "_");
    ReplaceCharConcat("&", " D", ' ', "_");
    ReplaceCharConcat(" ", "D", ' ', "_");
  }

  lemma AmpersandExample()
    ensures ReplaceAll("R_&_D", "&", "and") == "R_and_D"
  {
    ReplaceCharConcat("R_", "&_D", '&', "and");
    ReplaceCharConcat("&", "_D", '&', "and");
  }
}

=== FILE: report.dfy ===
/** The two pieces of logic inside report/report_generator.py: rendering an
    amount in the Indian digit grouping (`format_inr`) and the R/A/G tick
    columns of the executive summary table. Amounts are whole hundredths
    (paise), so the float → ".2f" rounding step is outside the model. */
module Report {
  import opened Wrappers
  import opened Text

  // ---------------------------------------------------------------------
  // Plain two-decimal rendering
  // ---------------------------------------------------------------------

  function Digit(d: nat): (c: char)
    requires d < 10
    ensures IsDigit(c)
  {
    (('0' as int) + d) as char
  }

  /** The two decimals of `n` hundredths. */
  function TwoDigits(n: nat): (s: string)
    requires n < 100
    ensures |s| == 2 && AllDigits(s)
  {
    [Digit(n / 10), Digit(n % 10)]
  }

  function Abs(c: int): nat {
    if c < 0 then -c else c
  }

  /** The part of `f"{amount:.2f}"` before the point, a minus sign included. */
  function IntegerPart(cents: int): (s: string)
    ensures s != []
    ensures '.' !in s && ',' !in s
  {
    var digits := NatToString(Abs(cents) / 100);
    assert forall j :: 0 <= j < |digits| ==> IsDigit(digits[j]);
    (if cents < 0 then "-" else "") + digits
  }

  /** `f"{amount:.2f}"`. */
  function Plain(cents: int): string {
    IntegerPart(cents) + "." + TwoDigits(Abs(cents) % 100)
  }

  // ---------------------------------------------------------------------
  // Indian grouping
  // ---------------------------------------------------------------------

  /** The chunks of `rest` from the right, two characters each, the
      leftmost one holding what is left over, in left-to-right order. */
  function PairChunks(rest: string): (cs: seq<string>)
    requires rest != []
    ensures cs != []
    ensures 1 <= |cs[0]| <= 2
    ensures forall k :: 1 <= k < |cs| ==> |cs[k]| == 2
    decreases |rest|
  {
    if |rest| <= 2 then [rest]
    else PairChunks(rest[..|rest| - 2]) + [rest[|rest| - 2..]]
  }

  /** The grouping of the integer part: untouched up to three characters,
      otherwise pairs from the right followed by the last three. */
  function GroupIndian(integer: string): string {
    if |integer| <= 3 then integer
    else Join(",", PairChunks(integer[..|integer| - 3])) + "," + integer[|integer| - 3..]
  }

  /** `format_inr(amount)` for an amount of `cents` hundredths. */
  function FormatInr(cents: int): (r: string)
    ensures |r| >= 4 && r[|r| - 3] == '.' && AllDigits(r[|r| - 2..])
    ensures '.' !in r[..|r| - 3]
  {
    var g := GroupIndian(IntegerPart(cents));
    GroupIndianNoPoint(IntegerPart(cents));
    var r := g + "." + TwoDigits(Abs(cents) % 100);
    assert r[..|r| - 3] == g;
    assert r[|r| - 2..] == TwoDigits(Abs(cents) % 100);
    r
  }

  function Concat(cs: seq<string>): string {
    if cs == [] then [] else cs[0] + Concat(cs[1..])
  }

  lemma {:induction false} ConcatSnoc(cs: seq<string>, c: string)
    ensures Concat(cs + [c]) == Concat(cs) + c
    decreases |cs|
  {
    if cs == [] {
      assert [c][1..] == [];
    } else {
      assert (cs + [c])[1..] == cs[1..] + [c];
      ConcatSnoc(cs[1..], c);
    }
  }

  lemma {:induction false} JoinSnoc(sep: string, cs: seq<string>, c: string)
    requires cs != []
    ensures Join(sep, cs + [c]) == Join(sep, cs) + sep + c
    decreases |cs|
  {
    if |cs| == 1 {
      assert (cs + [c])[1..] == [c];
    } else {
      assert (cs + [c])[1..] == cs[1..] + [c];
      JoinSnoc(sep, cs[1..], c);
    }
  }

  lemma {:induction false} PairChunksConcat(rest: string)
    requires rest != []
    ensures Concat(PairChunks(rest)) == rest
    decreases |rest|
  {
    if |rest| <= 2 {
      assert [rest][1..] == [];
    } else {
      PairChunksConcat(rest[..|rest| - 2]);
      ConcatSnoc(PairChunks(rest[..|rest| - 2]), rest[|rest| - 2..]);
      assert rest[..|rest| - 2] + rest[|rest| - 2..] == rest;
    }
  }

  /** The groups of a long integer part: the leftmost holds one or two
      characters, every other but the last holds two, the last holds three,
      and together they spell the integer part; "1234567" becomes
      "12,34,567". */
  lemma IndianGroups(integer: string)
    requires |integer| > 3
    ensures var gs := PairChunks(integer[..|integer| - 3]) + [integer[|integer| - 3..]];
      && GroupIndian(integer) == Join(",", gs)
      && Concat(gs) == integer
      && 1 <= |gs[0]| <= 2
      && (forall k :: 1 <= k < |gs| - 1 ==> |gs[k]| == 2)
      && |gs[|gs| - 1]| == 3
  {
    var rest := integer[..|integer| - 3];
    var gs := PairChunks(rest) + [integer[|integer| - 3..]];
    JoinSnoc(",", PairChunks(rest), integer[|integer| - 3..]);
    PairChunksConcat(rest);
    ConcatSnoc(PairChunks(rest), integer[|integer| - 3..]);
    assert rest + integer[|integer| - 3..] == integer;
  }

  lemma NoCharInSlices(s: string, c: char, k: nat)
    requires k <= |s| && c !in s
    ensures c !in s[..k] && c !in s[k..]
  {
    assert forall j :: 0 <= j < k ==> s[..k][j] == s[j];
    assert forall j :: 0 <= j < |s| - k ==> s[k..][j] == s[k + j];
  }

  /** Deleting the commas of the grouping gives back the integer part. */
  lemma {:induction false} PairChunksUngroup(rest: string)
    requires rest != [] && ',' !in rest
    ensures ReplaceAll(Join(",", PairChunks(rest)), ",", "") == rest
    decreases |rest|
  {
    if |rest| <= 2 {
      ReplaceCharAbsent(rest, ',', "");
    } else {
      var front := rest[..|rest| - 2];
      var back := rest[|rest| - 2..];
      var jf := Join(",", PairChunks(front));
      assert Join(",", PairChunks(rest)) == jf + "," + back by {
        JoinSnoc(",", PairChunks(front), back);
      }
      assert ReplaceAll(jf + "," + back, ",", "") == front + back by {
        NoCharInSlices(rest, ',', |rest| - 2);
        PairChunksUngroup(front);
        ReplaceCharAround(jf, back, ',', "");
        ReplaceCharAbsent(back, ',', "");
      }
      assert front + back == rest;
    }
  }

  lemma GroupIndianUngroup(integer: string)
    requires ',' !in integer
    ensures ReplaceAll(GroupIndian(integer), ",", "") == integer
  {
    if |integer| <= 3 {
      ReplaceCharAbsent(integer, ',', "");
    } else {
      var rest := integer[..|integer| - 3];
      var last3 := integer[|integer| - 3..];
      var jr := Join(",", PairChunks(rest));
      assert GroupIndian(integer) == jr + "," + last3;
      assert ReplaceAll(jr + "," + last3, ",", "") == rest + last3 by {
        NoCharInSlices(integer, ',', |integer| - 3);
        PairChunksUngroup(rest);
        ReplaceCharAround(jr, last3, ',', "");
        ReplaceCharAbsent(last3, ',', "");
      }
      assert rest + last3 == integer;
    }
  }

  lemma {:induction false} PairChunksNoPoint(rest: string)
    requires rest != [] && '.' !in rest
    ensures '.' !in Join(",", PairChunks(rest))
    decreases |rest|
  {
    if |rest| > 2 {
      var front := rest[..|rest| - 2];
      assert forall j :: 0 <= j < |front| ==> front[j] == rest[j];
      PairChunksNoPoint(front);
      JoinSnoc(",", PairChunks(front), rest[|rest| - 2..]);
    }
  }

  lemma GroupIndianNoPoint(integer: string)
    requires '.' !in integer
    ensures '.' !in GroupIndian(integer)
  {
    if |integer| > 3 {
      var rest := integer[..|integer| - 3];
      assert forall j :: 0 <= j < |rest| ==> rest[j] == integer[j];
      PairChunksNoPoint(rest);
    }
  }

  /** Deleting every comma from `format_inr`'s output leaves the plain
      two-decimal rendering of the amount. */
  lemma FormatInrWithoutCommas(cents: int)
    ensures ReplaceAll(FormatInr(cents), ",", "") == Plain(cents)
  {
    var g := GroupIndian(IntegerPart(cents));
    var d := TwoDigits(Abs(cents) % 100);
    GroupIndianUngroup(IntegerPart(cents));
    ReplaceCharConcat(g + ".", d, ',', "");
    ReplaceCharConcat(g, ".", ',', "");
    ReplaceCharAbsent(".", ',', "");
    assert ',' !in d;
    ReplaceCharAbsent(d, ',', "");
  }

  /** An integer part of at most three characters is not grouped. */
  lemma ShortAmountsUngrouped(cents: int)
    requires |IntegerPart(cents)| <= 3
    ensures FormatInr(cents) == Plain(cents)
  {
  }

  lemma SevenDigits()
    ensures NatToString(1234567) == "1234567"
  {
    assert NatToString(1) == "1";
    assert NatToString(12) == "12";
    assert NatToString(123) == "123";
    assert NatToString(1234) == "1234";
    assert NatToString(12345) == "12345";
    assert NatToString(123456) == "123456";
  }

  lemma NegativeChunks()
    ensures Join(",", PairChunks("-1234")) == "-,12,34"
  {
    assert "-1234"[..3] == "-12";
    assert "-12"[..1] == "-";
    assert PairChunks("-12") == ["-", "12"];
    assert PairChunks("-1234") == ["-", "12", "34"];
  }

  /** The sign is a character of the integer part and is grouped with the
      digits. */
  lemma NegativeGrouping()
    ensures FormatInr(-123456700) == "-,12,34,567.00"
  {
    var integer := "-1234567";
    assert IntegerPart(-123456700) == integer by {
      IntegerPartParts(-123456700);
      assert Abs(-123456700) / 100 == 1234567;
      SevenDigits();
    }
    assert GroupIndian(integer) == "-,12,34,567" by {
      assert integer[..5] == "-1234";
      assert integer[5..] == "567";
      NegativeChunks();
    }
    assert TwoDigits(0) == "00";
    FormatInrParts(-123456700);
  }

  lemma IntegerPartParts(cents: int)
    ensures IntegerPart(cents) == (if cents < 0 then "-" else "") + NatToString(Abs(cents) / 100)
  {
  }

  lemma FormatInrParts(cents: int)
    ensures FormatInr(cents) == GroupIndian(IntegerPart(cents)) + "." + TwoDigits(Abs(cents) % 100)
  {
  }

  // ---------------------------------------------------------------------
  // Reading an amount back
  // ---------------------------------------------------------------------

  /** `float(text)` for text of the shape `[-]digits.dd`, in hundredths;
      `None` for any other text. */
  function ParseCents(t: string): Option<int> {
    var neg := |t| > 0 && t[0] == '-';
    var u := if neg then t[1..] else t;
    if |u| >= 4 && u[|u| - 3] == '.' && AllDigits(u[..|u| - 3]) && AllDigits(u[|u| - 2..]) then
      var v := DigitsValue(u[..|u| - 3]) * 100 + DigitsValue(u[|u| - 2..]);
      Some(if neg then -v else v)
    else None
  }

  /** `format_inr(text)`: commas are deleted before the text is read as an
      amount, so grouped input of any style is accepted. */
  function FormatInrText(s: string): Option<string> {
    match ParseCents(ReplaceAll(s, ",", ""))
    case None => None
    case Some(c) => Some(FormatInr(c))
  }

  lemma TwoDigitsValue(n: nat)
    requires n < 100
    ensures DigitsValue(TwoDigits(n)) == n
  {
    var s := TwoDigits(n);
    assert s[..1] == [Digit(n / 10)];
    assert [Digit(n / 10)][..0] == [];
    assert Digit(n / 10) as int - '0' as int == n / 10;
    assert Digit(n % 10) as int - '0' as int == n % 10;
    assert DigitsValue(s[..1]) == n / 10;
  }

  /** The plain rendering reads back as the amount it renders. */
  lemma ParsePlain(cents: int)
    ensures ParseCents(Plain(cents)) == Some(cents)
  {
    var u := NatToString(Abs(cents) / 100) + "." + TwoDigits(Abs(cents) % 100);
    UnsignedPlain(cents);
    assert Plain(cents) == (if cents < 0 then "-" else "") + u by {
      IntegerPartParts(cents);
    }
    if cents < 0 {
      assert Plain(cents) == "-" + u;
      ParseUnsigned(u, Abs(cents));
    } else {
      assert Plain(cents) == u;
      ParseUnsigned(u, Abs(cents));
    }
  }

  /** The unsigned part of the plain rendering has the shape the parser
      accepts, and its value is the absolute amount. */
  lemma UnsignedPlain(cents: int)
    ensures var u := NatToString(Abs(cents) / 100) + "." + TwoDigits(Abs(cents) % 100);
      && |u| >= 4 && u[|u| - 3] == '.' && u[0] != '-' && AllDigits(u[..|u| - 3]) && AllDigits(u[|u| - 2..])
      && DigitsValue(u[..|u| - 3]) * 100 + DigitsValue(u[|u| - 2..]) == Abs(cents)
  {
    var q := Abs(cents) / 100;
    var digits := NatToString(q);
    var frac := TwoDigits(Abs(cents) % 100);
    var u := digits + "." + frac;
    assert u[..|u| - 3] == digits;
    assert u[|u| - 2..] == frac;
    assert IsDigit(u[0]);
    NatToStringRoundTrip(q);
    TwoDigitsValue(Abs(cents) % 100);
  }

  /** Text of the shape `digits.dd` reads as its value `v`, and with a
      leading minus sign as `-v`. */
  lemma ParseUnsigned(u: string, v: int)
    requires |u| >= 4 && u[|u| - 3] == '.' && u[0] != '-' && AllDigits(u[..|u| - 3]) && AllDigits(u[|u| - 2..])
    requires v == DigitsValue(u[..|u| - 3]) * 100 + DigitsValue(u[|u| - 2..])
    ensures ParseCents(u) == Some(v)
    ensures ParseCents("-" + u) == Some(-v)
  {
    assert ("-" + u)[1..] == u;
  }

  /** Any text whose comma-free form is the plain rendering of an amount
      formats as that amount. */
  lemma FormatInrTextOfAmount(s: string, cents: int)
    requires ReplaceAll(s, ",", "") == Plain(cents)
    ensures FormatInrText(s) == Some(FormatInr(cents))
  {
    ParsePlain(cents);
  }

  /** `format_inr` is idempotent on its own output. */
  lemma FormatInrIdempotent(cents: int)
    ensures FormatInrText(FormatInr(cents)) == Some(FormatInr(cents))
  {
    FormatInrWithoutCommas(cents);
    FormatInrTextOfAmount(FormatInr(cents), cents);
  }

  // ---------------------------------------------------------------------
  // Western grouping (`f"{loss:,.2f}"`) as the executive table holds it
  // ---------------------------------------------------------------------

  /** Groups of three from the right, the leftmost holding what is left. */
  function TripleChunks(x: string): (cs: seq<string>)
    requires x != []
    ensures cs != []
    decreases |x|
  {
    if |x| <= 3 then [x]
    else TripleChunks(x[..|x| - 3]) + [x[|x| - 3..]]
  }

  /** `f"{amount:,.2f}"`: the sign stands outside the grouping. */
  function Western(cents: int): string {
    (if cents < 0 then "-" else "")
    + Join(",", TripleChunks(NatToString(Abs(cents) / 100)))
    + "." + TwoDigits(Abs(cents) % 100)
  }

  lemma {:induction false} TripleChunksUngroup(x: string)
    requires x != [] && ',' !in x
    ensures ReplaceAll(Join(",", TripleChunks(x)), ",", "") == x
    decreases |x|
  {
    if |x| <= 3 {
      ReplaceCharAbsent(x, ',', "");
    } else {
      var front := x[..|x| - 3];
      var back := x[|x| - 3..];
      var jf := Join(",", TripleChunks(front));
      assert Join(",", TripleChunks(x)) == jf + "," + back by {
        JoinSnoc(",", TripleChunks(front), back);
      }
      assert ReplaceAll(jf + "," + back, ",", "") == front + back by {
        NoCharInSlices(x, ',', |x| - 3);
        TripleChunksUngroup(front);
        ReplaceCharAround(jf, back, ',', "");
        ReplaceCharAbsent(back, ',', "");
      }
      assert front + back == x;
    }
  }

  /** Western-grouped text formats as the same amount in Indian grouping. */
  lemma WesternToIndian(cents: int)
    ensures FormatInrText(Western(cents)) == Some(FormatInr(cents))
  {
    var digits := NatToString(Abs(cents) / 100);
    assert forall j :: 0 <= j < |digits| ==> IsDigit(digits[j]);
    var sign: string := if cents < 0 then "-" else "";
    var j := Join(",", TripleChunks(digits));
    var d := TwoDigits(Abs(cents) % 100);
    TripleChunksUngroup(digits);
    assert Western(cents) == sign + j + "." + d;
    ReplaceCharConcat(sign + j + ".", d, ',', "");
    ReplaceCharConcat(sign + j, ".", ',', "");
    ReplaceCharConcat(sign, j, ',', "");
    ReplaceCharAbsent(sign, ',', "");
    ReplaceCharAbsent(".", ',', "");
    assert ',' !in d;
    ReplaceCharAbsent(d, ',', "");
    assert Plain(cents) == sign + digits + "." + d;
    FormatInrTextOfAmount(Western(cents), cents);
  }

  // ---------------------------------------------------------------------
  // R/A/G ticks
  // ---------------------------------------------------------------------

  const Tick := "✓"

  /** A row of `table_data`: serial number, name, loss text, risk. */
  datatype TableRow = TableRow(sr: string, name: string, loss: string, risk: string)

  /** A rendered data row of the executive table. */
  datatype ReportRow = ReportRow(sr: string, name: string, loss: string, r: string, a: string, g: string)

  /** The three tick cells for a risk category. */
  function RagTicks(risk: string): (ticks: (string, string, string))
    ensures var l := Lower(risk);
      && (ticks.0 == Tick <==> l == "high") && (ticks.0 == "" <==> l != "high")
      && (ticks.1 == Tick <==> l == "medium") && (ticks.1 == "" <==> l != "medium")
      && (ticks.2 == Tick <==> l == "low") && (ticks.2 == "" <==> l != "low")
  {
    var l := Lower(risk);
    (if l == "high" then Tick else "", if l == "medium" then Tick else "", if l == "low" then Tick else "")
  }

  function TickCount(ticks: (string, string, string)): nat {
    (if ticks.0 == Tick then 1 else 0) + (if ticks.1 == Tick then 1 else 0) + (if ticks.2 == Tick then 1 else 0)
  }

  /** A known category gets exactly one tick, anything else none. */
  lemma OneTickPerKnownRisk(risk: string)
    ensures TickCount(RagTicks(risk)) == if Lower(risk) in {"high", "medium", "low"} then 1 else 0
  {
  }

  /** The rendered rows for `rows`, or `None` as soon as a loss text does
      not read as an amount. */
  function RenderRows(rows: seq<TableRow>): (r: Option<seq<ReportRow>>)
    ensures r.Some? <==> forall k :: 0 <= k < |rows| ==> FormatInrText(rows[k].loss).Some?
    ensures r.Some? ==> |r.value| == |rows|
    ensures r.Some? ==> forall k :: 0 <= k < |rows| ==>
      var ticks := RagTicks(rows[k].risk);
      r.value[k] == ReportRow(rows[k].sr, rows[k].name, "INR " + FormatInrText(rows[k].loss).value, ticks.0, ticks.1, ticks.2)
    decreases |rows|
  {
    if rows == [] then Some([])
    else
      var row := rows[0];
      var rest := RenderRows(rows[1..]);
      assert forall k :: 1 <= k < |rows| ==> rows[1..][k - 1] == rows[k];
      match FormatInrText(row.loss)
      case None => None
      case Some(loss) =>
        var ticks := RagTicks(row.risk);
        if rest.None? then None
        else Some([ReportRow(row.sr, row.name, "INR " + loss, ticks.0, ticks.1, ticks.2)] + rest.value)
  }

  /** The data rows of the executive table: the first row of `table_data`
      (the header) is skipped; a loss text that does not read as an amount
      makes the report fail. */
  function ReportRows(tableData: seq<TableRow>): Option<seq<ReportRow>> {
    if tableData == [] then Some([]) else RenderRows(tableData[1..])
  }

  /** Every data row of the table that `main.py` builds from a loss in
      hundredths renders, in order, with that loss in Indian grouping and
      the tick of its category. */
  lemma ReportOfWesternLosses(tableData: seq<TableRow>, losses: seq<int>)
    requires |tableData| == |losses| + 1
    requires forall k :: 0 <= k < |losses| ==> tableData[k + 1].loss == Western(losses[k])
    ensures ReportRows(tableData).Some?
    ensures |ReportRows(tableData).value| == |losses|
    ensures forall k :: 0 <= k < |losses| ==>
      var row := tableData[k + 1];
      var ticks := RagTicks(row.risk);
      ReportRows(tableData).value[k] == ReportRow(row.sr, row.name, "INR " + FormatInr(losses[k]), ticks.0, ticks.1, ticks.2)
  {
    var rows := tableData[1..];
    forall k | 0 <= k < |rows|
      ensures FormatInrText(rows[k].loss) == Some(FormatInr(losses[k]))
    {
      WesternToIndian(losses[k]);
    }
  }
}

=== FILE: segments.dfy ===
/** What every use case hands back to `main`, and the algebra its segments
    rest on: a filter read as a plain row predicate, the complement of a
    selection by index label, and a column total split between a segment
    and the rest of the table. */
module Segments {
  import opened Wrappers
  import opened Dicts
  import opened Values
  import opened Tables
  import opened Filters
  import Pipeline

  /** The dict a use case's `run` returns. An amount the use case reports
      as `None` is `Null`. */
  datatype RunResult = RunResult(name: string, recordsFound: nat, totalRevenue: Value, totalLoss: Value)

  /** The dict itself, keys in the order the use cases write them. */
  function ResultDict(r: RunResult): Dict<Value> {
    [ ("name", Str(r.name)),
      ("records_found", Num(r.recordsFound as real)),
      ("total_revenue", r.totalRevenue),
      ("total_loss", r.totalLoss) ]
  }

  /** `main` records the returned dict field for field, under status
      "success". */
  lemma RecordOfResult(moduleName: string, r: RunResult)
    ensures Pipeline.RecordOf(moduleName, Pipeline.Returned(ResultDict(r)))
         == Pipeline.RunRecord(moduleName, Str(r.name), Num(r.recordsFound as real),
                               r.totalLoss, r.totalRevenue, Pipeline.Success, None)
  {
    var d := ResultDict(r);
    IndexOfFirst(d, 0, "name");
    IndexOfFirst(d, 1, "records_found");
    IndexOfFirst(d, 2, "total_revenue");
    IndexOfFirst(d, 3, "total_loss");
  }

  /** `df[column].sum()` as the amount a result reports. */
  function Money(rows: seq<Row>, column: string): Value {
    Num(Total(rows, column))
  }

  /** The KeyError `df[c]` raises for the first column `c` of `read` the
      table lacks, reading the columns in order; none when it has them all. */
  function MissingRead(columns: seq<string>, read: seq<string>): (e: Option<FilterError>)
    ensures e.None? <==> forall c :: c in read ==> c in columns
    ensures e.Some? ==> e.value.MissingColumn? && e.value.column in read && e.value.column !in columns
    ensures read != [] && read[0] !in columns ==> e == Some(MissingColumn(read[0]))
  {
    if read == [] then None
    else if read[0] !in columns then Some(MissingColumn(read[0]))
    else MissingRead(columns, read[1..])
  }

  // ---------------------------------------------------------------------
  // Reading filter specifications
  // ---------------------------------------------------------------------

  lemma RowSatPair(c1: string, k1: Cond, c2: string, k2: Cond, r: Row)
    ensures RowSat([(c1, k1), (c2, k2)], r) <==> CondSat(k1, Cell(r, c1)) && CondSat(k2, Cell(r, c2))
  {
    var spec := [(c1, k1), (c2, k2)];
    assert spec[0] == (c1, k1) && spec[1] == (c2, k2);
  }

  lemma RowSatTriple(c1: string, k1: Cond, c2: string, k2: Cond, c3: string, k3: Cond, r: Row)
    ensures RowSat([(c1, k1), (c2, k2), (c3, k3)], r)
        <==> CondSat(k1, Cell(r, c1)) && CondSat(k2, Cell(r, c2)) && CondSat(k3, Cell(r, c3))
  {
    var spec := [(c1, k1), (c2, k2), (c3, k3)];
    assert spec[0] == (c1, k1) && spec[1] == (c2, k2) && spec[2] == (c3, k3);
  }

  lemma SpecOkPair(t: Table, c1: string, k1: Cond, c2: string, k2: Cond)
    ensures SpecOk(t, [(c1, k1), (c2, k2)]) <==> CondOk(t, c1, k1) && CondOk(t, c2, k2)
  {
    var spec := [(c1, k1), (c2, k2)];
    assert spec[0] == (c1, k1) && spec[1] == (c2, k2);
  }

  lemma SpecOkTriple(t: Table, c1: string, k1: Cond, c2: string, k2: Cond, c3: string, k3: Cond)
    ensures SpecOk(t, [(c1, k1), (c2, k2), (c3, k3)])
        <==> CondOk(t, c1, k1) && CondOk(t, c2, k2) && CondOk(t, c3, k3)
  {
    var spec := [(c1, k1), (c2, k2), (c3, k3)];
    assert spec[0] == (c1, k1) && spec[1] == (c2, k2) && spec[2] == (c3, k3);
  }

  lemma CondSatPair(o1: string, v1: Value, o2: string, v2: Value, x: Value)
    ensures CondSat(Ops([(o1, v1), (o2, v2)]), x) <==> OpHolds(o1, x, v1) && OpHolds(o2, x, v2)
  {
    var ops := [(o1, v1), (o2, v2)];
    assert ops[0] == (o1, v1) && ops[1] == (o2, v2);
  }

  // ---------------------------------------------------------------------
  // Selections by row predicate
  // ---------------------------------------------------------------------

  /** A selection by a row predicate holds exactly the rows satisfying it,
      and its negation exactly the others. */
  lemma WhereMembership(rows: seq<Row>, p: Row -> bool, r: Row)
    ensures r in Select(rows, Where(rows, p)) <==> r in rows && p(r)
    ensures r in Select(rows, Negate(Where(rows, p))) <==> r in rows && !p(r)
  {
    SelectMembership(rows, Where(rows, p), r);
    SelectMembership(rows, Negate(Where(rows, p)), r);
  }

  /** A successful filter keeps exactly the rows of any predicate that
      agrees with its specification on every row. */
  lemma FilterIsWhere(t: Table, spec: Spec, p: Row -> bool)
    requires ApplyFilters(t, spec).Success?
    requires forall r :: RowSat(spec, r) == p(r)
    ensures ApplyFilters(t, spec).value == Table(t.columns, Select(t.rows, Where(t.rows, p)))
  {
    SelectSameMask(t.rows, SatMask(spec, t.rows), Where(t.rows, p));
  }

  /** `df.loc[~df.index.isin(segment.index)]` for a segment selected from
      `df` is the rest of `df`: the two sizes add up to the row count and
      the two totals of any column to the column's total. */
  lemma IndexComplement(rows: seq<Row>, mask: seq<bool>, column: string)
    requires |mask| == |rows| && UniqueIds(rows)
    ensures Select(rows, Negate(IdMask(rows, Ids(Select(rows, mask))))) == Select(rows, Negate(mask))
    ensures |Select(rows, mask)| + |Select(rows, Negate(mask))| == |rows|
    ensures Total(Select(rows, mask), column) + Total(Select(rows, Negate(mask)), column) == Total(rows, column)
  {
    ComplementByIds(rows, mask);
    SelectComplementSizes(rows, mask);
    TotalSplit(rows, mask, column);
  }

  /** Two selections by predicates no row satisfies together share no row. */
  lemma DisjointWhere(rows: seq<Row>, p: Row -> bool, q: Row -> bool)
    requires forall r :: !(p(r) && q(r))
    ensures forall r :: r in Select(rows, Where(rows, p)) ==> r !in Select(rows, Where(rows, q))
  {
    forall r | r in Select(rows, Where(rows, p)) ensures r !in Select(rows, Where(rows, q)) {
      WhereMembership(rows, p, r);
      WhereMembership(rows, q, r);
    }
  }

  /** A filter and its index complement, read through a predicate that
      agrees with the filter: the kept rows are the input rows satisfying
      it, in order; with unique index labels the complement holds the
      others, and sizes and column totals split between the two. */
  lemma FilterSplit(t: Table, spec: Spec, p: Row -> bool, column: string)
    requires ApplyFilters(t, spec).Success?
    requires forall r :: RowSat(spec, r) == p(r)
    ensures var kept := ApplyFilters(t, spec).value.rows;
            var rest := Select(t.rows, Negate(IdMask(t.rows, Ids(kept))));
      && IsSubsequence(kept, t.rows)
      && (forall r :: r in kept <==> r in t.rows && p(r))
      && (UniqueIds(t.rows) ==>
            && (forall r :: r in rest <==> r in t.rows && !p(r))
            && |kept| + |rest| == |t.rows|
            && Total(rest, column) == Total(t.rows, column) - Total(kept, column))
  {
    var m := Where(t.rows, p);
    FilterIsWhere(t, spec, p);
    SelectIsSubsequence(t.rows, m);
    forall r ensures r in Select(t.rows, m) <==> r in t.rows && p(r) {
      WhereMembership(t.rows, p, r);
    }
    if UniqueIds(t.rows) {
      IndexComplement(t.rows, m, column);
      forall r ensures r in Select(t.rows, Negate(m)) <==> r in t.rows && !p(r) {
        WhereMembership(t.rows, p, r);
      }
    }
  }

  /** `df[~df[key].isin(kept[key])]` for a filtered `kept`: with a unique
      key column it holds exactly the rows the filter rejected, and sizes
      and column totals split between the two. */
  lemma FilterKeySplit(t: Table, spec: Spec, p: Row -> bool, key: string, column: string)
    requires ApplyFilters(t, spec).Success?
    requires forall r :: RowSat(spec, r) == p(r)
    requires UniqueKey(t.rows, key)
    ensures var kept := ApplyFilters(t, spec).value.rows;
            var rest := Select(t.rows, Negate(IsinMask(Column(t.rows, key), Column(kept, key))));
      && (forall r :: r in rest <==> r in t.rows && !p(r))
      && |kept| + |rest| == |t.rows|
      && Total(rest, column) == Total(t.rows, column) - Total(kept, column)
  {
    var m := Where(t.rows, p);
    FilterIsWhere(t, spec, p);
    ComplementByKey(t.rows, m, key);
    SelectComplementSizes(t.rows, m);
    TotalSplit(t.rows, m, column);
    forall r ensures r in Select(t.rows, Negate(m)) <==> r in t.rows && !p(r) {
      WhereMembership(t.rows, p, r);
    }
  }

  lemma WhereTail(rows: seq<Row>, p: Row -> bool)
    requires rows != []
    ensures Where(rows, p)[1..] == Where(rows[1..], p)
  {
  }

  /** Filtering the rows a first predicate kept by a second one keeps the
      rows satisfying both, in their original order. */
  lemma {:induction false} WhereTwice(rows: seq<Row>, p: Row -> bool, q: Row -> bool, s: Row -> bool)
    requires forall r :: s(r) == (p(r) && q(r))
    ensures Select(Select(rows, Where(rows, p)), Where(Select(rows, Where(rows, p)), q)) == Select(rows, Where(rows, s))
  {
    if rows != [] {
      WhereTail(rows, p);
      WhereTail(rows, s);
      WhereTwice(rows[1..], p, q, s);
      var kept := Select(rows, Where(rows, p));
      if p(rows[0]) {
        assert kept == [rows[0]] + Select(rows[1..], Where(rows[1..], p));
        WhereTail(kept, q);
      }
    }
  }

  /** Two predicates no row satisfies together split the rows satisfying
      either: sizes and column totals add up. */
  lemma {:induction false} DisjointUnion(rows: seq<Row>, p: Row -> bool, q: Row -> bool, s: Row -> bool, column: string)
    requires forall r :: !(p(r) && q(r))
    requires forall r :: s(r) == (p(r) || q(r))
    ensures |Select(rows, Where(rows, p))| + |Select(rows, Where(rows, q))| == |Select(rows, Where(rows, s))|
    ensures Total(Select(rows, Where(rows, p)), column) + Total(Select(rows, Where(rows, q)), column)
         == Total(Select(rows, Where(rows, s)), column)
  {
    if rows != [] {
      WhereTail(rows, p);
      WhereTail(rows, q);
      WhereTail(rows, s);
      DisjointUnion(rows[1..], p, q, s, column);
    }
  }

  /** A predicate implied by another selects at least as many rows. */
  lemma {:induction false} WhereMonotone(rows: seq<Row>, p: Row -> bool, q: Row -> bool)
    requires forall r :: p(r) ==> q(r)
    ensures |Select(rows, Where(rows, p))| <= |Select(rows, Where(rows, q))|
  {
    if rows != [] {
      WhereTail(rows, p);
      WhereTail(rows, q);
      WhereMonotone(rows[1..], p, q);
    }
  }
}

=== FILE: summary.dfy ===
/** The summary text a use case writes for its category report, and the
    cleaner in main.py that turns such a text back into report markup.
    Every use case carries an identical copy of the writer; it is modelled
    once here. */
module SummaryText {
  import opened Wrappers
  import opened Dicts
  import opened Values
  import opened Text

  /** One element of a list answer: a JSON object or anything else. */
  datatype AiItem = ItemDict(entries: Dict<Value>) | ItemOther(item: Value)

  /** The decoded answer of the language model. */
  datatype AiResponse =
    | ResponseList(items: seq<AiItem>)
    | ResponseDict(entries: Dict<Value>)
    | ResponseOther(value: Value)

  /** Python's `str(v)`: text is itself, anything else is rendered by
      `repr`, which stands for Python's own rendering of numbers, `None`,
      lists and objects. */
  function Show(v: Value, repr: Value -> string): string {
    if v.Str? then v.s else repr(v)
  }

  /** `f"{key}: {value}"`. */
  function EntryLine(entry: (string, Value), repr: Value -> string): string {
    entry.0 + ": " + Show(entry.1, repr)
  }

  function EntryLines(entries: Dict<Value>, repr: Value -> string): (ls: seq<string>)
    ensures |ls| == |entries|
    ensures forall i :: 0 <= i < |entries| ==> ls[i] == EntryLine(entries[i], repr)
  {
    seq(|entries|, i requires 0 <= i < |entries| => EntryLine(entries[i], repr))
  }

  /** The lines one list element contributes. */
  function ItemLines(item: AiItem, repr: Value -> string): seq<string> {
    match item
    case ItemDict(entries) => EntryLines(entries, repr)
    case ItemOther(v) => [Show(v, repr)]
  }

  /** `formatted_lines` for a list answer, item after item. */
  function ListLines(items: seq<AiItem>, repr: Value -> string): seq<string> {
    if items == [] then [] else ItemLines(items[0], repr) + ListLines(items[1..], repr)
  }

  /** `summary_text` as the use cases write it. */
  function FormatAiResponse(response: AiResponse, repr: Value -> string): string {
    match response
    case ResponseList(items) => Join("\n\n", ListLines(items, repr))
    case ResponseDict(entries) => Join("\n\n", EntryLines(entries, repr))
    case ResponseOther(v) => Show(v, repr)
  }

  /** A single object answer is written exactly like a list holding only
      that object. */
  lemma DictAnswerLikeList(entries: Dict<Value>, repr: Value -> string)
    ensures FormatAiResponse(ResponseDict(entries), repr) == FormatAiResponse(ResponseList([ItemDict(entries)]), repr)
  {
    assert [ItemDict(entries)][1..] == [];
    assert ListLines([ItemDict(entries)], repr) == EntryLines(entries, repr) + [];
    assert EntryLines(entries, repr) + [] == EntryLines(entries, repr);
  }

  // ---------------------------------------------------------------------
  // The cleaner of main.py
  // ---------------------------------------------------------------------

  const TitleMarker := "title:"
  const DescriptionMarker := "description:"

  /** One line of the cleaner: a title line becomes bold text, a
      description line its text, any other line is dropped. The marker is
      deleted wherever it occurs in the line, not only at its start. */
  function CleanLine(line: string): Option<string> {
    var l := Strip(line);
    if StartsWith(l, TitleMarker) then Some("<b>" + Strip(ReplaceAll(l, TitleMarker, "")) + "</b>")
    else if StartsWith(l, DescriptionMarker) then Some(Strip(ReplaceAll(l, DescriptionMarker, "")))
    else None
  }

  function CleanLines(lines: seq<string>): seq<string> {
    if lines == [] then []
    else
      match CleanLine(lines[0])
      case Some(c) => [c] + CleanLines(lines[1..])
      case None => CleanLines(lines[1..])
  }

  /** The formatted paragraph the category report shows for a summary. */
  function CleanSummary(raw: string): string {
    Join("<br/><br/>", CleanLines(SplitLines(raw)))
  }

  lemma {:induction false} CleanLinesConcat(a: seq<string>, b: seq<string>)
    ensures CleanLines(a + b) == CleanLines(a) + CleanLines(b)
    decreases |a|
  {
    if a == [] {
      assert a + b == b;
    } else {
      assert (a + b)[1..] == a[1..] + b;
      CleanLinesConcat(a[1..], b);
    }
  }

  /** A marker line, cleaned, gives back the text after the marker. */
  lemma MarkerLine(marker: string, t: string)
    requires marker != [] && !IsSpace(marker[0]) && !IsSpace(marker[|marker| - 1])
    requires IsStripped(t) && !Occurs(t, marker)
    ensures StartsWith(Strip(marker + " " + t), marker)
    ensures Strip(ReplaceAll(Strip(marker + " " + t), marker, "")) == t
  {
    if t == [] {
      assert marker + " " + t == marker + " ";
      MarkerAlone(marker);
    } else {
      MarkerWithText(marker, t);
    }
  }

  lemma MarkerAlone(marker: string)
    requires marker != [] && !IsSpace(marker[0]) && !IsSpace(marker[|marker| - 1])
    ensures StartsWith(Strip(marker + " "), marker)
    ensures Strip(ReplaceAll(Strip(marker + " "), marker, "")) == []
  {
    StripTrailingSpace(marker);
    assert StartsWith(marker, marker);
    assert marker[|marker|..] == [];
    assert ReplaceAll(marker, marker, "") == [];
    StripStripped([]);
  }

  lemma MarkerWithText(marker: string, t: string)
    requires marker != [] && !IsSpace(marker[0]) && !IsSpace(marker[|marker| - 1])
    requires t != [] && IsStripped(t) && !Occurs(t, marker)
    ensures StartsWith(Strip(marker + " " + t), marker)
    ensures Strip(ReplaceAll(Strip(marker + " " + t), marker, "")) == t
  {
    var f := marker + " " + t;
    assert f[0] == marker[0] && f[|f| - 1] == t[|t| - 1];
    StripStripped(f);
    assert StartsWith(f, marker);
    assert f[|marker|..] == " " + t;
    var g := " " + t;
    assert g[0] != marker[0];
    assert g[1..] == t;
    ReplaceAllAbsent(t, marker, "");
    assert ReplaceAll(f, marker, "") == g;
    StripLeadingSpace(t);
  }

  lemma CleanTitleLine(t: string)
    requires IsStripped(t) && !Occurs(t, TitleMarker)
    ensures CleanLine(TitleMarker + " " + t) == Some("<b>" + t + "</b>")
  {
    MarkerLine(TitleMarker, t);
  }

  lemma CleanDescriptionLine(d: string)
    requires IsStripped(d) && !Occurs(d, DescriptionMarker)
    ensures CleanLine(DescriptionMarker + " " + d) == Some(d)
  {
    MarkerLine(DescriptionMarker, d);
    DescriptionNotTitle(Strip(DescriptionMarker + " " + d));
  }

  lemma DescriptionNotTitle(l: string)
    requires StartsWith(l, DescriptionMarker)
    ensures !StartsWith(l, TitleMarker)
  {
    assert l[0] == DescriptionMarker[0] == 'd';
    assert TitleMarker[0] == 't';
  }

  /** A line whose first character starts neither marker is dropped. */
  lemma CleanOtherLine(line: string)
    requires line != [] && !IsSpace(line[0]) && line[0] != 't' && line[0] != 'd'
    ensures CleanLine(line) == None
  {
    StripKeepsFirst(line);
  }

  /** An item of the schema the prompt asks for: `segment_no`, `title` and
      `description`, in that order, with text title and description. */
  predicate SchemaItem(item: AiItem) {
    && item.ItemDict? && |item.entries| == 3
    && item.entries[0].0 == "segment_no"
    && item.entries[1].0 == "title" && item.entries[1].1.Str?
    && item.entries[2].0 == "description" && item.entries[2].1.Str?
  }

  /** The conditions under which a schema item survives the round trip:
      single-line values, title and description without surrounding
      whitespace and without their own marker inside. */
  predicate Recoverable(item: AiItem, repr: Value -> string) {
    && SchemaItem(item)
    && !HasLineBreak(Show(item.entries[0].1, repr))
    && var t := item.entries[1].1.s;
    && var d := item.entries[2].1.s;
    && IsStripped(t) && !HasLineBreak(t) && !Occurs(t, TitleMarker)
    && IsStripped(d) && !HasLineBreak(d) && !Occurs(d, DescriptionMarker)
  }

  /** The title text of a schema item. */
  function TitleText(item: AiItem): string {
    if SchemaItem(item) then item.entries[1].1.s else []
  }

  /** The description text of a schema item. */
  function DescriptionText(item: AiItem): string {
    if SchemaItem(item) then item.entries[2].1.s else []
  }

  /** What the cleaner should show for the items: each title in bold, then
      its description. */
  function Recovered(items: seq<AiItem>): seq<string> {
    if items == [] then []
    else ["<b>" + TitleText(items[0]) + "</b>", DescriptionText(items[0])] + Recovered(items[1..])
  }

  /** `lines` with an empty line between neighbours: what splitting a
      `"\n\n"`-join at every line break produces. */
  function Spaced(lines: seq<string>): seq<string> {
    if |lines| <= 1 then lines else [lines[0], ""] + Spaced(lines[1..])
  }

  lemma {:induction false} SpacedJoin(lines: seq<string>)
    ensures Join("\n\n", lines) == Join("\n", Spaced(lines))
    ensures |lines| > 0 ==> |Spaced(lines)| > 0
    decreases |lines|
  {
    if |lines| > 1 {
      SpacedJoin(lines[1..]);
      var rest := Spaced(lines[1..]);
      assert ([lines[0], ""] + rest)[1..] == [""] + rest;
      assert ([""] + rest)[1..] == rest;
    }
  }

  lemma {:induction false} SpacedClean(lines: seq<string>)
    ensures CleanLines(Spaced(lines)) == CleanLines(lines)
    decreases |lines|
  {
    if |lines| > 1 {
      SpacedClean(lines[1..]);
      CleanLinesConcat([lines[0], ""], Spaced(lines[1..]));
      CleanLinesConcat([lines[0]], lines[1..]);
      assert CleanLine("") == None;
      assert [lines[0], ""][1..] == [""];
      assert [lines[0]] + lines[1..] == lines;
    }
  }

  lemma {:induction false} SpacedNoBreak(lines: seq<string>)
    requires forall i :: 0 <= i < |lines| ==> !HasLineBreak(lines[i])
    ensures forall i :: 0 <= i < |Spaced(lines)| ==> !HasLineBreak(Spaced(lines)[i])
    decreases |lines|
  {
    if |lines| > 1 {
      SpacedNoBreak(lines[1..]);
    }
  }

  lemma CleanLinesSingle(line: string)
    ensures CleanLines([line]) == if CleanLine(line).Some? then [CleanLine(line).value] else []
  {
    assert [line][1..] == [];
  }

  /** The lines a schema item contributes. */
  lemma SchemaItemLines(item: AiItem, repr: Value -> string)
    requires SchemaItem(item)
    ensures ItemLines(item, repr) == [
      "segment_no: " + Show(item.entries[0].1, repr),
      TitleMarker + " " + item.entries[1].1.s,
      DescriptionMarker + " " + item.entries[2].1.s]
  {
    var ls := ItemLines(item, repr);
    var n, t, d := Show(item.entries[0].1, repr), item.entries[1].1.s, item.entries[2].1.s;
    assert ls[0] == "segment_no" + ": " + n;
    assert ls[1] == "title" + ": " + t;
    assert ls[2] == "description" + ": " + d;
    assert "segment_no" + ": " + n == "segment_no: " + n;
    assert "title" + ": " + t == TitleMarker + " " + t;
    assert "description" + ": " + d == DescriptionMarker + " " + d;
  }

  /** The three lines of one recoverable item clean to its title and its
      description, and none of them holds a line break. */
  lemma ItemCleans(item: AiItem, repr: Value -> string)
    requires Recoverable(item, repr)
    ensures CleanLines(ItemLines(item, repr)) == ["<b>" + TitleText(item) + "</b>", DescriptionText(item)]
    ensures forall i :: 0 <= i < |ItemLines(item, repr)| ==> !HasLineBreak(ItemLines(item, repr)[i])
  {
    var t := item.entries[1].1.s;
    var d := item.entries[2].1.s;
    var n := Show(item.entries[0].1, repr);
    assert TitleText(item) == t && DescriptionText(item) == d;
    SchemaItemLines(item, repr);
    ThreeLinesClean(n, t, d);
    ThreeLinesNoBreak(n, t, d);
  }

  lemma ThreeLinesNoBreak(n: string, t: string, d: string)
    requires !HasLineBreak(n) && !HasLineBreak(t) && !HasLineBreak(d)
    ensures var ls := ["segment_no: " + n, TitleMarker + " " + t, DescriptionMarker + " " + d];
      forall i :: 0 <= i < |ls| ==> !HasLineBreak(ls[i])
  {
    NoBreakConcat("segment_no: ", n);
    NoBreakConcat(TitleMarker + " ", t);
    NoBreakConcat(DescriptionMarker + " ", d);
  }

  lemma ThreeLinesClean(n: string, t: string, d: string)
    requires IsStripped(t) && !Occurs(t, TitleMarker)
    requires IsStripped(d) && !Occurs(d, DescriptionMarker)
    ensures CleanLines(["segment_no: " + n, TitleMarker + " " + t, DescriptionMarker + " " + d])
      == ["<b>" + t + "</b>", d]
  {
    SegmentLineDropped(n);
    TitleLineKept(t);
    DescriptionLineKept(d);
    CleanLinesTriple("segment_no: " + n, TitleMarker + " " + t, DescriptionMarker + " " + d);
  }

  lemma CleanLinesTriple(l0: string, l1: string, l2: string)
    ensures CleanLines([l0, l1, l2]) == CleanLines([l0]) + CleanLines([l1]) + CleanLines([l2])
  {
    CleanLinesConcat([l0], [l1]);
    CleanLinesConcat([l0] + [l1], [l2]);
    assert [l0, l1, l2] == [l0] + [l1] + [l2];
  }

  lemma SegmentLineDropped(n: string)
    ensures CleanLines(["segment_no: " + n]) == []
  {
    var l0 := "segment_no: " + n;
    assert l0[0] == 's';
    CleanOtherLine(l0);
    CleanLinesSingle(l0);
  }

  lemma TitleLineKept(t: string)
    requires IsStripped(t) && !Occurs(t, TitleMarker)
    ensures CleanLines([TitleMarker + " " + t]) == ["<b>" + t + "</b>"]
  {
    CleanTitleLine(t);
    CleanLinesSingle(TitleMarker + " " + t);
  }

  lemma DescriptionLineKept(d: string)
    requires IsStripped(d) && !Occurs(d, DescriptionMarker)
    ensures CleanLines([DescriptionMarker + " " + d]) == [d]
  {
    CleanDescriptionLine(d);
    CleanLinesSingle(DescriptionMarker + " " + d);
  }

  lemma NoBreakConcat(a: string, b: string)
    requires !HasLineBreak(a) && !HasLineBreak(b)
    ensures !HasLineBreak(a + b)
  {
    forall i | 0 <= i < |a + b| ensures !IsLineBreak((a + b)[i]) {
      if i >= |a| {
        assert (a + b)[i] == b[i - |a|];
      }
    }
  }

  lemma {:induction false} ListCleans(items: seq<AiItem>, repr: Value -> string)
    requires forall i :: 0 <= i < |items| ==> Recoverable(items[i], repr)
    ensures CleanLines(ListLines(items, repr)) == Recovered(items)
    ensures forall i :: 0 <= i < |ListLines(items, repr)| ==> !HasLineBreak(ListLines(items, repr)[i])
    decreases |items|
  {
    if items != [] {
      ListCleans(items[1..], repr);
      ItemCleans(items[0], repr);
      CleanLinesConcat(ItemLines(items[0], repr), ListLines(items[1..], repr));
      var a := ItemLines(items[0], repr);
      var b := ListLines(items[1..], repr);
      forall i | 0 <= i < |a + b| ensures !HasLineBreak((a + b)[i]) {
        if i >= |a| {
          assert (a + b)[i] == b[i - |a|];
        }
      }
    }
  }

  /** The cleaner of main.py inverts the use-case writer: applied to the
      summary written for a list of schema items, it yields each title in
      bold followed by its description, in item order. */
  lemma CleanInvertsFormat(items: seq<AiItem>, repr: Value -> string)
    requires forall i :: 0 <= i < |items| ==> Recoverable(items[i], repr)
    ensures CleanSummary(FormatAiResponse(ResponseList(items), repr)) == Join("<br/><br/>", Recovered(items))
  {
    var lines := ListLines(items, repr);
    ListCleans(items, repr);
    SplitSpaced(lines);
  }

  /** Splitting a `"\n\n"`-join of single-line texts, then cleaning, is
      cleaning the texts themselves. */
  lemma SplitSpaced(lines: seq<string>)
    requires forall i :: 0 <= i < |lines| ==> !HasLineBreak(lines[i])
    ensures CleanLines(SplitLines(Join("\n\n", lines))) == CleanLines(lines)
  {
    if lines == [] {
      EmptyCleans();
    } else {
      SpacedJoin(lines);
      SpacedNoBreak(lines);
      SplitJoin(Spaced(lines));
      SpacedClean(lines);
    }
  }

  lemma EmptyCleans()
    ensures CleanLines(SplitLines(Join("\n\n", []))) == []
  {
    SplitLinesSingle([]);
    CleanLinesSingle([]);
  }
}

=== FILE: tables.dfy ===
/** A pandas DataFrame as an ordered sequence of rows. Each row keeps its
    index label (`id`), so that the label-based joins and complements the
    use cases perform (`df.index.isin(...)`) can be stated. A cell a row does
    not hold reads as null, as a sparse column does in pandas. */
module Tables {
  import opened Values

  datatype Row = Row(id: int, cells: map<string, Value>)

  datatype Table = Table(columns: seq<string>, rows: seq<Row>)

  /** `row[column]`, null when the row has no such cell. */
  function Cell(r: Row, column: string): Value {
    if column in r.cells then r.cells[column] else Null
  }

  /** The two date columns hold parsed dates or nulls (`pd.to_datetime`
      raises on anything else). */
  predicate DatesParsed(t: Table, start: string, end: string) {
    forall r :: r in t.rows ==>
      (Cell(r, start).Date? || Cell(r, start).Null?) &&
      (Cell(r, end).Date? || Cell(r, end).Null?)
  }

  function Column(rows: seq<Row>, column: string): (vs: seq<Value>)
    ensures |vs| == |rows|
    ensures forall i :: 0 <= i < |rows| ==> vs[i] == Cell(rows[i], column)
  {
    seq(|rows|, i requires 0 <= i < |rows| => Cell(rows[i], column))
  }

  // ---------------------------------------------------------------------
  // Boolean masks (`df.loc[mask]`)
  // ---------------------------------------------------------------------

  function AllTrue(n: nat): (m: seq<bool>)
    ensures |m| == n && forall i :: 0 <= i < n ==> m[i]
  {
    seq(n, i => true)
  }

  /** `~mask`. */
  function Negate(m: seq<bool>): (r: seq<bool>)
    ensures |r| == |m| && forall i :: 0 <= i < |m| ==> r[i] == !m[i]
  {
    seq(|m|, i requires 0 <= i < |m| => !m[i])
  }

  /** `mask &= other`. */
  function And(m: seq<bool>, other: seq<bool>): (r: seq<bool>)
    requires |m| == |other|
    ensures |r| == |m| && forall i :: 0 <= i < |m| ==> r[i] == (m[i] && other[i])
  {
    seq(|m|, i requires 0 <= i < |m| => m[i] && other[i])
  }

  /** The rows whose mask entry is true, in their original order. */
  function Select(rows: seq<Row>, mask: seq<bool>): (r: seq<Row>)
    requires |mask| == |rows|
    ensures |r| <= |rows|
  {
    if rows == [] then []
    else if mask[0] then [rows[0]] + Select(rows[1..], mask[1..])
    else Select(rows[1..], mask[1..])
  }

  /** Number of true entries. */
  function Count(mask: seq<bool>): nat {
    if mask == [] then 0 else (if mask[0] then 1 else 0) + Count(mask[1..])
  }

  /** `a` is `b` with some elements left out, the rest in order. */
  predicate IsSubsequence<T(==)>(a: seq<T>, b: seq<T>)
    decreases |b|
  {
    if a == [] then true
    else if b == [] then false
    else if a[0] == b[0] then IsSubsequence(a[1..], b[1..])
    else IsSubsequence(a, b[1..])
  }

  /** Selection never fabricates nor reorders rows. */
  lemma {:induction false} SelectIsSubsequence(rows: seq<Row>, mask: seq<bool>)
    requires |mask| == |rows|
    ensures IsSubsequence(Select(rows, mask), rows)
  {
    if rows != [] {
      SelectIsSubsequence(rows[1..], mask[1..]);
      var rest := Select(rows[1..], mask[1..]);
      if !mask[0] {
        SkipHead(rest, rows);
      }
    }
  }

  lemma {:induction false} SkipHead<T>(a: seq<T>, b: seq<T>)
    requires b != [] && IsSubsequence(a, b[1..])
    ensures IsSubsequence(a, b)
    decreases |b|, 0
  {
    if a != [] && a[0] == b[0] {
      // a[0] occurs in b[1..] as well: drop it there instead.
      SubsequenceTail(a, b[1..]);
    }
  }

  lemma {:induction false} SubsequenceTail<T>(a: seq<T>, b: seq<T>)
    requires a != [] && IsSubsequence(a, b)
    ensures IsSubsequence(a[1..], b)
    decreases |b|, 1
  {
    if b != [] {
      if a[0] == b[0] {
        if a[1..] != [] {
          SkipHead(a[1..], b);
        }
      } else {
        SubsequenceTail(a, b[1..]);
        SkipHead(a[1..], b);
      }
    }
  }

  /** A mask of all `true` selects every row, in order. */
  lemma {:induction false} SelectAll(rows: seq<Row>)
    ensures Select(rows, AllTrue(|rows|)) == rows
  {
    if rows != [] {
      assert AllTrue(|rows|)[1..] == AllTrue(|rows| - 1);
      SelectAll(rows[1..]);
    }
  }

  lemma {:induction false} SelectCount(rows: seq<Row>, mask: seq<bool>)
    requires |mask| == |rows|
    ensures |Select(rows, mask)| == Count(mask)
  {
    if rows != [] {
      SelectCount(rows[1..], mask[1..]);
    }
  }

  /** A row is selected exactly when some position holding it is marked. */
  lemma {:induction false} SelectMembership(rows: seq<Row>, mask: seq<bool>, r: Row)
    requires |mask| == |rows|
    ensures r in Select(rows, mask) <==> exists i :: 0 <= i < |rows| && mask[i] && rows[i] == r
  {
    if rows != [] {
      SelectMembership(rows[1..], mask[1..], r);
      if exists i :: 0 <= i < |rows| && mask[i] && rows[i] == r {
        var i :| 0 <= i < |rows| && mask[i] && rows[i] == r;
        if i > 0 {
          assert mask[1..][i - 1] && rows[1..][i - 1] == r;
        }
      }
      if exists i :: 0 <= i < |rows[1..]| && mask[1..][i] && rows[1..][i] == r {
        var i :| 0 <= i < |rows[1..]| && mask[1..][i] && rows[1..][i] == r;
        assert mask[i + 1] && rows[i + 1] == r;
      }
    }
  }

  /** Two masks that agree select the same rows. */
  lemma SelectSameMask(rows: seq<Row>, m1: seq<bool>, m2: seq<bool>)
    requires |m1| == |rows| && |m2| == |rows|
    requires forall i :: 0 <= i < |rows| ==> m1[i] == m2[i]
    ensures Select(rows, m1) == Select(rows, m2)
  {
    assert m1 == m2;
  }

  /** A mask and its negation split the rows: every row lands on exactly
      one side. */
  lemma {:induction false} SelectComplementSizes(rows: seq<Row>, mask: seq<bool>)
    requires |mask| == |rows|
    ensures |Select(rows, mask)| + |Select(rows, Negate(mask))| == |rows|
  {
    if rows != [] {
      assert Negate(mask)[1..] == Negate(mask[1..]);
      SelectComplementSizes(rows[1..], mask[1..]);
    }
  }

  // ---------------------------------------------------------------------
  // Index labels
  // ---------------------------------------------------------------------

  function Ids(rows: seq<Row>): (s: set<int>)
    ensures forall i :: 0 <= i < |rows| ==> rows[i].id in s
    ensures forall x :: x in s ==> exists i :: 0 <= i < |rows| && rows[i].id == x
  {
    set r | r in rows :: r.id
  }

  /** Index labels are unique (true of every table built by `records_to_df`
      and of every selection from one). */
  predicate UniqueIds(rows: seq<Row>) {
    forall i, j :: 0 <= i < j < |rows| ==> rows[i].id != rows[j].id
  }

  /** `df.index.isin(ids)`. */
  function IdMask(rows: seq<Row>, ids: set<int>): (m: seq<bool>)
    ensures |m| == |rows| && forall i :: 0 <= i < |rows| ==> m[i] == (rows[i].id in ids)
  {
    seq(|rows|, i requires 0 <= i < |rows| => rows[i].id in ids)
  }

  /** With unique labels, the labels of a selection identify exactly the
      selected positions. */
  lemma SelectedIds(rows: seq<Row>, mask: seq<bool>)
    requires |mask| == |rows| && UniqueIds(rows)
    ensures forall i :: 0 <= i < |rows| ==> (rows[i].id in Ids(Select(rows, mask)) <==> mask[i])
  {
    forall i | 0 <= i < |rows|
      ensures rows[i].id in Ids(Select(rows, mask)) <==> mask[i]
    {
      if mask[i] {
        SelectMembership(rows, mask, rows[i]);
      }
      if rows[i].id in Ids(Select(rows, mask)) {
        var r :| r in Select(rows, mask) && r.id == rows[i].id;
        SelectMembership(rows, mask, r);
        var j :| 0 <= j < |rows| && mask[j] && rows[j] == r;
        assert i == j;
      }
    }
  }

  /** `df.loc[~df.index.isin(sel.index)]` for a selection `sel` of `df` is
      the rows the selection left out. */
  lemma ComplementByIds(rows: seq<Row>, mask: seq<bool>)
    requires |mask| == |rows| && UniqueIds(rows)
    ensures Select(rows, Negate(IdMask(rows, Ids(Select(rows, mask))))) == Select(rows, Negate(mask))
  {
    SelectedIds(rows, mask);
    SelectSameMask(rows, Negate(IdMask(rows, Ids(Select(rows, mask)))), Negate(mask));
  }

  /** Selections keep unique labels unique. */
  lemma {:induction false} SelectUniqueIds(rows: seq<Row>, mask: seq<bool>)
    requires |mask| == |rows| && UniqueIds(rows)
    ensures UniqueIds(Select(rows, mask))
  {
    if rows != [] {
      SelectUniqueIds(rows[1..], mask[1..]);
      if mask[0] {
        var rest := Select(rows[1..], mask[1..]);
        forall r | r in rest ensures r.id != rows[0].id {
          SelectMembership(rows[1..], mask[1..], r);
        }
      }
    }
  }

  // ---------------------------------------------------------------------
  // Key columns (`df[col].isin(other[col])`)
  // ---------------------------------------------------------------------

  /** `values.isin(keys)` position by position. */
  function IsinMask(values: seq<Value>, keys: seq<Value>): (m: seq<bool>)
    ensures |m| == |values|
    ensures forall i :: 0 <= i < |values| ==>
              (m[i] <==> exists k :: 0 <= k < |keys| && IsinEq(values[i], keys[k]))
  {
    seq(|values|, i requires 0 <= i < |values| =>
      exists k :: 0 <= k < |keys| && IsinEq(values[i], keys[k]))
  }

  /** No two rows share a key in `column` (as `isin` matches them). */
  predicate UniqueKey(rows: seq<Row>, column: string) {
    forall i, j :: 0 <= i < |rows| && 0 <= j < |rows| && i != j ==>
      !IsinEq(Cell(rows[i], column), Cell(rows[j], column))
  }

  lemma IsinEqReflexive(v: Value)
    ensures IsinEq(v, v)
  {
  }

  /** With unique keys, the keys of a selection identify exactly the
      selected positions. */
  lemma SelectedKeys(rows: seq<Row>, mask: seq<bool>, column: string)
    requires |mask| == |rows| && UniqueKey(rows, column)
    ensures forall i :: 0 <= i < |rows| ==>
              (IsinMask(Column(rows, column), Column(Select(rows, mask), column))[i] <==> mask[i])
  {
    var keys := Column(Select(rows, mask), column);
    var sel := Select(rows, mask);
    forall i | 0 <= i < |rows|
      ensures IsinMask(Column(rows, column), keys)[i] <==> mask[i]
    {
      if mask[i] {
        SelectMembership(rows, mask, rows[i]);
        var k :| 0 <= k < |sel| && sel[k] == rows[i];
        IsinEqReflexive(Cell(rows[i], column));
        assert IsinEq(Column(rows, column)[i], keys[k]);
      }
      if IsinMask(Column(rows, column), keys)[i] {
        var k :| 0 <= k < |keys| && IsinEq(Cell(rows[i], column), keys[k]);
        assert sel[k] in sel;
        SelectMembership(rows, mask, sel[k]);
        var j :| 0 <= j < |rows| && mask[j] && rows[j] == sel[k];
        assert i == j;
      }
    }
  }

  /** `df[~df[col].isin(sel[col])]` for a selection `sel` of `df` is the
      rows the selection left out, when `col` is a unique key. */
  lemma ComplementByKey(rows: seq<Row>, mask: seq<bool>, column: string)
    requires |mask| == |rows| && UniqueKey(rows, column)
    ensures Select(rows, Negate(IsinMask(Column(rows, column), Column(Select(rows, mask), column))))
         == Select(rows, Negate(mask))
  {
    SelectedKeys(rows, mask, column);
    SelectSameMask(rows, Negate(IsinMask(Column(rows, column), Column(Select(rows, mask), column))), Negate(mask));
  }

  // ---------------------------------------------------------------------
  // Column totals (`df[col].sum()`)
  // ---------------------------------------------------------------------

  /** The sum of the numeric cells of `column`; nulls count as nothing, as
      `Series.sum()` skips them. */
  function Total(rows: seq<Row>, column: string): real {
    if rows == [] then 0.0
    else NumView(Cell(rows[0], column)).GetOr(0.0) + Total(rows[1..], column)
  }

  /** A mask and its negation split a column total. */
  lemma {:induction false} TotalSplit(rows: seq<Row>, mask: seq<bool>, column: string)
    requires |mask| == |rows|
    ensures Total(Select(rows, mask), column) + Total(Select(rows, Negate(mask)), column)
         == Total(rows, column)
  {
    if rows != [] {
      assert Negate(mask)[1..] == Negate(mask[1..]);
      TotalSplit(rows[1..], mask[1..], column);
    }
  }

  /** Positions whose predicate-marks are decided by a per-row predicate. */
  function Where(rows: seq<Row>, p: Row -> bool): (m: seq<bool>)
    ensures |m| == |rows| && forall i :: 0 <= i < |rows| ==> m[i] == p(rows[i])
  {
    seq(|rows|, i requires 0 <= i < |rows| => p(rows[i]))
  }
}

=== FILE: text.dfy ===
/** The handful of Python `str` operations the system relies on, over
    `string` (a sequence of Unicode scalar values). */
module Text {

  /** Python's `str.isspace()` (and the regex class `\s`). */
  predicate IsSpace(c: char) {
    c == ' ' || '\t' <= c <= '\r' || '\U{1C}' <= c <= '\U{1F}'
    || c == '\U{85}' || c == '\U{A0}' || c == '\U{1680}'
    || '\U{2000}' <= c <= '\U{200A}' || c == '\U{2028}' || c == '\U{2029}'
    || c == '\U{202F}' || c == '\U{205F}' || c == '\U{3000}'
  }

  /** The characters `str.splitlines()` breaks at. */
  predicate IsLineBreak(c: char) {
    '\n' <= c <= '\r' || '\U{1C}' <= c <= '\U{1E}'
    || c == '\U{85}' || c == '\U{2028}' || c == '\U{2029}'
  }

  predicate IsDigit(c: char) {
    '0' <= c <= '9'
  }

  predicate AllDigits(s: string) {
    forall i :: 0 <= i < |s| ==> IsDigit(s[i])
  }

  predicate StartsWith(s: string, prefix: string) {
    |prefix| <= |s| && s[..|prefix|] == prefix
  }

  predicate EndsWith(s: string, suffix: string) {
    |suffix| <= |s| && s[|s| - |suffix|..] == suffix
  }

  /** `s` has no leading and no trailing whitespace. */
  predicate IsStripped(s: string) {
    s == [] || (!IsSpace(s[0]) && !IsSpace(s[|s| - 1]))
  }

  /** The first position at or after `i` that is not whitespace. */
  function SkipSpaces(s: string, i: nat): (k: nat)
    requires i <= |s|
    ensures i <= k <= |s|
    ensures forall j :: i <= j < k ==> IsSpace(s[j])
    ensures k < |s| ==> !IsSpace(s[k])
    decreases |s| - i
  {
    if i == |s| || !IsSpace(s[i]) then i else SkipSpaces(s, i + 1)
  }

  /** The end of `s[lo..hi]` once its trailing whitespace is dropped. */
  function TrimEnd(s: string, lo: nat, hi: nat): (k: nat)
    requires lo <= hi <= |s|
    ensures lo <= k <= hi
    ensures forall j :: k <= j < hi ==> IsSpace(s[j])
    ensures k > lo ==> !IsSpace(s[k - 1])
    decreases hi
  {
    if hi == lo || !IsSpace(s[hi - 1]) then hi else TrimEnd(s, lo, hi - 1)
  }

  /** `s.strip()`: the text between the leading and trailing whitespace. */
  function Strip(s: string): (r: string)
    ensures IsStripped(r)
    ensures exists lo, hi :: 0 <= lo <= hi <= |s| && r == s[lo..hi]
              && (forall i :: 0 <= i < lo ==> IsSpace(s[i]))
              && (forall i :: hi <= i < |s| ==> IsSpace(s[i]))
  {
    var lo := SkipSpaces(s, 0);
    var hi := TrimEnd(s, lo, |s|);
    s[lo..hi]
  }

  /** Stripping text that has no surrounding whitespace changes nothing. */
  lemma StripStripped(s: string)
    requires IsStripped(s)
    ensures Strip(s) == s
  {
    assert SkipSpaces(s, 0) == 0;
    assert TrimEnd(s, 0, |s|) == |s|;
    assert s[0..|s|] == s;
  }

  /** When `s[k..hi]` is whitespace and the character before it is not,
      trimming the end of `s[lo..hi]` stops at `k`. */
  lemma {:induction false} TrimEndAt(s: string, lo: nat, k: nat, hi: nat)
    requires lo <= k <= hi <= |s|
    requires forall j :: k <= j < hi ==> IsSpace(s[j])
    requires k == lo || !IsSpace(s[k - 1])
    ensures TrimEnd(s, lo, hi) == k
    decreases hi
  {
    if hi > k {
      TrimEndAt(s, lo, k, hi - 1);
    }
  }

  /** Text framed by one newline on each side strips back to itself. */
  lemma StripFramed(s: string)
    requires s != [] && IsStripped(s)
    ensures Strip("\n" + s + "\n") == s
  {
    var f := "\n" + s + "\n";
    assert f[1] == s[0];
    assert SkipSpaces(f, 1) == 1;
    assert SkipSpaces(f, 0) == 1;
    assert f[|s|] == s[|s| - 1];
    TrimEndAt(f, 1, |s| + 1, |f|);
    assert f[1..|s| + 1] == s;
  }

  /** Text that does not start with whitespace keeps its first character
      when stripped. */
  lemma StripKeepsFirst(s: string)
    requires s != [] && !IsSpace(s[0])
    ensures Strip(s) != [] && Strip(s)[0] == s[0]
  {
    assert SkipSpaces(s, 0) == 0;
    var hi := TrimEnd(s, 0, |s|);
  }

  /** One trailing space is stripped away again. */
  lemma StripTrailingSpace(s: string)
    requires s != [] && IsStripped(s)
    ensures Strip(s + " ") == s
  {
    var f := s + " ";
    assert f[0] == s[0];
    assert SkipSpaces(f, 0) == 0;
    assert f[|s| - 1] == s[|s| - 1];
    TrimEndAt(f, 0, |s|, |f|);
    assert f[0..|s|] == s;
  }

  /** One leading space is stripped away again. */
  lemma StripLeadingSpace(s: string)
    requires IsStripped(s)
    ensures Strip(" " + s) == s
  {
    var f := " " + s;
    if s == [] {
      assert SkipSpaces(f, 1) == 1;
      assert SkipSpaces(f, 0) == 1;
    } else {
      assert f[1] == s[0];
      assert SkipSpaces(f, 1) == 1;
      assert SkipSpaces(f, 0) == 1;
      assert f[|f| - 1] == s[|s| - 1];
      assert TrimEnd(f, 1, |f|) == |f|;
      assert f[1..|f|] == s;
    }
  }

  /** `s.replace(pattern, replacement)`: every non-overlapping occurrence,
      scanning left to right. */
  function ReplaceAll(s: string, pattern: string, replacement: string): string
    requires pattern != []
    decreases |s|
  {
    if s == [] then []
    else if StartsWith(s, pattern) then
      replacement + ReplaceAll(s[|pattern|..], pattern, replacement)
    else
      [s[0]] + ReplaceAll(s[1..], pattern, replacement)
  }

  /** A character found neither in the text nor in the replacement is not
      in the result. */
  lemma {:induction false} ReplaceAllAvoids(s: string, pattern: string, replacement: string, c: char)
    requires pattern != []
    requires c !in s && c !in replacement
    ensures c !in ReplaceAll(s, pattern, replacement)
    decreases |s|
  {
    if s != [] {
      if StartsWith(s, pattern) {
        assert forall i :: |pattern| <= i < |s| ==> s[|pattern|..][i - |pattern|] == s[i];
        ReplaceAllAvoids(s[|pattern|..], pattern, replacement, c);
      } else {
        assert forall i :: 1 <= i < |s| ==> s[1..][i - 1] == s[i];
        ReplaceAllAvoids(s[1..], pattern, replacement, c);
      }
    }
  }

  /** Replacing a one-character pattern by text without that character
      removes every occurrence of it. */
  lemma {:induction false} ReplaceAllRemoves(s: string, c: char, replacement: string)
    requires c !in replacement
    ensures c !in ReplaceAll(s, [c], replacement)
    decreases |s|
  {
    if s != [] {
      assert forall i :: 1 <= i < |s| ==> s[1..][i - 1] == s[i];
      ReplaceAllRemoves(s[1..], c, replacement);
    }
  }

  /** `pattern in s`. */
  predicate Occurs(s: string, pattern: string) {
    StartsWith(s, pattern) || (s != [] && Occurs(s[1..], pattern))
  }

  /** Text that does not contain the pattern is left unchanged. */
  lemma {:induction false} ReplaceAllAbsent(s: string, pattern: string, replacement: string)
    requires pattern != []
    requires !Occurs(s, pattern)
    ensures ReplaceAll(s, pattern, replacement) == s
    decreases |s|
  {
    if s != [] {
      ReplaceAllAbsent(s[1..], pattern, replacement);
    }
  }

  /** Replacing a single character works piece by piece. */
  lemma {:induction false} ReplaceCharConcat(a: string, b: string, c: char, replacement: string)
    ensures ReplaceAll(a + b, [c], replacement) == ReplaceAll(a, [c], replacement) + ReplaceAll(b, [c], replacement)
    decreases |a|
  {
    if a == [] {
      assert a + b == b;
    } else {
      assert (a + b)[1..] == a[1..] + b;
      assert (a + b)[0] == a[0];
      ReplaceCharConcat(a[1..], b, c, replacement);
    }
  }

  /** Replacing a single character around one occurrence of it. */
  lemma ReplaceCharAround(a: string, b: string, c: char, replacement: string)
    ensures ReplaceAll(a + [c] + b, [c], replacement)
         == ReplaceAll(a, [c], replacement) + replacement + ReplaceAll(b, [c], replacement)
  {
    ReplaceCharConcat(a + [c], b, c, replacement);
    ReplaceCharConcat(a, [c], c, replacement);
    assert ReplaceAll([c], [c], replacement) == replacement + ReplaceAll([], [c], replacement);
  }

  /** Text without the character is left unchanged. */
  lemma {:induction false} ReplaceCharAbsent(s: string, c: char, replacement: string)
    requires c !in s
    ensures ReplaceAll(s, [c], replacement) == s
    decreases |s|
  {
    if s != [] {
      assert s[0] != c;
      ReplaceCharAbsent(s[1..], c, replacement);
    }
  }

  /** `sep.join(parts)`. */
  function Join(sep: string, parts: seq<string>): string {
    if parts == [] then []
    else if |parts| == 1 then parts[0]
    else parts[0] + sep + Join(sep, parts[1..])
  }

  /** A join starts with the first character of its first part. */
  lemma JoinStarts(sep: string, parts: seq<string>)
    requires parts != [] && parts[0] != []
    ensures var j := Join(sep, parts); j != [] && j[0] == parts[0][0]
  {
  }

  /** A join ends with the last character of its last part. */
  lemma {:induction false} JoinEnds(sep: string, parts: seq<string>)
    requires parts != [] && parts[|parts| - 1] != []
    ensures var j := Join(sep, parts); var l := parts[|parts| - 1];
      j != [] && j[|j| - 1] == l[|l| - 1]
  {
    if |parts| > 1 {
      JoinEnds(sep, parts[1..]);
    }
  }

  predicate HasLineBreak(s: string) {
    exists i :: 0 <= i < |s| && IsLineBreak(s[i])
  }

  /** Position of the first line break of `s`, or `|s|` when there is none. */
  function FirstBreak(s: string): (i: nat)
    ensures i <= |s|
    ensures forall j :: 0 <= j < i ==> !IsLineBreak(s[j])
    ensures i < |s| ==> IsLineBreak(s[i])
  {
    if s == [] then 0
    else if IsLineBreak(s[0]) then 0
    else
      var i := FirstBreak(s[1..]);
      assert forall j :: 1 <= j < |s| ==> s[j] == s[1..][j - 1];
      i + 1
  }

  /** The pieces of `s` between line breaks: every break ends one piece, so
      `"a\n\nb"` yields `"a"`, `""`, `"b"`. */
  function SplitLines(s: string): (r: seq<string>)
    ensures r != []
    decreases |s|
  {
    var i := FirstBreak(s);
    if i == |s| then [s] else [s[..i]] + SplitLines(s[i + 1..])
  }

  /** A piece without line breaks followed by a break starts the split. */
  lemma SplitLinesCons(a: string, b: string, brk: char)
    requires !HasLineBreak(a) && IsLineBreak(brk)
    ensures SplitLines(a + [brk] + b) == [a] + SplitLines(b)
  {
    var s := a + [brk] + b;
    assert forall j :: 0 <= j < |a| ==> s[j] == a[j] && !IsLineBreak(s[j]);
    assert s[|a|] == brk;
    assert FirstBreak(s) == |a|;
    assert s[..|a|] == a;
    assert s[|a| + 1..] == b;
  }

  /** Splitting lines undoes joining break-free pieces with newlines. */
  lemma {:induction false} SplitJoin(parts: seq<string>)
    requires parts != []
    requires forall i :: 0 <= i < |parts| ==> !HasLineBreak(parts[i])
    ensures SplitLines(Join("\n", parts)) == parts
    decreases |parts|
  {
    if |parts| == 1 {
      SplitLinesSingle(parts[0]);
    } else {
      assert forall i :: 1 <= i < |parts| ==> parts[1..][i - 1] == parts[i];
      SplitJoin(parts[1..]);
      SplitLinesCons(parts[0], Join("\n", parts[1..]), '\n');
      assert [parts[0]] + parts[1..] == parts;
    }
  }

  lemma SplitLinesSingle(a: string)
    requires !HasLineBreak(a)
    ensures SplitLines(a) == [a]
  {
  }

  /** ASCII digits of a natural number, most significant first, without
      leading zeros (Python's `str(n)`). */
  function NatToString(n: nat): (r: string)
    ensures r != [] && AllDigits(r)
    ensures |r| > 1 ==> r[0] != '0'
    decreases n
  {
    var d := [(('0' as int) + n % 10) as char];
    if n < 10 then d else NatToString(n / 10) + d
  }

  /** Python's `str(i)` for an integer. */
  function IntToString(i: int): string {
    if i < 0 then "-" + NatToString(-i) else NatToString(i)
  }

  /** The value of a string of ASCII digits. */
  function DigitsValue(s: string): nat
    requires AllDigits(s)
  {
    if s == [] then 0
    else DigitsValue(s[..|s| - 1]) * 10 + (s[|s| - 1] as int - '0' as int)
  }

  /** Reading back the rendering of `n` yields `n`. */
  lemma {:induction false} NatToStringRoundTrip(n: nat)
    ensures DigitsValue(NatToString(n)) == n
    decreases n
  {
    var d := [(('0' as int) + n % 10) as char];
    if n >= 10 {
      NatToStringRoundTrip(n / 10);
      var s := NatToString(n / 10) + d;
      assert s[..|s| - 1] == NatToString(n / 10);
    }
  }

  /** ASCII lower-casing (Python's `str.lower()` on ASCII text). */
  function Lower(s: string): (r: string)
    ensures |r| == |s|
  {
    seq(|s|, i requires 0 <= i < |s| =>
      if 'A' <= s[i] <= 'Z' then (s[i] as int + 32) as char else s[i])
  }

  /** Python's string ordering: code point by code point, a proper prefix
      first. */
  predicate LexLessEq(a: string, b: string) {
    if a == [] then true
    else if b == [] then false
    else if a[0] != b[0] then a[0] < b[0]
    else LexLessEq(a[1..], b[1..])
  }

  lemma {:induction false} LexTotal(a: string, b: string)
    ensures LexLessEq(a, b) || LexLessEq(b, a)
  {
    if a != [] && b != [] && a[0] == b[0] {
      LexTotal(a[1..], b[1..]);
    }
  }

  lemma {:induction false} LexTransitive(a: string, b: string, c: string)
    requires LexLessEq(a, b) && LexLessEq(b, c)
    ensures LexLessEq(a, c)
  {
    if a != [] && b != [] && c != [] && a[0] == b[0] && b[0] == c[0] {
      LexTransitive(a[1..], b[1..], c[1..]);
    }
  }

  lemma {:induction false} LexAntisymmetric(a: string, b: string)
    requires LexLessEq(a, b) && LexLessEq(b, a)
    ensures a == b
  {
    if a != [] && b != [] {
      LexAntisymmetric(a[1..], b[1..]);
    }
  }
}

=== FILE: usecase1.dfy ===
/** The zombie-renewal use case: activated contracts past their end date
    with no renewal opportunity (the leakage zombies), those ending soon,
    and the rest. The two contract predicates run on one query's frame;
    the tables of the report come from a second, detailed query's frame,
    matched by index label. */
module Usecase1 {
  import opened Wrappers
  import opened Dicts
  import opened Values
  import opened Tables
  import opened Filters
  import opened Text
  import opened Overview
  import opened Segments

  const PieLabels: seq<string> := ["Active Contracts", "Leakage Zombies", "Expiring Soon"]
  const PieColors: seq<string> := ["#88E788", "#FA5053", "#FFEE8C"]

  const ZombieTitle := "Zombie Leakage Contracts"
  const WarningTitle := "Warning Subscriptions - Expiring Soon"
  const HealthyTitle := "Healthy Subscriptions"

  /** One entry of the report's `tables_list`. */
  datatype ReportTable = ReportTable(rows: seq<Row>, title: string, color: string)

  /** `f"{title} ({n})"`. */
  function Heading(title: string, n: nat): string {
    title + " (" + NatToString(n) + ")"
  }

  datatype ZombieSplit = ZombieSplit(
    leakage: seq<Row>, expiring: seq<Row>, healthy: seq<Row>,
    tables: seq<ReportTable>, result: RunResult)

  /** The detail rows whose index label one of `selected` carries. */
  function Matching(details: seq<Row>, selected: seq<Row>): (rows: seq<Row>)
    ensures forall r :: r in rows <==> r in details && r.id in Ids(selected)
    ensures IsSubsequence(rows, details)
  {
    var m := IdMask(details, Ids(selected));
    forall r ensures r in Select(details, m) <==> r in details && r.id in Ids(selected) {
      SelectMembership(details, m, r);
    }
    SelectIsSubsequence(details, m);
    Select(details, m)
  }

  /** The detail rows whose label neither selection carries. */
  function Neither(details: seq<Row>, a: seq<Row>, b: seq<Row>): (rows: seq<Row>)
    ensures forall r :: r in rows <==> r in details && r.id !in Ids(a) && r.id !in Ids(b)
    ensures IsSubsequence(rows, details)
  {
    var m := And(Negate(IdMask(details, Ids(a))), Negate(IdMask(details, Ids(b))));
    forall r ensures r in Select(details, m) <==> r in details && r.id !in Ids(a) && r.id !in Ids(b) {
      SelectMembership(details, m, r);
    }
    SelectIsSubsequence(details, m);
    Select(details, m)
  }

  /** The three report tables drawn from the detail rows, given the
      rows each contract predicate kept. */
  function Segment(details: Table, z: seq<Row>, e: seq<Row>): (s: ZombieSplit)
    ensures forall r :: r in s.leakage <==> r in details.rows && r.id in Ids(z)
    ensures forall r :: r in s.expiring <==> r in details.rows && r.id in Ids(e)
    ensures forall r :: r in s.healthy <==> r in details.rows && r.id !in Ids(z) && r.id !in Ids(e)
    ensures s.result.name == "The_Zombie_Renewal" && s.result.recordsFound == |z|
    ensures s.result.totalRevenue == Num(Total(details.rows, "Opportunity Amount") - Total(s.leakage, "Opportunity Amount"))
    ensures s.result.totalLoss == Money(s.leakage, "Opportunity Amount")
    ensures s.tables == [
      ReportTable(s.leakage, Heading(ZombieTitle, |s.leakage|), PieColors[1]),
      ReportTable(s.expiring, Heading(WarningTitle, |s.expiring|), PieColors[2]),
      ReportTable(s.healthy, Heading(HealthyTitle, |s.healthy|), PieColors[0]) ]
  {
    var leakage := Matching(details.rows, z);
    var expiring := Matching(details.rows, e);
    var healthy := Neither(details.rows, z, e);
    ZombieSplit(leakage, expiring, healthy,
      [ ReportTable(leakage, Heading(ZombieTitle, |leakage|), PieColors[1]),
        ReportTable(expiring, Heading(WarningTitle, |expiring|), PieColors[2]),
        ReportTable(healthy, Heading(HealthyTitle, |healthy|), PieColors[0]) ],
      ZombieResult(details.rows, leakage, |z|))
  }

  /** The result dict: the count of leakage contracts, their amounts as
      the loss and the rest of the detail rows as the revenue. */
  function ZombieResult(rows: seq<Row>, leakage: seq<Row>, count: nat): (r: RunResult)
    ensures r.name == "The_Zombie_Renewal" && r.recordsFound == count
    ensures r.totalRevenue == Num(Total(rows, "Opportunity Amount") - Total(leakage, "Opportunity Amount"))
    ensures r.totalLoss == Money(leakage, "Opportunity Amount")
  {
    RunResult("The_Zombie_Renewal", count,
              Num(Total(rows, "Opportunity Amount") - Total(leakage, "Opportunity Amount")),
              Money(leakage, "Opportunity Amount"))
  }

  /** Segmentation and bookkeeping of `run`. `contracts` is the first
      query's frame after date normalisation, `details` the second query's
      frame after extraction and cleaning; `today` is the day `run` reads,
      `moduleToday` the one the filter module read when it was loaded.
      The leakage predicate runs first and raises first; the returned dict
      raises when the detail frame lacks the opportunity amount. */
  function ZombieRenewal(contracts: Table, details: Table, today: int, moduleToday: int)
    : (res: Result<ZombieSplit, FilterError>)
    ensures res.Success? <==>
      && LeakageZombies(contracts, today).Success? && ExpiringSoon(contracts, moduleToday).Success?
      && "Opportunity Amount" in details.columns
    ensures LeakageZombies(contracts, today).Failure? ==> res == Failure(LeakageZombies(contracts, today).error)
    ensures LeakageZombies(contracts, today).Success? && ExpiringSoon(contracts, moduleToday).Success? &&
            "Opportunity Amount" !in details.columns
        ==> res == Failure(MissingColumn("Opportunity Amount"))
    ensures res.Success? ==>
      res.value == Segment(details, LeakageZombies(contracts, today).value.rows, ExpiringSoon(contracts, moduleToday).value.rows)
  {
    var leak := LeakageZombies(contracts, today);
    if leak.Failure? then Failure(leak.error)
    else
      var exp := ExpiringSoon(contracts, moduleToday);
      if exp.Failure? then Failure(exp.error)
      else if MissingRead(details.columns, ["Opportunity Amount"]).Some? then
        Failure(MissingRead(details.columns, ["Opportunity Amount"]).value)
      else Success(Segment(details, leak.value.rows, exp.value.rows))
  }

  /** Every detail row is in one of the three tables; the healthy one
      shares no row with the other two, and on a single day a row is both
      a zombie and expiring exactly when its contract ended 30 days ago. */
  lemma ZombieCoverage(contracts: Table, details: Table, today: int, moduleToday: int)
    requires SpecOk(contracts, ContractSpec("<=", today - 30)) && SpecOk(contracts, ContractSpec(">=", moduleToday - 30))
    requires "Opportunity Amount" in details.columns
    ensures var s := ZombieRenewal(contracts, details, today, moduleToday).value;
      && (forall r :: r in details.rows ==> r in s.leakage || r in s.expiring || r in s.healthy)
      && (forall r :: r in s.healthy ==> r !in s.leakage && r !in s.expiring)
  {
  }

  /** The positional match the use case relies on: when the detailed frame
      lists the same contracts in the same order (both frames labelled by
      position), a detail row is in the zombie table exactly when its
      contract satisfies the leakage predicate, and in the warning table
      exactly when its contract satisfies the expiring one. */
  lemma PositionalMatch(contracts: Table, details: Table, today: int, moduleToday: int, i: nat)
    requires SpecOk(contracts, ContractSpec("<=", today - 30)) && SpecOk(contracts, ContractSpec(">=", moduleToday - 30))
    requires "Opportunity Amount" in details.columns
    requires |details.rows| == |contracts.rows| && i < |details.rows|
    requires forall k :: 0 <= k < |contracts.rows| ==> contracts.rows[k].id == k && details.rows[k].id == k
    ensures var s := ZombieRenewal(contracts, details, today, moduleToday).value;
      && (details.rows[i] in s.leakage <==> RowSat(ContractSpec("<=", today - 30), contracts.rows[i]))
      && (details.rows[i] in s.expiring <==> RowSat(ContractSpec(">=", moduleToday - 30), contracts.rows[i]))
  {
    var rows := contracts.rows;
    var z := LeakageZombies(contracts, today).value.rows;
    var e := ExpiringSoon(contracts, moduleToday).value.rows;
    assert UniqueIds(rows);
    SelectedIds(rows, SatMask(ContractSpec("<=", today - 30), rows));
    SelectedIds(rows, SatMask(ContractSpec(">=", moduleToday - 30), rows));
  }

  /** With both predicates read on the same day, a detail row lands in the
      zombie and the warning table together only for a contract that ended
      exactly 30 days ago. */
  lemma SameDayOverlap(contracts: Table, details: Table, today: int, i: nat)
    requires SpecOk(contracts, ContractSpec("<=", today - 30)) && SpecOk(contracts, ContractSpec(">=", today - 30))
    requires "Opportunity Amount" in details.columns
    requires |details.rows| == |contracts.rows| && i < |details.rows|
    requires forall k :: 0 <= k < |contracts.rows| ==> contracts.rows[k].id == k && details.rows[k].id == k
    ensures var s := ZombieRenewal(contracts, details, today, today).value;
      details.rows[i] in s.leakage && details.rows[i] in s.expiring <==>
        && Cell(contracts.rows[i], "EndDate") == Date(today - 30)
        && Cell(contracts.rows[i], "Status") == Str("Activated")
        && Cell(contracts.rows[i], RenewalOpportunity) == Null
  {
    PositionalMatch(contracts, details, today, today, i);
    ContractPredicatesOverlap(contracts.rows[i], today);
  }

  /** Each report table carries the colour of the pie slice of the same
      segment, and its heading leads back to the slice's label text. */
  lemma TablesMatchPie(contracts: Table, details: Table, today: int, moduleToday: int)
    requires SpecOk(contracts, ContractSpec("<=", today - 30)) && SpecOk(contracts, ContractSpec(">=", moduleToday - 30))
    requires "Opportunity Amount" in details.columns
    ensures var s := ZombieRenewal(contracts, details, today, moduleToday).value;
      && s.tables[0].color == ColorAt(PieColors, 1)
      && s.tables[1].color == ColorAt(PieColors, 2)
      && s.tables[2].color == ColorAt(PieColors, 0)
      && BaseTitle(s.tables[0].title) == ZombieTitle
      && BaseTitle(s.tables[1].title) == WarningTitle
      && BaseTitle(s.tables[2].title) == HealthyTitle
  {
    var z := LeakageZombies(contracts, today).value.rows;
    var e := ExpiringSoon(contracts, moduleToday).value.rows;
    SegmentTablesMatchPie(details, z, e);
  }

  /** The reported revenue is the opportunity amount of every detail row
      whose label the leakage predicate did not keep, and revenue and loss
      together make up the amount of the whole detail frame. */
  lemma ZombieRevenue(details: Table, z: seq<Row>, e: seq<Row>)
    ensures var s := Segment(details, z, e);
      && s.result.totalRevenue
         == Money(Select(details.rows, Negate(IdMask(details.rows, Ids(z)))), "Opportunity Amount")
      && s.result.totalRevenue.x + s.result.totalLoss.x == Total(details.rows, "Opportunity Amount")
  {
    TotalSplit(details.rows, IdMask(details.rows, Ids(z)), "Opportunity Amount");
  }

  lemma SegmentTablesMatchPie(details: Table, z: seq<Row>, e: seq<Row>)
    ensures var s := Segment(details, z, e);
      && s.tables[0].color == ColorAt(PieColors, 1)
      && s.tables[1].color == ColorAt(PieColors, 2)
      && s.tables[2].color == ColorAt(PieColors, 0)
      && BaseTitle(s.tables[0].title) == ZombieTitle
      && BaseTitle(s.tables[1].title) == WarningTitle
      && BaseTitle(s.tables[2].title) == HealthyTitle
  {
    var s := Segment(details, z, e);
    TitlesStripped();
    BaseTitleOfHeading(ZombieTitle, |s.leakage|);
    BaseTitleOfHeading(WarningTitle, |s.expiring|);
    BaseTitleOfHeading(HealthyTitle, |s.healthy|);
  }

  lemma TitlesStripped()
    ensures IsStripped(ZombieTitle) && IsStripped(WarningTitle) && IsStripped(HealthyTitle)
  {
  }
}

=== FILE: usecase11.dfy ===
/** The broken-bundle use case: bundle component quote lines with no
    required-by parent line, against components that have one. Lines that
    are not components are set aside first. */
module Usecase11 {
  import opened Wrappers
  import opened Values
  import opened Tables
  import opened Filters
  import opened Segments

  const ComponentSpec: Spec := [("Product Component", Ops([("=", Bool(true))]))]
  const ParentMissingSpec: Spec := [("Required By Product Name", Ops([("isna", Bool(true))]))]
  const ParentPresentSpec: Spec := [("Required By Product Name", Ops([("notna", Bool(true))]))]

  /** `x == True` in Python: `True` itself or the number one. */
  predicate IsComponent(r: Row) {
    NumView(Cell(r, "Product Component")) == Some(1.0)
  }

  predicate IsBroken(r: Row) {
    IsComponent(r) && Cell(r, "Required By Product Name") == Null
  }

  predicate IsLinked(r: Row) {
    IsComponent(r) && Cell(r, "Required By Product Name") != Null
  }

  predicate ParentMissing(r: Row) {
    Cell(r, "Required By Product Name") == Null
  }

  predicate ParentPresent(r: Row) {
    Cell(r, "Required By Product Name") != Null
  }

  lemma SpecsMeaning()
    ensures forall r :: RowSat(ComponentSpec, r) <==> IsComponent(r)
    ensures forall r :: RowSat(ParentMissingSpec, r) <==> ParentMissing(r)
    ensures forall r :: RowSat(ParentPresentSpec, r) <==> ParentPresent(r)
  {
    forall r
      ensures RowSat(ComponentSpec, r) <==> IsComponent(r)
      ensures RowSat(ParentMissingSpec, r) <==> ParentMissing(r)
      ensures RowSat(ParentPresentSpec, r) <==> ParentPresent(r)
    {
      RowSatSingle("Product Component", Ops([("=", Bool(true))]), r);
      RowSatSingle("Required By Product Name", Ops([("isna", Bool(true))]), r);
      RowSatSingle("Required By Product Name", Ops([("notna", Bool(true))]), r);
      CondSatSingle("=", Bool(true), Cell(r, "Product Component"));
      CondSatSingle("isna", Bool(true), Cell(r, "Required By Product Name"));
      CondSatSingle("notna", Bool(true), Cell(r, "Required By Product Name"));
    }
  }

  /** The null tests on the components raise only when the column is
      missing. */
  lemma ParentSpecsOk(t: Table)
    ensures SpecOk(t, ParentMissingSpec) <==> "Required By Product Name" in t.columns
    ensures SpecOk(t, ParentPresentSpec) <==> "Required By Product Name" in t.columns
  {
    SpecOkSingle(t, "Required By Product Name", Ops([("isna", Bool(true))]));
    SpecOkSingle(t, "Required By Product Name", Ops([("notna", Bool(true))]));
    CondOkSingle(t, "Required By Product Name", "isna", Bool(true));
    CondOkSingle(t, "Required By Product Name", "notna", Bool(true));
  }

  lemma BundleFacts(t: Table)
    requires SpecOk(t, ComponentSpec) && "Required By Product Name" in t.columns
    ensures ApplyFilters(t, ComponentSpec).value.rows == Select(t.rows, Where(t.rows, IsComponent))
    ensures var w := ApplyFilters(t, ComponentSpec).value;
      && ApplyFilters(w, ParentMissingSpec).Success?
      && ApplyFilters(w, ParentPresentSpec).Success?
      && ApplyFilters(w, ParentMissingSpec).value.rows == Select(t.rows, Where(t.rows, IsBroken))
      && ApplyFilters(w, ParentPresentSpec).value.rows == Select(t.rows, Where(t.rows, IsLinked))
  {
    SpecsMeaning();
    FilterIsWhere(t, ComponentSpec, IsComponent);
    var w := ApplyFilters(t, ComponentSpec).value;
    ParentSpecsOk(w);
    FilterIsWhere(w, ParentMissingSpec, ParentMissing);
    FilterIsWhere(w, ParentPresentSpec, ParentPresent);
    WhereTwice(t.rows, IsComponent, ParentMissing, IsBroken);
    WhereTwice(t.rows, IsComponent, ParentPresent, IsLinked);
  }

  datatype BundleSplit = BundleSplit(components: seq<Row>, broken: seq<Row>, linked: seq<Row>, result: RunResult)

  /** Segmentation and bookkeeping of `run`: the component lines, and among
      them those with and without a required-by parent, each as the input
      rows satisfying its predicate, in order. The returned dict raises
      when the net price column is missing. */
  function BrokenBundle(t: Table): (res: Result<BundleSplit, FilterError>)
    ensures res.Success? <==> SpecOk(t, ComponentSpec) && "Required By Product Name" in t.columns && "Net Price" in t.columns
    ensures SpecOk(t, ComponentSpec) && "Required By Product Name" in t.columns && "Net Price" !in t.columns
        ==> res == Failure(MissingColumn("Net Price"))
    ensures res.Success? ==> res.value.components == Select(t.rows, Where(t.rows, IsComponent))
    ensures res.Success? ==> res.value.broken == Select(t.rows, Where(t.rows, IsBroken))
    ensures res.Success? ==> res.value.linked == Select(t.rows, Where(t.rows, IsLinked))
    ensures res.Success? ==> res.value.result.name == "The_Broken_Bundle"
    ensures res.Success? ==> res.value.result.recordsFound == |res.value.broken|
    ensures res.Success? ==> res.value.result.totalLoss == Money(res.value.broken, "Net Price")
  {
    var c := ApplyFilters(t, ComponentSpec);
    if c.Failure? then Failure(c.error)
    else
      var w := c.value;
      ParentSpecsOk(w);
      var b := ApplyFilters(w, ParentMissingSpec);
      if b.Failure? then Failure(b.error)
      else if MissingRead(t.columns, ["Net Price"]).Some? then Failure(MissingRead(t.columns, ["Net Price"]).value)
      else
        var l := ApplyFilters(w, ParentPresentSpec);
        BundleFacts(t);
        Success(BundleSplit(w.rows, b.value.rows, l.value.rows,
          RunResult("The_Broken_Bundle", |b.value.rows|,
                    Num(Total(t.rows, "Net Price") - Total(b.value.rows, "Net Price")),
                    Money(b.value.rows, "Net Price"))))
  }

  /** The two segments split the component lines, share no line, and leave
      out every line that is not a component. */
  lemma BundlePartition(t: Table)
    requires SpecOk(t, ComponentSpec) && "Required By Product Name" in t.columns && "Net Price" in t.columns
    ensures var s := BrokenBundle(t).value;
      && |s.broken| + |s.linked| == |s.components|
      && (forall r :: r in s.broken ==> r !in s.linked)
      && (forall r :: r in t.rows && !IsComponent(r) ==> r !in s.broken && r !in s.linked)
  {
    BundleFacts(t);
    var s := BrokenBundle(t).value;
    assert s.broken == Select(t.rows, Where(t.rows, IsBroken));
    assert s.linked == Select(t.rows, Where(t.rows, IsLinked));
    DisjointWhere(t.rows, IsBroken, IsLinked);
    DisjointUnion(t.rows, IsBroken, IsLinked, IsComponent, "Net Price");
    forall r | r in t.rows && !IsComponent(r) ensures r !in s.broken && r !in s.linked {
      WhereMembership(t.rows, IsBroken, r);
      WhereMembership(t.rows, IsLinked, r);
    }
  }

  /** The reported revenue is the net price of every line outside the
      broken segment, components with a parent and non-components alike. */
  lemma BundleRevenue(t: Table)
    requires SpecOk(t, ComponentSpec) && "Required By Product Name" in t.columns && "Net Price" in t.columns
    ensures BrokenBundle(t).value.result.totalRevenue
         == Money(Select(t.rows, Negate(Where(t.rows, IsBroken))), "Net Price")
  {
    BundleFacts(t);
    var s := BrokenBundle(t).value;
    assert s.broken == Select(t.rows, Where(t.rows, IsBroken));
    TotalSplit(t.rows, Where(t.rows, IsBroken), "Net Price");
  }
}

=== FILE: usecase12.dfy ===
/** The discount-without-approval use case: quotes discounted above 20%
    that are not approved, against unapproved quotes discounted below 20%
    or not at all. */
module Usecase12 {
  import opened Wrappers
  import opened Values
  import opened Tables
  import opened Filters
  import opened Segments

  const UnapprovedSpec: Spec :=
    [ ("Customer Discount", Ops([(">", Num(20.0))])),
      ("Status", Ops([("!=", Str("Approved"))])) ]

  predicate IsApproved(r: Row) {
    Cell(r, "Status") == Str("Approved")
  }

  /** Discounted above 20% and not approved; a null status counts as not
      approved, since `!=` is true on a null cell. */
  predicate IsUnapprovedDiscount(r: Row) {
    && NumView(Cell(r, "Customer Discount")).Some?
    && NumView(Cell(r, "Customer Discount")).value > 20.0
    && !IsApproved(r)
  }

  /** The "healthy" mask, written with pandas operators rather than the
      filter engine: below 20% or no discount, and not approved. */
  predicate IsHealthyQuote(r: Row) {
    && (|| (NumView(Cell(r, "Customer Discount")).Some? && NumView(Cell(r, "Customer Discount")).value < 20.0)
        || Cell(r, "Customer Discount") == Null)
    && !IsApproved(r)
  }

  lemma UnapprovedSpecMeaning()
    ensures forall r :: RowSat(UnapprovedSpec, r) <==> IsUnapprovedDiscount(r)
  {
    forall r ensures RowSat(UnapprovedSpec, r) <==> IsUnapprovedDiscount(r) {
      RowSatPair("Customer Discount", Ops([(">", Num(20.0))]), "Status", Ops([("!=", Str("Approved"))]), r);
      CondSatSingle(">", Num(20.0), Cell(r, "Customer Discount"));
      CondSatSingle("!=", Str("Approved"), Cell(r, "Status"));
    }
  }

  datatype DiscountSplit = DiscountSplit(unapproved: seq<Row>, healthy: seq<Row>, pie: seq<int>, result: RunResult)

  lemma DiscountFacts(t: Table)
    requires SpecOk(t, UnapprovedSpec)
    ensures ApplyFilters(t, UnapprovedSpec).value.rows == Select(t.rows, Where(t.rows, IsUnapprovedDiscount))
  {
    UnapprovedSpecMeaning();
    FilterIsWhere(t, UnapprovedSpec, IsUnapprovedDiscount);
  }

  /** Segmentation and bookkeeping of `run`. The filter raises on a
      discount Python cannot compare with 20, before the mask is built;
      the returned dict raises when the net amount column is missing. */
  function DiscountWithoutApproval(t: Table): (res: Result<DiscountSplit, FilterError>)
    ensures res.Success? <==> SpecOk(t, UnapprovedSpec) && "Net Amount" in t.columns
    ensures SpecOk(t, UnapprovedSpec) && "Net Amount" !in t.columns ==> res == Failure(MissingColumn("Net Amount"))
    ensures res.Success? ==> res.value.unapproved == Select(t.rows, Where(t.rows, IsUnapprovedDiscount))
    ensures res.Success? ==> res.value.healthy == Select(t.rows, Where(t.rows, IsHealthyQuote))
    ensures res.Success? ==> res.value.pie == [|res.value.unapproved|, |res.value.healthy|]
    ensures res.Success? ==> res.value.result.name == "Discount_Without_Approval"
    ensures res.Success? ==> res.value.result.recordsFound == |res.value.unapproved|
    ensures res.Success? ==> res.value.result.totalLoss == Money(res.value.unapproved, "Net Amount")
  {
    var f := ApplyFilters(t, UnapprovedSpec);
    if f.Failure? then Failure(f.error)
    else if MissingRead(t.columns, ["Net Amount"]).Some? then Failure(MissingRead(t.columns, ["Net Amount"]).value)
    else
      DiscountFacts(t);
      var unapproved := f.value.rows;
      var healthy := Select(t.rows, Where(t.rows, IsHealthyQuote));
      Success(DiscountSplit(unapproved, healthy, [|unapproved|, |healthy|],
        RunResult("Discount_Without_Approval", |unapproved|,
                  Num(Total(t.rows, "Net Amount") - Total(unapproved, "Net Amount")),
                  Money(unapproved, "Net Amount"))))
  }

  /** The segments share no quote; a discount of exactly 20%, or an
      approved quote, lands in neither. */
  lemma DiscountSegmentsDisjoint(t: Table)
    requires SpecOk(t, UnapprovedSpec) && "Net Amount" in t.columns
    ensures var s := DiscountWithoutApproval(t).value;
      && (forall r :: r in s.unapproved ==> r !in s.healthy)
      && (forall r :: r in t.rows && (IsApproved(r) || Cell(r, "Customer Discount") == Num(20.0)) ==>
            r !in s.unapproved && r !in s.healthy)
  {
    var s := DiscountWithoutApproval(t).value;
    DisjointWhere(t.rows, IsUnapprovedDiscount, IsHealthyQuote);
    forall r | r in t.rows && (IsApproved(r) || Cell(r, "Customer Discount") == Num(20.0))
      ensures r !in s.unapproved && r !in s.healthy
    {
      WhereMembership(t.rows, IsUnapprovedDiscount, r);
      WhereMembership(t.rows, IsHealthyQuote, r);
    }
  }

  /** The reported revenue is the net amount of every quote outside the
      first segment. */
  lemma DiscountRevenue(t: Table)
    requires SpecOk(t, UnapprovedSpec) && "Net Amount" in t.columns
    ensures DiscountWithoutApproval(t).value.result.totalRevenue
         == Money(Select(t.rows, Negate(Where(t.rows, IsUnapprovedDiscount))), "Net Amount")
  {
    DiscountFacts(t);
    TotalSplit(t.rows, Where(t.rows, IsUnapprovedDiscount), "Net Amount");
  }
}

=== FILE: usecase13.dfy ===
/** The missing-billing-frequency use case: renewable quote lines with no
    billing frequency, against renewable lines that have one. */
module Usecase13 {
  import opened Wrappers
  import opened Values
  import opened Tables
  import opened Filters
  import opened Loaders
  import opened Segments

  /** The quote lines with the quote reference dropped. */
  function Prepare(t: Table): Table {
    Drop(t, ["Quote ID"])
  }

  lemma PrepareDropsQuoteId(t: Table)
    ensures "Quote ID" !in Prepare(t).columns
    ensures forall c :: c != "Quote ID" ==> (c in Prepare(t).columns <==> c in t.columns)
    ensures |Prepare(t).rows| == |t.rows|
  {
  }

  const MissingSpec: Spec :=
    [ ("Subscription Type", Ops([("=", Str("Renewable"))])),
      ("Billing Frequency", Ops([("isna", Bool(true))])) ]

  const HealthySpec: Spec :=
    [ ("Subscription Type", Ops([("=", Str("Renewable"))])),
      ("Billing Frequency", Ops([("notna", Bool(true))])) ]

  predicate IsRenewable(r: Row) {
    Cell(r, "Subscription Type") == Str("Renewable")
  }

  predicate IsMissing(r: Row) {
    IsRenewable(r) && Cell(r, "Billing Frequency") == Null
  }

  predicate IsBilled(r: Row) {
    IsRenewable(r) && Cell(r, "Billing Frequency") != Null
  }

  lemma SpecsMeaning()
    ensures forall r :: RowSat(MissingSpec, r) <==> IsMissing(r)
    ensures forall r :: RowSat(HealthySpec, r) <==> IsBilled(r)
  {
    forall r
      ensures RowSat(MissingSpec, r) <==> IsMissing(r)
      ensures RowSat(HealthySpec, r) <==> IsBilled(r)
    {
      RowSatPair("Subscription Type", Ops([("=", Str("Renewable"))]), "Billing Frequency", Ops([("isna", Bool(true))]), r);
      RowSatPair("Subscription Type", Ops([("=", Str("Renewable"))]), "Billing Frequency", Ops([("notna", Bool(true))]), r);
      CondSatSingle("=", Str("Renewable"), Cell(r, "Subscription Type"));
      CondSatSingle("isna", Bool(true), Cell(r, "Billing Frequency"));
      CondSatSingle("notna", Bool(true), Cell(r, "Billing Frequency"));
    }
  }

  lemma BillingFacts(d: Table)
    requires SpecOk(d, MissingSpec) && SpecOk(d, HealthySpec)
    ensures ApplyFilters(d, MissingSpec).value.rows == Select(d.rows, Where(d.rows, IsMissing))
    ensures ApplyFilters(d, HealthySpec).value.rows == Select(d.rows, Where(d.rows, IsBilled))
    ensures Total(Select(d.rows, Negate(Where(d.rows, IsMissing))), "Net Total")
         == Total(d.rows, "Net Total") - Total(Select(d.rows, Where(d.rows, IsMissing)), "Net Total")
  {
    SpecsMeaning();
    FilterIsWhere(d, MissingSpec, IsMissing);
    FilterIsWhere(d, HealthySpec, IsBilled);
    TotalSplit(d.rows, Where(d.rows, IsMissing), "Net Total");
  }

  datatype BillingSplit = BillingSplit(missing: seq<Row>, healthy: seq<Row>, pie: seq<int>, result: RunResult)

  /** Segmentation and bookkeeping of `run`: both segments are the prepared
      rows satisfying their predicate, in order; the loss is the net total
      of the lines missing a frequency and the revenue that of all others.
      The returned dict reads the net total, which raises when that column
      is missing. */
  function MissingBillingFrequency(t: Table): (res: Result<BillingSplit, FilterError>)
    ensures res.Success? <==>
      SpecOk(Prepare(t), MissingSpec) && SpecOk(Prepare(t), HealthySpec) && "Net Total" in t.columns
    ensures SpecOk(Prepare(t), MissingSpec) && SpecOk(Prepare(t), HealthySpec) && "Net Total" !in t.columns
        ==> res == Failure(MissingColumn("Net Total"))
    ensures res.Success? ==> res.value.missing == Select(Prepare(t).rows, Where(Prepare(t).rows, IsMissing))
    ensures res.Success? ==> res.value.healthy == Select(Prepare(t).rows, Where(Prepare(t).rows, IsBilled))
    ensures res.Success? ==> res.value.pie == [|res.value.missing|, |res.value.healthy|]
    ensures res.Success? ==> res.value.result.name == "Missing_Billing_Frequency"
    ensures res.Success? ==> res.value.result.recordsFound == |res.value.missing|
    ensures res.Success? ==> res.value.result.totalLoss == Money(res.value.missing, "Net Total")
  {
    var d := Prepare(t);
    var m := ApplyFilters(d, MissingSpec);
    var h := ApplyFilters(d, HealthySpec);
    if m.Failure? then Failure(m.error)
    else if h.Failure? then Failure(h.error)
    else if MissingRead(d.columns, ["Net Total"]).Some? then Failure(MissingRead(d.columns, ["Net Total"]).value)
    else
      BillingFacts(d);
      var missing := m.value.rows;
      var healthy := h.value.rows;
      Success(BillingSplit(missing, healthy, [|missing|, |healthy|],
        RunResult("Missing_Billing_Frequency", |missing|,
                  Num(Total(d.rows, "Net Total") - Total(missing, "Net Total")),
                  Money(missing, "Net Total"))))
  }

  /** The two segments split the renewable lines: they share no line, their
      sizes add up to the number of renewable lines, and a line that is not
      renewable is in neither. */
  lemma BillingPartition(t: Table)
    requires SpecOk(Prepare(t), MissingSpec) && SpecOk(Prepare(t), HealthySpec) && "Net Total" in t.columns
    ensures var s := MissingBillingFrequency(t).value;
            var rows := Prepare(t).rows;
      && (forall r :: r in s.missing ==> r !in s.healthy)
      && |s.missing| + |s.healthy| == |Select(rows, Where(rows, IsRenewable))|
      && (forall r :: r in rows && !IsRenewable(r) ==> r !in s.missing && r !in s.healthy)
  {
    var rows := Prepare(t).rows;
    var s := MissingBillingFrequency(t).value;
    assert s.missing == Select(rows, Where(rows, IsMissing));
    assert s.healthy == Select(rows, Where(rows, IsBilled));
    DisjointWhere(rows, IsMissing, IsBilled);
    DisjointUnion(rows, IsMissing, IsBilled, IsRenewable, "Net Total");
    forall r | r in rows && !IsRenewable(r) ensures r !in s.missing && r !in s.healthy {
      WhereMembership(rows, IsMissing, r);
      WhereMembership(rows, IsBilled, r);
    }
  }

  /** The reported revenue is the net total of every line not missing a
      frequency, renewable or not. */
  lemma BillingRevenue(t: Table)
    requires SpecOk(Prepare(t), MissingSpec) && SpecOk(Prepare(t), HealthySpec) && "Net Total" in t.columns
    ensures MissingBillingFrequency(t).value.result.totalRevenue
         == Money(Select(Prepare(t).rows, Negate(Where(Prepare(t).rows, IsMissing))), "Net Total")
  {
    BillingFacts(Prepare(t));
  }
}

=== FILE: usecase14.dfy ===
/** The unsynced-primary-quote use case: primary quotes whose net amount
    differs from their opportunity's amount, against those that agree. The
    opportunity amount is read from the nested `SBQQ__Opportunity2__r`
    object. */
module Usecase14 {
  import opened Wrappers
  import opened Dicts
  import opened Values
  import opened Tables
  import opened Filters
  import opened Loaders
  import opened Segments

  const NestedFields: Dict<Dict<string>> := [("SBQQ__Opportunity2__r", [("Amount", "Opportunity Amount")])]

  /** The quotes after extraction and after dropping the relationship
      column. */
  function Prepare(t: Table): (r: Table)
    ensures |r.rows| == |t.rows|
    ensures forall i :: 0 <= i < |t.rows| ==> r.rows[i].id == t.rows[i].id
  {
    Drop(ExtractNestedFields(t, NestedFields), ["SBQQ__Opportunity2__r"])
  }

  /** The amount compared is the opportunity's `Amount`, null when the
      relationship object or the field is absent. */
  lemma OpportunityAmountFromNested(t: Table, k: nat)
    requires "SBQQ__Opportunity2__r" in t.columns && k < |t.rows|
    ensures "Opportunity Amount" in Prepare(t).columns
    ensures Cell(Prepare(t).rows[k], "Opportunity Amount") == Project(Cell(t.rows[k], "SBQQ__Opportunity2__r"), "Amount")
  {
    var m := NestedFields;
    assert m[0].1[0] == ("Amount", "Opportunity Amount");
    assert "SBQQ__Opportunity2__r" !in Dests(m[0].1);
    ExtractNestedFieldsValue(t, m, 0, 0);
  }

  /** `df["Net Amount"] == df["Opportunity Amount"]`. */
  predicate IsSynced(r: Row) {
    PyEq(Cell(r, "Net Amount"), Cell(r, "Opportunity Amount"))
  }

  /** `df["Net Amount"] != df["Opportunity Amount"]`. */
  predicate IsUnsynced(r: Row) {
    !PyEq(Cell(r, "Net Amount"), Cell(r, "Opportunity Amount"))
  }

  datatype SyncSplit = SyncSplit(unsynced: seq<Row>, healthy: seq<Row>, pie: seq<int>, result: RunResult)

  /** Segmentation and bookkeeping of `run` on the prepared quotes; a
      missing amount column raises `KeyError`. */
  function UnsyncedPrimaryQuotes(t: Table): (res: Result<SyncSplit, FilterError>)
    ensures res.Failure? <==> "Net Amount" !in t.columns || "Opportunity Amount" !in t.columns
    ensures res.Success? ==> res.value.unsynced == Select(t.rows, Where(t.rows, IsUnsynced))
    ensures res.Success? ==> res.value.healthy == Select(t.rows, Where(t.rows, IsSynced))
    ensures res.Success? ==> res.value.pie == [|res.value.unsynced|, |res.value.healthy|]
    ensures res.Success? ==> res.value.result.name == "Unsynced_Primary_Quote"
    ensures res.Success? ==> res.value.result.recordsFound == |res.value.unsynced|
    ensures res.Success? ==> res.value.result.totalLoss == Money(res.value.unsynced, "Net Amount")
  {
    if "Net Amount" !in t.columns then Failure(MissingColumn("Net Amount"))
    else if "Opportunity Amount" !in t.columns then Failure(MissingColumn("Opportunity Amount"))
    else
      var healthy := Select(t.rows, Where(t.rows, IsSynced));
      var unsynced := Select(t.rows, Where(t.rows, IsUnsynced));
      Success(SyncSplit(unsynced, healthy, [|unsynced|, |healthy|],
        RunResult("Unsynced_Primary_Quote", |unsynced|,
                  Num(Total(t.rows, "Net Amount") - Total(unsynced, "Net Amount")),
                  Money(unsynced, "Net Amount"))))
  }

  /** Every quote is in exactly one segment, so the pie values add up to
      the number of quotes; a null in either amount makes a quote
      unsynced; the reported revenue is the net amount of the synced
      quotes. */
  lemma SyncPartition(t: Table)
    requires UnsyncedPrimaryQuotes(t).Success?
    ensures var s := UnsyncedPrimaryQuotes(t).value;
      && (forall r :: r in t.rows ==> (r in s.unsynced <==> r !in s.healthy))
      && s.pie[0] + s.pie[1] == |t.rows|
      && (forall r :: r in t.rows && (Cell(r, "Net Amount") == Null || Cell(r, "Opportunity Amount") == Null) ==>
            r in s.unsynced)
      && s.result.totalRevenue == Money(s.healthy, "Net Amount")
  {
    var s := UnsyncedPrimaryQuotes(t).value;
    var m := Where(t.rows, IsUnsynced);
    SelectSameMask(t.rows, Where(t.rows, IsSynced), Negate(m));
    SelectComplementSizes(t.rows, m);
    TotalSplit(t.rows, m, "Net Amount");
    forall r | r in t.rows ensures r in s.unsynced <==> r !in s.healthy {
      WhereMembership(t.rows, IsUnsynced, r);
      WhereMembership(t.rows, IsSynced, r);
    }
    forall r | r in t.rows && (Cell(r, "Net Amount") == Null || Cell(r, "Opportunity Amount") == Null)
      ensures r in s.unsynced
    {
      WhereMembership(t.rows, IsUnsynced, r);
    }
  }
}

=== FILE: usecase15.dfy ===
/** The expired-subscription-not-renewed use case: subscriptions past their
    end date whose contract's quote is a renewal quote, against expired
    subscriptions whose quote is of another type or missing. The quote type
    is read two levels deep, from the contract's quote. */
module Usecase15 {
  import opened Wrappers
  import opened Dicts
  import opened Values
  import opened Tables
  import opened Filters
  import opened Loaders
  import opened Segments

  /** The nested mapping applied to the `SBQQ__Contract__r` column. */
  const ContractMapping: NestedMapping :=
    [ ("SBQQ__Opportunity__r", Nested([("Name", Leaf("Opportunity Name"))])),
      ("SBQQ__Quote__r", Nested([("SBQQ__Type__c", Leaf("Quote Type"))])) ]

  /** `contract["SBQQ__Quote__r"]["SBQQ__Type__c"]`, null wherever the path
      breaks off. */
  function QuoteTypeOf(contract: Value): Value {
    if contract.Obj? && Lookup(contract.fields, "SBQQ__Quote__r").Obj? then
      Lookup(Lookup(contract.fields, "SBQQ__Quote__r").fields, "SBQQ__Type__c")
    else Null
  }

  /** The contract carries a quote record, so the two-level path reaches
      the quote's type field. */
  predicate HasQuote(contract: Value) {
    contract.Obj? && Lookup(contract.fields, "SBQQ__Quote__r").Obj?
  }

  /** The recursive extractor yields a "Quote Type" entry exactly for a
      contract with a quote, and its value is the one at the end of the
      two-level path. */
  lemma QuoteTypeFromPath(contract: Value)
    ensures Get(ExtractFromDict(contract, ContractMapping), "Quote Type")
         == (if HasQuote(contract) then Some(QuoteTypeOf(contract)) else None)
    ensures GetOr(ExtractFromDict(contract, ContractMapping), "Quote Type", Null) == QuoteTypeOf(contract)
  {
    ExtractFromDictGet(contract, ContractMapping, "Quote Type");
    if contract.Obj? {
      var f := contract.fields;
      var opp := Lookup(f, "SBQQ__Opportunity__r");
      var quote := Lookup(f, "SBQQ__Quote__r");
      var oppMapping := [("Name", Leaf("Opportunity Name"))];
      var quoteMapping := [("SBQQ__Type__c", Leaf("Quote Type"))];
      assert ContractMapping[0] == ("SBQQ__Opportunity__r", Nested(oppMapping));
      assert ContractMapping[1] == ("SBQQ__Quote__r", Nested(quoteMapping));
      var oppLeaves := Leaves(opp, oppMapping);
      var quoteLeaves := Leaves(quote, quoteMapping);
      if opp.Obj? {
        assert LeavesFrom(opp.fields, oppMapping, 1) == [];
        assert oppLeaves == [("Opportunity Name", Lookup(opp.fields, "Name"))];
      }
      assert LastValue(oppLeaves, "Quote Type").None?;
      if quote.Obj? {
        assert LeavesFrom(quote.fields, quoteMapping, 1) == [];
        assert quoteLeaves == [("Quote Type", Lookup(quote.fields, "SBQQ__Type__c"))];
        assert LastValue(quoteLeaves, "Quote Type") == Some(Lookup(quote.fields, "SBQQ__Type__c"));
      }
      assert LeavesFrom(f, ContractMapping, 2) == [];
      assert LeavesFrom(f, ContractMapping, 1) == quoteLeaves + [];
      assert quoteLeaves + [] == quoteLeaves;
      assert Leaves(contract, ContractMapping) == oppLeaves + quoteLeaves;
      LastValueAppend(oppLeaves, quoteLeaves, "Quote Type");
    }
  }

  /** In the extracted table, every subscription's "Quote Type" cell is the
      value at the end of its contract's path, once some subscription's
      contract has a quote and so produces the column. */
  lemma QuoteTypeColumn(t: Table, i: nat)
    requires PositionalIndex(t) && "SBQQ__Contract__r" in t.columns && i < |t.rows|
    requires exists k :: 0 <= k < |t.rows| && HasQuote(Cell(t.rows[k], "SBQQ__Contract__r"))
    ensures Cell(ExtractNestedFieldsNLevel(t, [("SBQQ__Contract__r", ContractMapping)]).rows[i], "Quote Type")
         == QuoteTypeOf(Cell(t.rows[i], "SBQQ__Contract__r"))
  {
    var m := [("SBQQ__Contract__r", ContractMapping)];
    var k :| 0 <= k < |t.rows| && HasQuote(Cell(t.rows[k], "SBQQ__Contract__r"));
    QuoteTypeFromPath(Cell(t.rows[k], "SBQQ__Contract__r"));
    NLevelCellValue(t, m, 0, "Quote Type");
    QuoteTypeFromPath(Cell(t.rows[i], "SBQQ__Contract__r"));
  }

  // ---------------------------------------------------------------------
  // Segmentation
  // ---------------------------------------------------------------------

  /** `pd.to_datetime(..., errors="coerce")` on a cell that is already a
      date or not one at all. */
  function CoerceDate(v: Value): (r: Value)
    ensures r.Date? || r.Null?
    ensures v.Date? ==> r == v
  {
    if v.Date? then v else Null
  }

  predicate HasEndDate(r: Row) {
    Cell(r, "Subscription End Date") != Null
  }

  /** The subscriptions with a usable end date, end dates coerced. */
  function Dated(t: Table): (d: Table)
    requires "Subscription End Date" in t.columns
    ensures d.columns == t.columns
    ensures forall r :: r in d.rows ==> Cell(r, "Subscription End Date").Date?
  {
    var coerced := SetColumn(t, "Subscription End Date",
      seq(|t.rows|, i requires 0 <= i < |t.rows| => CoerceDate(Cell(t.rows[i], "Subscription End Date"))));
    var kept := Select(coerced.rows, Where(coerced.rows, HasEndDate));
    forall r | r in kept ensures Cell(r, "Subscription End Date").Date? {
      WhereMembership(coerced.rows, HasEndDate, r);
    }
    Table(coerced.columns, kept)
  }

  function UnhealthySpec(today: int): Spec {
    [ ("Subscription End Date", Ops([("<", Date(today))])),
      ("Quote Type", Ops([("=", Str("Renewal"))])) ]
  }

  function HealthySpec(today: int): Spec {
    [ ("Subscription End Date", Ops([("<", Date(today))])),
      ("Quote Type", Ops([("!=", Str("Renewal"))])) ]
  }

  predicate IsExpired(r: Row, today: int) {
    Cell(r, "Subscription End Date").Date? && Cell(r, "Subscription End Date").day < today
  }

  predicate IsNotRenewed(r: Row, today: int) {
    IsExpired(r, today) && Cell(r, "Quote Type") == Str("Renewal")
  }

  predicate IsOtherExpired(r: Row, today: int) {
    IsExpired(r, today) && Cell(r, "Quote Type") != Str("Renewal")
  }

  lemma SpecsMeaning(today: int)
    ensures forall r :: RowSat(UnhealthySpec(today), r) <==> IsNotRenewed(r, today)
    ensures forall r :: RowSat(HealthySpec(today), r) <==> IsOtherExpired(r, today)
  {
    forall r
      ensures RowSat(UnhealthySpec(today), r) <==> IsNotRenewed(r, today)
      ensures RowSat(HealthySpec(today), r) <==> IsOtherExpired(r, today)
    {
      RowSatPair("Subscription End Date", Ops([("<", Date(today))]), "Quote Type", Ops([("=", Str("Renewal"))]), r);
      RowSatPair("Subscription End Date", Ops([("<", Date(today))]), "Quote Type", Ops([("!=", Str("Renewal"))]), r);
      CondSatSingle("<", Date(today), Cell(r, "Subscription End Date"));
      CondSatSingle("=", Str("Renewal"), Cell(r, "Quote Type"));
      CondSatSingle("!=", Str("Renewal"), Cell(r, "Quote Type"));
    }
  }

  /** On dated subscriptions both filters succeed exactly when the quote
      type column exists. */
  lemma SpecsOk(d: Table, today: int)
    requires "Subscription End Date" in d.columns
    requires forall r :: r in d.rows ==> Cell(r, "Subscription End Date").Date?
    ensures SpecOk(d, UnhealthySpec(today)) <==> "Quote Type" in d.columns
    ensures SpecOk(d, HealthySpec(today)) <==> "Quote Type" in d.columns
  {
    SpecOkPair(d, "Subscription End Date", Ops([("<", Date(today))]), "Quote Type", Ops([("=", Str("Renewal"))]));
    SpecOkPair(d, "Subscription End Date", Ops([("<", Date(today))]), "Quote Type", Ops([("!=", Str("Renewal"))]));
    CondOkSingle(d, "Subscription End Date", "<", Date(today));
    CondOkSingle(d, "Quote Type", "=", Str("Renewal"));
    CondOkSingle(d, "Quote Type", "!=", Str("Renewal"));
    var cells := Column(d.rows, "Subscription End Date");
    forall i | 0 <= i < |cells| ensures CompareTypeOk("<", cells[i], Date(today)) {
      assert d.rows[i] in d.rows;
    }
  }

  datatype RenewalSplit = RenewalSplit(notRenewed: seq<Row>, others: seq<Row>, pie: seq<int>, result: RunResult)

  lemma RenewalFacts(d: Table, today: int)
    requires SpecOk(d, UnhealthySpec(today)) && SpecOk(d, HealthySpec(today))
    ensures var u := ApplyFilters(d, UnhealthySpec(today)).value.rows;
            var h := ApplyFilters(d, HealthySpec(today)).value.rows;
      && IsSubsequence(u, d.rows) && IsSubsequence(h, d.rows)
      && (forall r :: r in u <==> r in d.rows && IsNotRenewed(r, today))
      && (forall r :: r in h <==> r in d.rows && IsOtherExpired(r, today))
  {
    SpecsMeaning(today);
    FilterSplit(d, UnhealthySpec(today), r => IsNotRenewed(r, today), "Net Price");
    FilterSplit(d, HealthySpec(today), r => IsOtherExpired(r, today), "Net Price");
  }

  /** Segmentation and bookkeeping of `run` on the extracted subscriptions:
      end dates are coerced and undated subscriptions dropped, then the two
      filters split the expired ones by quote type. The returned dict
      raises when the net price column is missing. */
  function ExpiredNotRenewed(t: Table, today: int): (res: Result<RenewalSplit, FilterError>)
    ensures res.Failure? <==>
      "Subscription End Date" !in t.columns || "Quote Type" !in t.columns || "Net Price" !in t.columns
    ensures "Subscription End Date" in t.columns && "Quote Type" in t.columns && "Net Price" !in t.columns
        ==> res == Failure(MissingColumn("Net Price"))
    ensures res.Success? ==> forall r :: r in res.value.notRenewed <==> r in Dated(t).rows && IsNotRenewed(r, today)
    ensures res.Success? ==> forall r :: r in res.value.others <==> r in Dated(t).rows && IsOtherExpired(r, today)
    ensures res.Success? ==> IsSubsequence(res.value.notRenewed, Dated(t).rows)
    ensures res.Success? ==> IsSubsequence(res.value.others, Dated(t).rows)
    ensures res.Success? ==> res.value.pie == [|res.value.notRenewed|, |res.value.others|]
    ensures res.Success? ==> res.value.result.name == "Expired_Subscription_Not_Renewed"
    ensures res.Success? ==> res.value.result.recordsFound == |res.value.notRenewed|
    ensures res.Success? ==> res.value.result.totalLoss == Money(res.value.notRenewed, "Net Price")
  {
    if "Subscription End Date" !in t.columns then Failure(MissingColumn("Subscription End Date"))
    else
      var d := Dated(t);
      SpecsOk(d, today);
      var u := ApplyFilters(d, UnhealthySpec(today));
      if u.Failure? then Failure(u.error)
      else if MissingRead(d.columns, ["Net Price"]).Some? then Failure(MissingRead(d.columns, ["Net Price"]).value)
      else
        var h := ApplyFilters(d, HealthySpec(today));
        RenewalFacts(d, today);
        Success(RenewalSplit(u.value.rows, h.value.rows, [|u.value.rows|, |h.value.rows|],
          RunResult("Expired_Subscription_Not_Renewed", |u.value.rows|,
                    Num(Total(d.rows, "Net Price") - Total(u.value.rows, "Net Price")),
                    Money(u.value.rows, "Net Price"))))
  }

  /** The two segments split the expired subscriptions: no subscription is
      in both, each expired one is in one of them (a missing quote type
      sends it to the second), and one not yet expired is in neither. */
  lemma RenewalPartition(t: Table, today: int)
    requires "Subscription End Date" in t.columns && "Quote Type" in t.columns && "Net Price" in t.columns
    ensures var s := ExpiredNotRenewed(t, today).value;
      && (forall r :: r in s.notRenewed ==> r !in s.others)
      && (forall r :: r in Dated(t).rows && IsExpired(r, today) ==> r in s.notRenewed || r in s.others)
      && (forall r :: r in Dated(t).rows && IsExpired(r, today) && Cell(r, "Quote Type") == Null ==> r in s.others)
      && (forall r :: r in Dated(t).rows && !IsExpired(r, today) ==> r !in s.notRenewed && r !in s.others)
  {
  }
}

=== FILE: usecase2.dfy ===
/** The lost-uplift use case: contracts whose renewal opportunity's
    primary quote is compared with the original one's, against the value
    the contract's uplift rate promises. The segments are pandas masks
    over two columns, not filter specifications. */
module Usecase2 {
  import opened Wrappers
  import opened Values
  import opened Tables
  import opened Filters
  import opened Loaders
  import opened Segments
  import Text

  const PieLabels: seq<string> := [
    "Old Revenue = New Revenue", "Healthy", "Old Revenue > New Revenue",
    "Old Revenue < New Revenue", "Renewal Opportunity is Null" ]

  const PieColors: seq<string> := ["#FFEE8C", "#88E788", "#FFC067", "#FF7782", "#69aafa"]

  /** The relationship columns dropped once the amounts are extracted. */
  const RelationshipColumns: seq<string> := ["SBQQ__Opportunity__r", "SBQQ__RenewalOpportunity__r", "Account"]

  /** The placeholder amounts the use case reports, whatever the data. */
  const ReportedRevenue: real := 24000.0
  const ReportedLoss: real := 4000.0

  /** `old * uplift / 100` and `old + …` on a column of Python objects:
      when the whole-column operation raises, pandas retries it on the
      rows where both operands are non-null, so only such a row that
      does not hold two numbers (booleans included) raises. */
  predicate ArithOk(base: Value, uplift: Value) {
    base.Null? || uplift.Null? || (NumView(base).Some? && NumView(uplift).Some?)
  }

  /** `old + old * uplift / 100`, null as soon as either operand is. */
  function ExpectedOf(base: Value, uplift: Value): (e: Value)
    ensures e.Num? <==> NumView(base).Some? && NumView(uplift).Some?
    ensures NumView(uplift) == Some(0.0) ==> e == (if NumView(base).Some? then Num(NumView(base).value) else Null)
  {
    if NumView(base).Some? && NumView(uplift).Some? then Num(Uplifted(NumView(base).value, NumView(uplift).value))
    else Null
  }

  /** An amount raised by a rate given in percent. */
  function Uplifted(amount: real, rate: real): real {
    amount + amount * rate / 100.0
  }

  function Old(r: Row): Value { Cell(r, "Old Opp Amount") }
  function Renewal(r: Row): Value { Cell(r, "Renewal Opp Amount") }
  function Uplift(r: Row): Value { Cell(r, "Uplift Rate") }
  function Expected(r: Row): Value { Cell(r, "Expected Renewal Value") }

  predicate IsSame(r: Row) { PyEq(Old(r), Renewal(r)) }
  predicate IsHealthy(r: Row) { PyEq(Expected(r), Renewal(r)) }
  /** `old > renewal` element-wise: false against a null. */
  predicate IsDownsell(r: Row) { Compare(">", Old(r), Renewal(r)) }
  predicate IsUpsell(r: Row) { Compare("<", Old(r), Renewal(r)) }
  predicate IsRenewalNone(r: Row) { Renewal(r).Null? }

  /** Which of the three comparisons a contract falls in. */
  predicate IsCompared(r: Row) { IsSame(r) || IsDownsell(r) || IsUpsell(r) }
  predicate IsOrdered(r: Row) { IsDownsell(r) || IsUpsell(r) }

  /** Every row gets through the arithmetic and the ordering comparisons. */
  predicate AmountsCompatible(t: Table) {
    forall r :: r in t.rows ==> ArithOk(Old(r), Uplift(r)) && CompareTypeOk(">", Old(r), Renewal(r))
  }

  /** The first error the steps of `run` raise, in the order they touch
      the columns: the renewal amount, the expected-value arithmetic, the
      drop of the relationship columns, then the ordering comparisons. */
  function FirstError(t: Table): Option<FilterError> {
    if "Renewal Opp Amount" !in t.columns then Some(MissingColumn("Renewal Opp Amount"))
    else if "Old Opp Amount" !in t.columns then Some(MissingColumn("Old Opp Amount"))
    else if "Uplift Rate" !in t.columns then Some(MissingColumn("Uplift Rate"))
    else if exists r :: r in t.rows && !ArithOk(Old(r), Uplift(r)) then Some(TypeMismatch("Old Opp Amount", "*"))
    else if RelationshipColumns[0] !in t.columns then Some(MissingColumn(RelationshipColumns[0]))
    else if RelationshipColumns[1] !in t.columns then Some(MissingColumn(RelationshipColumns[1]))
    else if RelationshipColumns[2] !in t.columns then Some(MissingColumn(RelationshipColumns[2]))
    else if exists r :: r in t.rows && !CompareTypeOk(">", Old(r), Renewal(r)) then Some(TypeMismatch("Renewal Opp Amount", ">"))
    else None
  }

  /** The contracts with their expected renewal value added and the
      relationship columns dropped. */
  function WithExpected(t: Table): (d: Table)
    ensures |d.rows| == |t.rows|
    ensures forall r :: r in d.rows ==> Expected(r) == ExpectedOf(Old(r), Uplift(r))
    ensures forall i :: 0 <= i < |d.rows| ==>
              Old(d.rows[i]) == Old(t.rows[i]) && Uplift(d.rows[i]) == Uplift(t.rows[i])
              && Renewal(d.rows[i]) == Renewal(t.rows[i])
    ensures AmountsCompatible(t) ==> AmountsCompatible(d)
  {
    var s := SetColumn(t, "Expected Renewal Value",
      seq(|t.rows|, i requires 0 <= i < |t.rows| => ExpectedOf(Old(t.rows[i]), Uplift(t.rows[i]))));
    var d := Drop(s, RelationshipColumns);
    forall i | 0 <= i < |d.rows|
      ensures Expected(d.rows[i]) == ExpectedOf(Old(d.rows[i]), Uplift(d.rows[i]))
      ensures Old(d.rows[i]) == Old(t.rows[i]) && Uplift(d.rows[i]) == Uplift(t.rows[i])
      ensures Renewal(d.rows[i]) == Renewal(t.rows[i])
    {
      PreparedRow(t, s, d, i);
    }
    forall r | r in d.rows
      ensures Expected(r) == ExpectedOf(Old(r), Uplift(r))
      ensures AmountsCompatible(t) ==> ArithOk(Old(r), Uplift(r)) && CompareTypeOk(">", Old(r), Renewal(r))
    {
      var i :| 0 <= i < |d.rows| && d.rows[i] == r;
      assert t.rows[i] in t.rows;
    }
    d
  }

  /** The columns `run` reads after the drop are none of the dropped ones. */
  lemma ReadColumnsKept(c: string)
    requires c in ["Expected Renewal Value", "Old Opp Amount", "Uplift Rate", "Renewal Opp Amount"]
    ensures c !in RelationshipColumns
  {
    assert |c| != |RelationshipColumns[0]| && |c| != |RelationshipColumns[1]| && |c| != |RelationshipColumns[2]|;
  }

  lemma PreparedRow(t: Table, s: Table, d: Table, i: nat)
    requires i < |t.rows| && |s.rows| == |t.rows| && d == Drop(s, RelationshipColumns)
    requires Cell(s.rows[i], "Expected Renewal Value") == ExpectedOf(Old(t.rows[i]), Uplift(t.rows[i]))
    requires forall c :: c != "Expected Renewal Value" ==> Cell(s.rows[i], c) == Cell(t.rows[i], c)
    ensures Expected(d.rows[i]) == ExpectedOf(Old(d.rows[i]), Uplift(d.rows[i]))
    ensures Old(d.rows[i]) == Old(t.rows[i]) && Uplift(d.rows[i]) == Uplift(t.rows[i])
    ensures Renewal(d.rows[i]) == Renewal(t.rows[i])
  {
    ReadColumnsKept("Expected Renewal Value");
    ReadColumnsKept("Old Opp Amount");
    ReadColumnsKept("Uplift Rate");
    ReadColumnsKept("Renewal Opp Amount");
    assert "Old Opp Amount" != "Expected Renewal Value" && "Uplift Rate" != "Expected Renewal Value";
    assert "Renewal Opp Amount" != "Expected Renewal Value";
  }

  datatype UpliftSplit = UpliftSplit(
    same: seq<Row>, healthy: seq<Row>, downsell: seq<Row>, upsell: seq<Row>, renewalNone: seq<Row>,
    zombie: seq<Row>, pie: seq<int>, result: RunResult)

  /** The five masks and their concatenation, on the prepared table. */
  function Segment(d: Table): (s: UpliftSplit)
    ensures s.same == Select(d.rows, Where(d.rows, IsSame))
    ensures s.healthy == Select(d.rows, Where(d.rows, IsHealthy))
    ensures s.downsell == Select(d.rows, Where(d.rows, IsDownsell))
    ensures s.upsell == Select(d.rows, Where(d.rows, IsUpsell))
    ensures s.renewalNone == Select(d.rows, Where(d.rows, IsRenewalNone))
    ensures s.zombie == s.same + s.downsell + s.upsell
    ensures s.pie == [|s.same|, |s.healthy|, |s.downsell|, |s.upsell|, |s.renewalNone|]
    ensures s.result == RunResult("The_Lost_Uplift", |d.rows|, Num(ReportedRevenue), Num(ReportedLoss))
  {
    var same := Select(d.rows, Where(d.rows, IsSame));
    var healthy := Select(d.rows, Where(d.rows, IsHealthy));
    var downsell := Select(d.rows, Where(d.rows, IsDownsell));
    var upsell := Select(d.rows, Where(d.rows, IsUpsell));
    var none := Select(d.rows, Where(d.rows, IsRenewalNone));
    UpliftSplit(same, healthy, downsell, upsell, none, same + downsell + upsell,
      [|same|, |healthy|, |downsell|, |upsell|, |none|],
      RunResult("The_Lost_Uplift", |d.rows|, Num(ReportedRevenue), Num(ReportedLoss)))
  }

  /** Segmentation and bookkeeping of `run` on the contracts after the
      n-level extraction of the two quote amounts. */
  function LostUplift(t: Table): (res: Result<UpliftSplit, FilterError>)
    ensures res.Failure? <==> FirstError(t).Some?
    ensures res.Failure? ==> res.error == FirstError(t).value
    ensures FirstError(t).None? ==> AmountsCompatible(t)
    ensures res.Success? ==> res.value == Segment(WithExpected(t))
  {
    var e := FirstError(t);
    if e.Some? then Failure(e.value)
    else
      NoErrorCompatible(t);
      Success(Segment(WithExpected(t)))
  }

  /** Without an error every row gets through the arithmetic and the
      ordering comparisons. */
  lemma NoErrorCompatible(t: Table)
    requires FirstError(t).None?
    ensures AmountsCompatible(t)
  {
    forall r | r in t.rows ensures ArithOk(Old(r), Uplift(r)) && CompareTypeOk(">", Old(r), Renewal(r)) {
    }
  }

  /** The comparison segments are disjoint and the zombie table is their
      union; with both amounts present a contract is in exactly one of
      them, and with the renewal amount missing it is in none of them but
      in the null-renewal segment. */
  lemma ComparisonPartition(t: Table)
    requires FirstError(t).None?
    ensures var s := LostUplift(t).value; var d := WithExpected(t).rows;
      && (forall r :: r in s.same ==> r !in s.downsell && r !in s.upsell)
      && (forall r :: r in s.downsell ==> r !in s.upsell)
      && (forall r :: r in s.zombie <==> r in s.same || r in s.downsell || r in s.upsell)
      && |s.zombie| == s.pie[0] + s.pie[2] + s.pie[3]
      && (forall r :: r in d && !Old(r).Null? && !Renewal(r).Null? ==> r in s.zombie)
      && (forall r :: r in d && Renewal(r).Null? ==> r in s.renewalNone && r !in s.zombie && r !in s.healthy)
      && (forall r :: r in d && Old(r).Null? ==> r !in s.zombie && r !in s.healthy)
  {
    var s := LostUplift(t).value;
    var d := WithExpected(t).rows;
    assert AmountsCompatible(WithExpected(t));
    forall r
      ensures r in s.same ==> r !in s.downsell && r !in s.upsell
      ensures r in s.downsell ==> r !in s.upsell
      ensures r in s.zombie <==> r in s.same || r in s.downsell || r in s.upsell
      ensures r in d && !Old(r).Null? && !Renewal(r).Null? ==> r in s.zombie
      ensures r in d && Renewal(r).Null? ==> r in s.renewalNone && r !in s.zombie && r !in s.healthy
      ensures r in d && Old(r).Null? ==> r !in s.zombie && r !in s.healthy
    {
      SplitMembership(t, r);
      if r in d {
        ComparisonRow(r);
      }
    }
  }

  /** Each table of the split holds the prepared rows of its comparison. */
  lemma SplitMembership(t: Table, r: Row)
    requires FirstError(t).None?
    ensures var s := LostUplift(t).value; var d := WithExpected(t).rows;
      && (r in s.same <==> r in d && IsSame(r))
      && (r in s.healthy <==> r in d && IsHealthy(r))
      && (r in s.downsell <==> r in d && IsDownsell(r))
      && (r in s.upsell <==> r in d && IsUpsell(r))
      && (r in s.renewalNone <==> r in d && IsRenewalNone(r))
      && (r in s.zombie <==> r in s.same || r in s.downsell || r in s.upsell)
  {
    var d := WithExpected(t).rows;
    assert LostUplift(t).value == Segment(WithExpected(t));
    WhereMembership(d, IsSame, r);
    WhereMembership(d, IsHealthy, r);
    WhereMembership(d, IsDownsell, r);
    WhereMembership(d, IsUpsell, r);
    WhereMembership(d, IsRenewalNone, r);
  }

  /** On amounts that get through the steps, the three comparisons
      exclude each other, cover every contract with both amounts, and
      none holds against a null. */
  lemma ComparisonRow(r: Row)
    requires ArithOk(Old(r), Uplift(r)) && CompareTypeOk(">", Old(r), Renewal(r))
    requires Expected(r) == ExpectedOf(Old(r), Uplift(r))
    ensures !(IsSame(r) && IsDownsell(r)) && !(IsSame(r) && IsUpsell(r)) && !(IsDownsell(r) && IsUpsell(r))
    ensures !Old(r).Null? && !Renewal(r).Null? ==> IsCompared(r)
    ensures Renewal(r).Null? ==> IsRenewalNone(r) && !IsCompared(r) && !IsHealthy(r)
    ensures Old(r).Null? ==> !IsCompared(r) && !IsHealthy(r)
  {
    Trichotomy(r);
  }

  /** The zombie table holds as many contracts as have both amounts. */
  lemma ZombieCount(t: Table)
    requires FirstError(t).None?
    ensures var s := LostUplift(t).value; var d := WithExpected(t).rows;
      |s.zombie| == |Select(d, Where(d, IsBothPresent))|
  {
    var d := WithExpected(t).rows;
    assert AmountsCompatible(WithExpected(t));
    forall r ensures !(IsDownsell(r) && IsUpsell(r)) && !(IsSame(r) && IsOrdered(r)) {
      ComparisonsExclusive(r);
    }
    DisjointUnion(d, IsDownsell, IsUpsell, IsOrdered, "Old Opp Amount");
    DisjointUnion(d, IsSame, IsOrdered, IsCompared, "Old Opp Amount");
    forall r | r in d ensures IsCompared(r) <==> IsBothPresent(r) {
      Trichotomy(r);
    }
    Restrict(d, IsCompared, IsBothPresent);
  }

  /** Whatever the amounts, no contract falls in two comparisons. */
  lemma ComparisonsExclusive(r: Row)
    ensures !(IsDownsell(r) && IsUpsell(r)) && !(IsSame(r) && IsOrdered(r))
  {
    if IsBothPresent(r) && Orderable(Old(r), Renewal(r)) {
      OrderTrichotomy(Old(r), Renewal(r));
    }
  }

  /** Two amounts Python can order compare in exactly one way, and a
      missing one in none. */
  lemma Trichotomy(r: Row)
    requires CompareTypeOk(">", Old(r), Renewal(r))
    ensures IsCompared(r) <==> IsBothPresent(r)
    ensures !(IsSame(r) && IsOrdered(r)) && !(IsDownsell(r) && IsUpsell(r))
  {
    if IsBothPresent(r) {
      OrderTrichotomy(Old(r), Renewal(r));
    }
  }

  /** A contract with both amounts. */
  predicate IsBothPresent(r: Row) {
    !Old(r).Null? && !Renewal(r).Null?
  }

  /** A positive uplift on a positive amount raises it. */
  lemma UpliftRaises(o: real, u: real)
    ensures u > 0.0 && o > 0.0 ==> Uplifted(o, u) > o
  {
    if u > 0.0 && o > 0.0 {
      assert o * u > 0.0;
    }
  }

  lemma {:induction false} Restrict(rows: seq<Row>, p: Row -> bool, q: Row -> bool)
    requires forall r :: r in rows ==> (p(r) <==> q(r))
    ensures Select(rows, Where(rows, p)) == Select(rows, Where(rows, q))
  {
    if rows != [] {
      WhereTail(rows, p);
      WhereTail(rows, q);
      Restrict(rows[1..], p, q);
    }
  }

  /** With no uplift the expected value is the old amount, so a healthy
      contract is exactly one whose amounts are equal. */
  lemma NoUpliftHealthyIsSame(t: Table)
    requires FirstError(t).None?
    ensures var s := LostUplift(t).value;
      forall r :: r in WithExpected(t).rows && NumView(Uplift(r)) == Some(0.0) ==>
        (r in s.healthy <==> r in s.same)
  {
    var d := WithExpected(t).rows;
    var s := LostUplift(t).value;
    assert s == Segment(WithExpected(t));
    assert AmountsCompatible(WithExpected(t));
    forall r | r in d && NumView(Uplift(r)) == Some(0.0)
      ensures r in s.healthy <==> r in s.same
    {
      WhereMembership(d, IsSame, r);
      WhereMembership(d, IsHealthy, r);
      NoUpliftRow(r);
    }
  }

  lemma NoUpliftRow(r: Row)
    requires Expected(r) == ExpectedOf(Old(r), Uplift(r)) && NumView(Uplift(r)) == Some(0.0)
    requires ArithOk(Old(r), Uplift(r))
    ensures IsHealthy(r) <==> IsSame(r)
  {
  }

  /** A positive uplift and a positive old amount. */
  predicate PositiveUplift(r: Row) {
    && NumView(Uplift(r)).Some? && NumView(Uplift(r)).value > 0.0
    && NumView(Old(r)).Some? && NumView(Old(r)).value > 0.0
  }

  /** With a positive uplift on a positive amount, a healthy contract is
      an upsell. */
  lemma PositiveUpliftHealthyIsUpsell(t: Table)
    requires FirstError(t).None?
    ensures var s := LostUplift(t).value;
      forall r :: r in s.healthy && PositiveUplift(r) ==> r in s.upsell
  {
    var d := WithExpected(t).rows;
    var s := LostUplift(t).value;
    assert s == Segment(WithExpected(t));
    forall r | r in s.healthy && PositiveUplift(r) ensures r in s.upsell {
      WhereMembership(d, IsHealthy, r);
      assert Expected(r) == ExpectedOf(Old(r), Uplift(r));
      PositiveUpliftRow(r);
      WhereMembership(d, IsUpsell, r);
    }
  }

  lemma PositiveUpliftRow(r: Row)
    requires Expected(r) == ExpectedOf(Old(r), Uplift(r)) && IsHealthy(r)
    requires NumView(Uplift(r)).Some? && NumView(Uplift(r)).value > 0.0
    requires NumView(Old(r)).Some? && NumView(Old(r)).value > 0.0
    ensures IsUpsell(r)
  {
    var o := NumView(Old(r)).value;
    var u := NumView(Uplift(r)).value;
    assert Expected(r) == Num(Uplifted(o, u));
    UpliftRaises(o, u);
  }

  /** All six columns `run` touches. */
  const RunColumns: seq<string> :=
    ["Old Opp Amount", "Uplift Rate", "Renewal Opp Amount"] + RelationshipColumns

  /** Text in the old amount beside a null rate is skipped by the
      arithmetic, and with a null renewal amount the contract lands only
      among the missing renewals. */
  lemma TextBesideNullRate(t: Table)
    requires t.columns == RunColumns && |t.rows| == 1
    requires Old(t.rows[0]).Str? && Uplift(t.rows[0]).Null? && Renewal(t.rows[0]).Null?
    ensures LostUplift(t).Success?
    ensures forall r :: r in WithExpected(t).rows ==>
              && r in LostUplift(t).value.renewalNone
              && r !in LostUplift(t).value.zombie && r !in LostUplift(t).value.healthy
  {
    var r := t.rows[0];
    assert forall x :: x in t.rows ==> x == r;
    assert FirstError(t).None?;
    var d := WithExpected(t).rows;
    forall x | x in d ensures Renewal(x).Null? {
      var i :| 0 <= i < |d| && d[i] == x;
    }
    ComparisonPartition(t);
  }

  /** Text in the old amount beside a numeric rate raises in the
      multiplication. */
  lemma TextTimesRateFails(t: Table)
    requires t.columns == RunColumns && |t.rows| == 1
    requires Old(t.rows[0]).Str? && Uplift(t.rows[0]).Num?
    ensures LostUplift(t) == Failure(TypeMismatch("Old Opp Amount", "*"))
  {
    assert !ArithOk(Old(t.rows[0]), Uplift(t.rows[0]));
  }

  /** Between two texts, a downsell means the renewal text sorts before
      the old one. */
  lemma TextDownsell(r: Row)
    requires Old(r).Str? && Renewal(r).Str?
    ensures IsDownsell(r) <==> Text.LexLessEq(Renewal(r).s, Old(r).s) && Renewal(r) != Old(r)
  {
  }

  /** Text on both sides of the ordering compares as text and raises
      nothing: a text downsell lands among the downsells. */
  lemma TextAmountsCompare(t: Table)
    requires t.columns == RunColumns && |t.rows| == 1
    requires Old(t.rows[0]).Str? && Uplift(t.rows[0]).Null? && Renewal(t.rows[0]).Str?
    requires IsDownsell(t.rows[0])
    ensures LostUplift(t).Success?
    ensures forall r :: r in WithExpected(t).rows ==> r in LostUplift(t).value.downsell
  {
    var r := t.rows[0];
    assert forall x :: x in t.rows ==> x == r;
    assert FirstError(t).None?;
    var d := WithExpected(t).rows;
    assert |d| == 1 && Old(d[0]) == Old(r) && Renewal(d[0]) == Renewal(r);
    assert IsDownsell(d[0]);
    SplitMembership(t, d[0]);
  }
}

=== FILE: usecase3.dfy ===
/** The ghost-order use case: activated orders at least a week old that
    carry no order reference number, against all other orders. */
module Usecase3 {
  import opened Wrappers
  import opened Values
  import opened Tables
  import opened Filters
  import opened Segments

  /** The filter of the use case, as a dict literal with a bare value for
      the status. */
  function GhostSpec(today: int): Spec {
    [ ("ActivatedDate", Ops([("<=", Date(today - 7))])),
      ("Status", Equals(Str("Activated"))),
      ("OrderReferenceNumber", Ops([("isna", Bool(true))])) ]
  }

  /** A ghost order, in plain terms. */
  predicate IsGhostOrder(r: Row, today: int) {
    && Cell(r, "ActivatedDate").Date?
    && Cell(r, "ActivatedDate").day <= today - 7
    && Cell(r, "Status") == Str("Activated")
    && Cell(r, "OrderReferenceNumber") == Null
  }

  lemma GhostSpecMeaning(today: int)
    ensures forall r :: RowSat(GhostSpec(today), r) <==> IsGhostOrder(r, today)
  {
    forall r ensures RowSat(GhostSpec(today), r) <==> IsGhostOrder(r, today) {
      RowSatTriple("ActivatedDate", Ops([("<=", Date(today - 7))]), "Status", Equals(Str("Activated")),
                   "OrderReferenceNumber", Ops([("isna", Bool(true))]), r);
      CondSatSingle("<=", Date(today - 7), Cell(r, "ActivatedDate"));
      CondSatSingle("isna", Bool(true), Cell(r, "OrderReferenceNumber"));
    }
  }

  /** The filter raises exactly when a column is missing or an activation
      date is neither a date nor null. */
  lemma GhostSpecFails(t: Table, today: int)
    ensures !SpecOk(t, GhostSpec(today)) <==>
      || "ActivatedDate" !in t.columns || "Status" !in t.columns || "OrderReferenceNumber" !in t.columns
      || exists i :: 0 <= i < |t.rows| && !Cell(t.rows[i], "ActivatedDate").Null? && !Cell(t.rows[i], "ActivatedDate").Date?
  {
    SpecOkTriple(t, "ActivatedDate", Ops([("<=", Date(today - 7))]), "Status", Equals(Str("Activated")),
                 "OrderReferenceNumber", Ops([("isna", Bool(true))]));
    CondOkSingle(t, "ActivatedDate", "<=", Date(today - 7));
    CondOkSingle(t, "OrderReferenceNumber", "isna", Bool(true));
    var cells := Column(t.rows, "ActivatedDate");
    assert OperandOk("<=", Date(today - 7), cells) <==>
      forall i :: 0 <= i < |t.rows| ==> cells[i].Null? || cells[i].Date?;
  }

  datatype GhostSplit = GhostSplit(ghostOrders: seq<Row>, others: seq<Row>, pie: seq<int>, result: RunResult)

  /** The non-ghost orders: `df.loc[~df.index.isin(ghost.index)]`. */
  function Others(t: Table, ghostOrders: seq<Row>): seq<Row> {
    Select(t.rows, Negate(IdMask(t.rows, Ids(ghostOrders))))
  }

  lemma GhostSplitFacts(t: Table, today: int)
    requires SpecOk(t, GhostSpec(today))
    ensures var g := ApplyFilters(t, GhostSpec(today)).value.rows;
      && IsSubsequence(g, t.rows)
      && (forall r :: r in g <==> r in t.rows && IsGhostOrder(r, today))
      && (UniqueIds(t.rows) ==>
            && (forall r :: r in Others(t, g) <==> r in t.rows && !IsGhostOrder(r, today))
            && |g| + |Others(t, g)| == |t.rows|
            && Total(Others(t, g), "TotalAmount") == Total(t.rows, "TotalAmount") - Total(g, "TotalAmount"))
  {
    GhostSpecMeaning(today);
    FilterSplit(t, GhostSpec(today), r => IsGhostOrder(r, today), "TotalAmount");
  }

  /** Segmentation and bookkeeping of `run`: the ghost orders, the index
      complement, the pie values `[non-ghost, ghost]` and the returned dict,
      whose amounts raise when the total amount column is missing. */
  function GhostOrders(t: Table, today: int): (res: Result<GhostSplit, FilterError>)
    ensures res.Success? <==> SpecOk(t, GhostSpec(today)) && "TotalAmount" in t.columns
    ensures SpecOk(t, GhostSpec(today)) && "TotalAmount" !in t.columns ==> res == Failure(MissingColumn("TotalAmount"))
    ensures res.Success? ==> IsSubsequence(res.value.ghostOrders, t.rows)
    ensures res.Success? ==> forall r :: r in res.value.ghostOrders <==> r in t.rows && IsGhostOrder(r, today)
    ensures res.Success? ==> res.value.result.name == "The_Ghost_Order"
    ensures res.Success? ==> res.value.result.recordsFound == |res.value.ghostOrders|
    ensures res.Success? ==> res.value.result.totalLoss == Money(res.value.ghostOrders, "TotalAmount")
    ensures res.Success? ==> |res.value.pie| == 2 && res.value.pie[1] == |res.value.ghostOrders|
    ensures res.Success? ==> res.value == SplitOf(t, ApplyFilters(t, GhostSpec(today)).value.rows)
  {
    var filtered := ApplyFilters(t, GhostSpec(today));
    if filtered.Failure? then Failure(filtered.error)
    else if MissingRead(t.columns, ["TotalAmount"]).Some? then Failure(MissingRead(t.columns, ["TotalAmount"]).value)
    else
      GhostSplitFacts(t, today);
      Success(SplitOf(t, filtered.value.rows))
  }

  /** The segments, pie values and result dict `run` builds from the ghost
      orders `g`; revenue is the total amount less the ghost orders'. */
  function SplitOf(t: Table, g: seq<Row>): (s: GhostSplit)
    ensures s.ghostOrders == g && s.others == Others(t, g) && s.pie == [|s.others|, |g|]
    ensures s.result.name == "The_Ghost_Order" && s.result.recordsFound == |g|
    ensures s.result.totalLoss == Money(g, "TotalAmount")
    ensures s.result.totalRevenue == Num(Total(t.rows, "TotalAmount") - Total(g, "TotalAmount"))
  {
    var others := Others(t, g);
    GhostSplit(g, others, [|others|, |g|],
      RunResult("The_Ghost_Order", |g|,
                Num(Total(t.rows, "TotalAmount") - Total(g, "TotalAmount")),
                Money(g, "TotalAmount")))
  }

  /** With unique index labels (as `records_to_df` produces) the non-ghost
      orders are exactly the orders that are not ghosts: the pie values add
      up to the number of orders, and the reported revenue is the total
      amount of the non-ghost orders. */
  lemma GhostOrdersPartition(t: Table, today: int)
    requires SpecOk(t, GhostSpec(today)) && "TotalAmount" in t.columns && UniqueIds(t.rows)
    ensures var s := GhostOrders(t, today).value;
      && (forall r :: r in s.others <==> r in t.rows && !IsGhostOrder(r, today))
      && s.pie[0] + s.pie[1] == |t.rows|
      && s.result.totalRevenue == Money(s.others, "TotalAmount")
  {
    GhostSplitFacts(t, today);
    var s := SplitOf(t, ApplyFilters(t, GhostSpec(today)).value.rows);
    assert GhostOrders(t, today).value == s;
  }
}

=== FILE: usecase4.dfy ===
/** The threshold-hugger use case: quotes whose average discount sits just
    under the 20% approval threshold, set against healthy quotes and quotes
    with a negative discount. */
module Usecase4 {
  import opened Wrappers
  import opened Dicts
  import opened Values
  import opened Tables
  import opened Filters
  import opened Overview
  import opened Segments

  const PieLabels: seq<string> := ["Healthy Quotes", "Bypass Approval Quotes", "Incorrect Discount Quotes"]
  const PieColors: seq<string> := ["#88E788", "#FFCC77", "#FA5053"]

  /** The healthy filter exactly as its dict literal is written: the same
      column twice, first the low band and then the high band. */
  const HealthyEntries: seq<(string, Cond)> :=
    [ ("Average Customer Discount", Ops([(">=", Num(0.0)), ("<=", Num(19.0))])),
      ("Average Customer Discount", Ops([(">=", Num(20.0)), ("<=", Num(100.0))])) ]

  /** What Python builds from that literal. */
  function HealthySpec(): Spec {
    Literal(HealthyEntries)
  }

  const BypassSpec: Spec :=
    [ ("Average Customer Discount", Ops([(">=", Num(19.01)), ("<=", Num(19.99))])) ]

  const IncorrectSpec: Spec :=
    [ ("Average Customer Discount", Ops([("<", Num(0.0))])) ]

  /** The discount as a number, if it is one. */
  function Discount(r: Row): Option<real> {
    NumView(Cell(r, "Average Customer Discount"))
  }

  predicate InBand(r: Row, lo: real, hi: real) {
    Discount(r).Some? && lo <= Discount(r).value <= hi
  }

  /** Healthy as the code decides it: only the high band survives. */
  predicate IsHealthy(r: Row) { InBand(r, 20.0, 100.0) }

  predicate IsLowBand(r: Row) { InBand(r, 0.0, 19.0) }

  /** Healthy as the two bands of the literal describe it. */
  predicate IsHealthyIntended(r: Row) { IsLowBand(r) || IsHealthy(r) }

  predicate IsBypass(r: Row) { InBand(r, 19.01, 19.99) }

  predicate IsIncorrect(r: Row) {
    Discount(r).Some? && Discount(r).value < 0.0
  }

  /** Every discount is a number, a boolean or null, so that it can be
      compared with the band limits. */
  predicate Ready(t: Table) {
    && "Average Customer Discount" in t.columns
    && forall r :: r in t.rows ==> Cell(r, "Average Customer Discount").Null? || Discount(r).Some?
  }

  /** The duplicate key keeps its first position and its last value. */
  lemma HealthySpecCollapses()
    ensures HealthySpec() == [("Average Customer Discount", Ops([(">=", Num(20.0)), ("<=", Num(100.0))]))]
  {
    LiteralDuplicateCollapses("Average Customer Discount",
      Ops([(">=", Num(0.0)), ("<=", Num(19.0))]), Ops([(">=", Num(20.0)), ("<=", Num(100.0))]));
  }

  lemma SpecsMeaning()
    ensures forall r :: RowSat(HealthySpec(), r) <==> IsHealthy(r)
    ensures forall r :: RowSat(BypassSpec, r) <==> IsBypass(r)
    ensures forall r :: RowSat(IncorrectSpec, r) <==> IsIncorrect(r)
  {
    HealthySpecCollapses();
    forall r
      ensures RowSat(HealthySpec(), r) <==> IsHealthy(r)
      ensures RowSat(BypassSpec, r) <==> IsBypass(r)
      ensures RowSat(IncorrectSpec, r) <==> IsIncorrect(r)
    {
      BandRow(r, 20.0, 100.0);
      BandRow(r, 19.01, 19.99);
      IncorrectRow(r);
    }
  }

  /** A single-column filter with a `>=` and a `<=` bound keeps the
      discounts in the closed band. */
  lemma BandRow(r: Row, lo: real, hi: real)
    ensures RowSat([("Average Customer Discount", Ops([(">=", Num(lo)), ("<=", Num(hi))]))], r) <==> InBand(r, lo, hi)
  {
    RowSatSingle("Average Customer Discount", Ops([(">=", Num(lo)), ("<=", Num(hi))]), r);
    CondSatPair(">=", Num(lo), "<=", Num(hi), Cell(r, "Average Customer Discount"));
  }

  lemma IncorrectRow(r: Row)
    ensures RowSat(IncorrectSpec, r) <==> IsIncorrect(r)
  {
    RowSatSingle("Average Customer Discount", Ops([("<", Num(0.0))]), r);
    CondSatSingle("<", Num(0.0), Cell(r, "Average Customer Discount"));
  }

  /** An ordering operator of the discount column raises exactly when
      the column is missing or holds a value that is not a number. */
  lemma OrderingOk(t: Table, op: string, bound: real)
    requires IsOrdering(op)
    ensures OpError(t, "Average Customer Discount", op, Num(bound)).None? <==> Ready(t)
  {
    var cells := Column(t.rows, "Average Customer Discount");
    if "Average Customer Discount" in t.columns {
      if forall i :: 0 <= i < |cells| ==> CompareTypeOk(op, cells[i], Num(bound)) {
        forall r | r in t.rows ensures Cell(r, "Average Customer Discount").Null? || Discount(r).Some? {
          var i :| 0 <= i < |t.rows| && t.rows[i] == r;
          assert CompareTypeOk(op, cells[i], Num(bound));
        }
      }
      if Ready(t) {
        forall i | 0 <= i < |cells| ensures CompareTypeOk(op, cells[i], Num(bound)) {
          assert t.rows[i] in t.rows;
        }
      }
    }
  }

  lemma SpecsOk(t: Table)
    ensures SpecOk(t, HealthySpec()) <==> Ready(t)
    ensures SpecOk(t, BypassSpec) <==> Ready(t)
    ensures SpecOk(t, IncorrectSpec) <==> Ready(t)
  {
    HealthySpecCollapses();
    SpecOkSingle(t, "Average Customer Discount", Ops([(">=", Num(20.0)), ("<=", Num(100.0))]));
    SpecOkSingle(t, "Average Customer Discount", Ops([(">=", Num(19.01)), ("<=", Num(19.99))]));
    SpecOkSingle(t, "Average Customer Discount", Ops([("<", Num(0.0))]));
    var o1 := [(">=", Num(20.0)), ("<=", Num(100.0))];
    var o2 := [(">=", Num(19.01)), ("<=", Num(19.99))];
    assert o1[0] == (">=", Num(20.0)) && o1[1] == ("<=", Num(100.0));
    assert o2[0] == (">=", Num(19.01)) && o2[1] == ("<=", Num(19.99));
    OrderingOk(t, ">=", 20.0);
    OrderingOk(t, "<=", 100.0);
    OrderingOk(t, ">=", 19.01);
    OrderingOk(t, "<=", 19.99);
    CondOkSingle(t, "Average Customer Discount", "<", Num(0.0));
    OrderingOk(t, "<", 0.0);
  }

  lemma HealthyOk(t: Table)
    ensures ApplyFilters(t, HealthySpec()).Success? <==> Ready(t)
  {
    SpecsOk(t);
  }

  datatype HuggerSplit = HuggerSplit(healthy: seq<Row>, bypass: seq<Row>, incorrect: seq<Row>, pie: seq<int>, result: RunResult)

  /** On a ready table every filter succeeds and keeps the rows of its
      band. */
  lemma SegmentFacts(t: Table)
    requires Ready(t)
    ensures ApplyFilters(t, HealthySpec()).Success? && ApplyFilters(t, BypassSpec).Success?
    ensures ApplyFilters(t, IncorrectSpec).Success?
    ensures ApplyFilters(t, HealthySpec()).value.rows == Select(t.rows, Where(t.rows, IsHealthy))
    ensures ApplyFilters(t, BypassSpec).value.rows == Select(t.rows, Where(t.rows, IsBypass))
    ensures ApplyFilters(t, IncorrectSpec).value.rows == Select(t.rows, Where(t.rows, IsIncorrect))
  {
    SpecsOk(t);
    SpecsMeaning();
    FilterIsWhere(t, HealthySpec(), IsHealthy);
    FilterIsWhere(t, BypassSpec, IsBypass);
    FilterIsWhere(t, IncorrectSpec, IsIncorrect);
  }

  /** The three segments of a table every filter accepts. */
  function Segment(t: Table): (s: HuggerSplit)
    requires Ready(t)
    ensures s.healthy == Select(t.rows, Where(t.rows, IsHealthy))
    ensures s.bypass == Select(t.rows, Where(t.rows, IsBypass))
    ensures s.incorrect == Select(t.rows, Where(t.rows, IsIncorrect))
    ensures s.pie == [|s.healthy|, |s.bypass|, |s.incorrect|]
    ensures s.result.name == "The_Threshold_Hugger"
    ensures s.result.recordsFound == |s.bypass|
    ensures s.result.totalLoss == Money(s.bypass, "Discount Amount")
  {
    SegmentFacts(t);
    var h := ApplyFilters(t, HealthySpec()).value.rows;
    var b := ApplyFilters(t, BypassSpec).value.rows;
    var i := ApplyFilters(t, IncorrectSpec).value.rows;
    HuggerSplit(h, b, i, [|h|, |b|, |i|],
      RunResult("The_Threshold_Hugger", |b|,
                Num(Total(t.rows, "Opportunity Amount") - Total(b, "Opportunity Amount")),
                Money(b, "Discount Amount")))
  }

  /** Segmentation and bookkeeping of `run` on the extracted, renamed
      quotes. The healthy filter is evaluated first and raises first; the
      returned dict then reads the opportunity amount and the discount
      amount, each raising when its column is missing. */
  function ThresholdHugger(t: Table): (res: Result<HuggerSplit, FilterError>)
    ensures res.Success? <==> Ready(t) && "Opportunity Amount" in t.columns && "Discount Amount" in t.columns
    ensures !Ready(t) ==> res.Failure? && res.error == ApplyFilters(t, HealthySpec()).error
    ensures Ready(t) && "Opportunity Amount" !in t.columns ==> res == Failure(MissingColumn("Opportunity Amount"))
    ensures Ready(t) && "Opportunity Amount" in t.columns && "Discount Amount" !in t.columns
        ==> res == Failure(MissingColumn("Discount Amount"))
    ensures res.Success? ==> res.value == Segment(t)
  {
    HealthyOk(t);
    var f := ApplyFilters(t, HealthySpec());
    if f.Failure? then Failure(f.error) else AmountsRead(t)
  }

  /** The returned dict of a ready table: it reads the opportunity amount
      and then the discount amount, raising on the first one missing. */
  function AmountsRead(t: Table): (res: Result<HuggerSplit, FilterError>)
    requires Ready(t)
    ensures res.Success? <==> "Opportunity Amount" in t.columns && "Discount Amount" in t.columns
    ensures "Opportunity Amount" !in t.columns ==> res == Failure(MissingColumn("Opportunity Amount"))
    ensures "Opportunity Amount" in t.columns && "Discount Amount" !in t.columns
        ==> res == Failure(MissingColumn("Discount Amount"))
    ensures res.Success? ==> res.value == Segment(t)
  {
    if "Opportunity Amount" !in t.columns then Failure(MissingColumn("Opportunity Amount"))
    else if "Discount Amount" !in t.columns then Failure(MissingColumn("Discount Amount"))
    else Success(Segment(t))
  }

  /** The three segments share no quote; a discount just above 19% or just
      below 20%, outside the bypass band, is in none of them, and so is
      every discount between 0% and 19%. */
  lemma HuggerSegments(t: Table)
    requires Ready(t)
    ensures var s := Segment(t);
      && (forall r :: r in s.healthy ==> r !in s.bypass && r !in s.incorrect)
      && (forall r :: r in s.bypass ==> r !in s.incorrect)
      && (forall r :: r in t.rows && Discount(r).Some? && 0.0 <= Discount(r).value < 19.01 ==>
            r !in s.healthy && r !in s.bypass && r !in s.incorrect)
      && (forall r :: r in t.rows && Discount(r).Some? && 19.99 < Discount(r).value < 20.0 ==>
            r !in s.healthy && r !in s.bypass && r !in s.incorrect)
  {
    var s := Segment(t);
    forall r
      ensures r in s.healthy <==> r in t.rows && IsHealthy(r)
      ensures r in s.bypass <==> r in t.rows && IsBypass(r)
      ensures r in s.incorrect <==> r in t.rows && IsIncorrect(r)
    {
      WhereMembership(t.rows, IsHealthy, r);
      WhereMembership(t.rows, IsBypass, r);
      WhereMembership(t.rows, IsIncorrect, r);
    }
  }

  /** The pie segments of the report name only the healthy and the bypass
      labels: the map handed to `build_pie_segments` has no entry for
      incorrect discounts. */
  lemma IncorrectHasNoPieSegment(items: seq<Dict<Value>>, healthy: Table, bypass: Table)
    requires TitlesAreText(items)
    ensures var m := [(PieLabels[0], healthy), (PieLabels[1], bypass)];
            var segs := BuildPieSegments(items, m, PieLabels, PieColors).value;
      && (forall k :: 0 <= k < |segs| ==> segs[k].title != PieLabels[2])
      && (exists k :: 0 <= k < |segs| && segs[k].title == PieLabels[0])
      && (exists k :: 0 <= k < |segs| && segs[k].title == PieLabels[1])
  {
    var m := [(PieLabels[0], healthy), (PieLabels[1], bypass)];
    assert |PieLabels[2]| != |PieLabels[0]| && |PieLabels[2]| != |PieLabels[1]|;
    assert !HasKey(m, PieLabels[2]);
    assert HasKey(m, PieLabels[0]) by { assert m[0].0 == PieLabels[0]; }
    assert HasKey(m, PieLabels[1]) by { assert m[1].0 == PieLabels[1]; }
    SegmentsCoverKnownLabels(items, m, PieLabels, PieColors, PieLabels[0]);
    SegmentsCoverKnownLabels(items, m, PieLabels, PieColors, PieLabels[1]);
    SegmentsCoverKnownLabels(items, m, PieLabels, PieColors, PieLabels[2]);
  }

  // ---------------------------------------------------------------------
  // The low healthy band
  // ---------------------------------------------------------------------

  /** As written, a quote discounted at 10% is neither healthy nor in any
      other segment: the duplicate key erased the low band. */
  lemma LowBandDropped(id: int)
    ensures var r := Row(id, map["Average Customer Discount" := Num(10.0)]);
      && !RowSat(HealthySpec(), r) && !RowSat(BypassSpec, r) && !RowSat(IncorrectSpec, r)
      && IsHealthyIntended(r)
  {
    SpecsMeaning();
  }

  /** The healthy quotes as the two bands intend them: the rows of either
      band filter, in table order. */
  function IntendedHealthy(t: Table): seq<Row> {
    Select(t.rows, Where(t.rows, IsHealthyIntended))
  }

  /** With both bands the segments still share no quote, the healthy
      quotes are the low band's and the high band's, and the healthy
      count is the sum of the two bands' counts. */
  lemma IntendedHealthyBands(t: Table)
    requires Ready(t)
    ensures var s := Segment(t); var h := IntendedHealthy(t);
      && (forall r :: r in h ==> r !in s.bypass && r !in s.incorrect)
      && (forall r :: r in h <==> r in t.rows && (IsLowBand(r) || r in s.healthy))
      && |h| == |Select(t.rows, Where(t.rows, IsLowBand))| + |s.healthy|
  {
    var h := IntendedHealthy(t);
    var s := Segment(t);
    forall r
      ensures r in h <==> r in t.rows && IsHealthyIntended(r)
      ensures r in s.healthy <==> r in t.rows && IsHealthy(r)
      ensures r in s.bypass <==> r in t.rows && IsBypass(r)
      ensures r in s.incorrect <==> r in t.rows && IsIncorrect(r)
    {
      WhereMembership(t.rows, IsHealthy, r);
      WhereMembership(t.rows, IsHealthyIntended, r);
      WhereMembership(t.rows, IsBypass, r);
      WhereMembership(t.rows, IsIncorrect, r);
    }
    DisjointUnion(t.rows, IsLowBand, IsHealthy, IsHealthyIntended, "Opportunity Amount");
  }
}

=== FILE: usecase5.dfy ===
/** The inactive-sale use case: quote lines whose product is no longer
    active, against the rest. The product's `IsActive` flag is read from
    the nested `SBQQ__Product__r` object. */
module Usecase5 {
  import opened Wrappers
  import opened Dicts
  import opened Values
  import opened Tables
  import opened Filters
  import opened Loaders
  import opened Segments

  /** The relationship fields the use case flattens. */
  const NestedFields: Dict<Dict<string>> :=
    [ ("SBQQ__Quote__r", [("Name", "Quote Name")]),
      ("SBQQ__Product__r", [("Name", "Product Name"), ("IsActive", "Product IsActive")]) ]

  /** The quote lines after extraction and after dropping the two
      relationship columns. */
  function Prepare(t: Table): (r: Table)
    ensures |r.rows| == |t.rows|
    ensures forall i :: 0 <= i < |t.rows| ==> r.rows[i].id == t.rows[i].id
  {
    Drop(ExtractNestedFields(t, NestedFields), ["SBQQ__Product__r", "SBQQ__Quote__r"])
  }

  const InactiveSpec: Spec := [("Product IsActive", Ops([("=", Bool(false))]))]

  /** `x == False` in Python: `False` itself or the number zero. */
  predicate IsInactive(r: Row) {
    Cell(r, "Product IsActive") == Bool(false) || Cell(r, "Product IsActive") == Num(0.0)
  }

  lemma InactiveSpecMeaning()
    ensures forall r :: RowSat(InactiveSpec, r) <==> IsInactive(r)
  {
    forall r ensures RowSat(InactiveSpec, r) <==> IsInactive(r) {
      RowSatSingle("Product IsActive", Ops([("=", Bool(false))]), r);
      CondSatSingle("=", Bool(false), Cell(r, "Product IsActive"));
    }
  }

  /** The flag the filter reads is the product's `IsActive` field, null
      when the product object or the field is absent. */
  lemma ActiveFlagFromProduct(t: Table, k: nat)
    requires "SBQQ__Product__r" in t.columns && k < |t.rows|
    ensures Cell(Prepare(t).rows[k], "Product IsActive") == Project(Cell(t.rows[k], "SBQQ__Product__r"), "IsActive")
  {
    ExtractedFlag(t, k);
    assert "Product IsActive"[0] != "SBQQ__Product__r"[0] && |"Product IsActive"| != |"SBQQ__Quote__r"|;
    assert "Product IsActive" !in ["SBQQ__Product__r", "SBQQ__Quote__r"];
  }

  /** The extraction step alone: the flag column holds the product's field. */
  lemma ExtractedFlag(t: Table, k: nat)
    requires "SBQQ__Product__r" in t.columns && k < |t.rows|
    ensures Cell(ExtractNestedFields(t, NestedFields).rows[k], "Product IsActive")
         == Project(Cell(t.rows[k], "SBQQ__Product__r"), "IsActive")
  {
    var m := NestedFields;
    assert m[1].1[1] == ("IsActive", "Product IsActive");
    assert "Product IsActive" !in Dests(m[0].1);
    assert "SBQQ__Product__r" !in Dests(m[0].1) && "SBQQ__Product__r" !in Dests(m[1].1);
    ExtractNestedFieldsValue(t, m, 1, 1);
  }

  /** A quote line whose product carries no `IsActive` flag counts as an
      active sale: `=` is false on a null cell. */
  lemma MissingFlagIsActive(r: Row)
    requires Cell(r, "Product IsActive") == Null
    ensures !RowSat(InactiveSpec, r)
  {
    InactiveSpecMeaning();
  }

  datatype InactiveSplit = InactiveSplit(inactive: seq<Row>, active: seq<Row>, pie: seq<int>, result: RunResult)

  /** `df.loc[~df.index.isin(inactive.index)]`. */
  function Others(t: Table, inactive: seq<Row>): seq<Row> {
    Select(t.rows, Negate(IdMask(t.rows, Ids(inactive))))
  }

  lemma InactiveSplitFacts(t: Table)
    requires SpecOk(t, InactiveSpec)
    ensures var s := ApplyFilters(t, InactiveSpec).value.rows;
      && IsSubsequence(s, t.rows)
      && (forall r :: r in s <==> r in t.rows && IsInactive(r))
      && (UniqueIds(t.rows) ==>
            && (forall r :: r in Others(t, s) <==> r in t.rows && !IsInactive(r))
            && |s| + |Others(t, s)| == |t.rows|)
  {
    InactiveSpecMeaning();
    FilterSplit(t, InactiveSpec, IsInactive, "Product IsActive");
  }

  /** Segmentation and bookkeeping of `run` on the prepared quote lines:
      the inactive sales, their index complement, the pie values
      `[inactive, active]` and a result with no revenue and no loss. */
  function InactiveSale(t: Table): (res: Result<InactiveSplit, FilterError>)
    ensures res.Success? <==> SpecOk(t, InactiveSpec)
    ensures res.Success? ==> IsSubsequence(res.value.inactive, t.rows)
    ensures res.Success? ==> forall r :: r in res.value.inactive <==> r in t.rows && IsInactive(r)
    ensures res.Success? ==> res.value.result == RunResult("The_Inactive_Sale", |res.value.inactive|, Null, Null)
    ensures res.Success? ==> |res.value.pie| == 2 && res.value.pie[0] == |res.value.inactive|
  {
    var filtered := ApplyFilters(t, InactiveSpec);
    if filtered.Failure? then Failure(filtered.error)
    else
      var s := filtered.value.rows;
      InactiveSplitFacts(t);
      var active := Others(t, s);
      Success(InactiveSplit(s, active, [|s|, |active|], RunResult("The_Inactive_Sale", |s|, Null, Null)))
  }

  /** With unique index labels, active sales are exactly the lines that are
      not inactive, and the pie values add up to the number of lines. */
  lemma InactiveSalePartition(t: Table)
    requires InactiveSale(t).Success? && UniqueIds(t.rows)
    ensures var s := InactiveSale(t).value;
      && (forall r :: r in s.active <==> r in t.rows && !IsInactive(r))
      && s.pie[0] + s.pie[1] == |t.rows|
  {
    InactiveSplitFacts(t);
  }

  /** Preparation keeps the index labels, so the labels of the quote lines
      `records_to_df` numbers stay unique. */
  lemma PrepareKeepsUniqueIds(t: Table)
    requires UniqueIds(t.rows)
    ensures UniqueIds(Prepare(t).rows)
  {
  }
}

=== FILE: usecase6.dfy ===
/** The missing-tax-status use case: orders with a positive total and no
    tax exempt status, set against the orders of each known status. */
module Usecase6 {
  import opened Wrappers
  import opened Values
  import opened Tables
  import opened Filters
  import opened Segments

  /** The statuses the report counts besides a missing one, in pie order. */
  const KnownStatuses: seq<string> := ["Pending", "Non-Exempt", "Exempt", "Not Applicable"]

  /** The share of an untaxed order's total the report books as loss. */
  const LossRate: real := 0.46

  const NullStatusSpec: Spec :=
    [ ("Tax Exempt Status", Ops([("isna", Bool(true))])),
      ("TotalAmount", Ops([(">", Num(0.0))])) ]

  function StatusSpec(status: string): Spec {
    [ ("Tax Exempt Status", Ops([("=", Str(status))])),
      ("TotalAmount", Ops([(">", Num(0.0))])) ]
  }

  predicate IsPositive(r: Row) {
    NumView(Cell(r, "TotalAmount")).Some? && NumView(Cell(r, "TotalAmount")).value > 0.0
  }

  predicate HasStatus(r: Row, status: string) {
    Cell(r, "Tax Exempt Status") == Str(status)
  }

  /** A positive order with no tax exempt status. */
  predicate IsUntaxed(r: Row) {
    Cell(r, "Tax Exempt Status") == Null && IsPositive(r)
  }

  /** Every total can be compared with zero: a number, a boolean or null. */
  predicate AmountsComparable(t: Table) {
    forall r :: r in t.rows ==> Cell(r, "TotalAmount").Null? || NumView(Cell(r, "TotalAmount")).Some?
  }

  /** What every one of the five filters needs in order not to raise. */
  predicate Ready(t: Table) {
    "Tax Exempt Status" in t.columns && "TotalAmount" in t.columns && AmountsComparable(t)
  }

  lemma SpecsMeaning()
    ensures forall r :: RowSat(NullStatusSpec, r) <==> IsUntaxed(r)
    ensures forall r, status :: RowSat(StatusSpec(status), r) <==> HasStatus(r, status) && IsPositive(r)
  {
    forall r ensures RowSat(NullStatusSpec, r) <==> IsUntaxed(r) {
      RowSatPair("Tax Exempt Status", Ops([("isna", Bool(true))]), "TotalAmount", Ops([(">", Num(0.0))]), r);
      CondSatSingle("isna", Bool(true), Cell(r, "Tax Exempt Status"));
      CondSatSingle(">", Num(0.0), Cell(r, "TotalAmount"));
    }
    forall r, status ensures RowSat(StatusSpec(status), r) <==> HasStatus(r, status) && IsPositive(r) {
      RowSatPair("Tax Exempt Status", Ops([("=", Str(status))]), "TotalAmount", Ops([(">", Num(0.0))]), r);
      CondSatSingle("=", Str(status), Cell(r, "Tax Exempt Status"));
      CondSatSingle(">", Num(0.0), Cell(r, "TotalAmount"));
    }
  }

  /** The five filters raise on the same tables: a missing column, or a
      total Python cannot compare with zero. */
  lemma SpecsOk(t: Table)
    ensures SpecOk(t, NullStatusSpec) <==> Ready(t)
    ensures forall status :: SpecOk(t, StatusSpec(status)) <==> Ready(t)
  {
    var cells := Column(t.rows, "TotalAmount");
    assert (forall i :: 0 <= i < |cells| ==> CompareTypeOk(">", cells[i], Num(0.0))) <==> AmountsComparable(t) by {
      if forall i :: 0 <= i < |cells| ==> CompareTypeOk(">", cells[i], Num(0.0)) {
        forall r | r in t.rows ensures Cell(r, "TotalAmount").Null? || NumView(Cell(r, "TotalAmount")).Some? {
          var i :| 0 <= i < |t.rows| && t.rows[i] == r;
          assert CompareTypeOk(">", cells[i], Num(0.0));
        }
      }
      if AmountsComparable(t) {
        forall i | 0 <= i < |cells| ensures CompareTypeOk(">", cells[i], Num(0.0)) {
          assert t.rows[i] in t.rows;
        }
      }
    }
    SpecOkPair(t, "Tax Exempt Status", Ops([("isna", Bool(true))]), "TotalAmount", Ops([(">", Num(0.0))]));
    CondOkSingle(t, "Tax Exempt Status", "isna", Bool(true));
    CondOkSingle(t, "TotalAmount", ">", Num(0.0));
    forall status ensures SpecOk(t, StatusSpec(status)) <==> Ready(t) {
      SpecOkPair(t, "Tax Exempt Status", Ops([("=", Str(status))]), "TotalAmount", Ops([(">", Num(0.0))]));
      CondOkSingle(t, "Tax Exempt Status", "=", Str(status));
    }
  }

  datatype TaxSplit = TaxSplit(untaxed: seq<Row>, byStatus: seq<seq<Row>>, pie: seq<int>, result: RunResult)

  /** The order is in none of the five segments. */
  predicate Outside(s: TaxSplit, r: Row) {
    r !in s.untaxed && forall k :: 0 <= k < |s.byStatus| ==> r !in s.byStatus[k]
  }

  /** No two known statuses are the same. */
  lemma StatusesDistinct()
    ensures forall j, k :: 0 <= j < k < |KnownStatuses| ==> KnownStatuses[j] != KnownStatuses[k]
  {
    forall j, k | 0 <= j < k < |KnownStatuses| ensures KnownStatuses[j] != KnownStatuses[k] {
      assert |KnownStatuses[j]| != |KnownStatuses[k]|;
    }
  }

  /** The untaxed orders, as the first filter keeps them. */
  function UntaxedSegment(t: Table): (rows: seq<Row>)
    requires Ready(t)
    ensures rows == Select(t.rows, Where(t.rows, IsUntaxed))
  {
    SpecsOk(t);
    SpecsMeaning();
    FilterIsWhere(t, NullStatusSpec, IsUntaxed);
    ApplyFilters(t, NullStatusSpec).value.rows
  }

  /** The orders of one status, as its filter keeps them. */
  function StatusSegment(t: Table, status: string): (rows: seq<Row>)
    requires Ready(t)
    ensures forall r :: r in rows <==> r in t.rows && HasStatus(r, status) && IsPositive(r)
  {
    SpecsOk(t);
    SpecsMeaning();
    var f := ApplyFilters(t, StatusSpec(status));
    forall r ensures r in f.value.rows <==> r in t.rows && HasStatus(r, status) && IsPositive(r) {
      FilterKeepsExactlySatisfyingRows(t, StatusSpec(status), r);
    }
    f.value.rows
  }

  /** One segment per known status, in the order of the statuses. */
  function StatusSegments(t: Table): (b: seq<seq<Row>>)
    requires Ready(t)
    ensures |b| == |KnownStatuses|
    ensures forall k, r :: 0 <= k < |KnownStatuses| ==>
      (r in b[k] <==> r in t.rows && HasStatus(r, KnownStatuses[k]) && IsPositive(r))
  {
    seq(|KnownStatuses|, k requires 0 <= k < |KnownStatuses| => StatusSegment(t, KnownStatuses[k]))
  }

  /** The pie: the size of the first segment, then the sizes of the
      others in order. */
  function SegmentSizes(first: seq<Row>, others: seq<seq<Row>>): (pie: seq<int>)
    ensures |pie| == 1 + |others| && pie[0] == |first|
    ensures forall k :: 0 <= k < |others| ==> pie[k + 1] == |others[k]|
  {
    [|first|] + seq(|others|, k requires 0 <= k < |others| => |others[k]|)
  }

  /** The five segments of a table every filter accepts. */
  function Segment(t: Table): (s: TaxSplit)
    requires Ready(t)
    ensures s.untaxed == Select(t.rows, Where(t.rows, IsUntaxed))
    ensures |s.byStatus| == |KnownStatuses|
    ensures forall k, r :: 0 <= k < |KnownStatuses| ==>
      (r in s.byStatus[k] <==> r in t.rows && HasStatus(r, KnownStatuses[k]) && IsPositive(r))
    ensures |s.pie| == 1 + |KnownStatuses| && s.pie[0] == |s.untaxed|
    ensures forall k :: 0 <= k < |KnownStatuses| ==> s.pie[k + 1] == |s.byStatus[k]|
    ensures s.result.name == "Missing_Tax_Status"
    ensures s.result.recordsFound == |s.untaxed|
    ensures s.result.totalLoss == Num(Total(s.untaxed, "TotalAmount") * LossRate)
  {
    var untaxed := UntaxedSegment(t);
    var byStatus := StatusSegments(t);
    var pie := SegmentSizes(untaxed, byStatus);
    TaxSplit(untaxed, byStatus, pie, TaxResult(t.rows, untaxed))
  }

  /** The result dict: the untaxed orders are the records found, the rest
      of the table the revenue, and a fixed share of their totals the loss. */
  function TaxResult(rows: seq<Row>, untaxed: seq<Row>): (r: RunResult)
    ensures r.name == "Missing_Tax_Status" && r.recordsFound == |untaxed|
    ensures r.totalRevenue == Num(Total(rows, "TotalAmount") - Total(untaxed, "TotalAmount"))
    ensures r.totalLoss == Num(Total(untaxed, "TotalAmount") * LossRate)
  {
    RunResult("Missing_Tax_Status", |untaxed|,
              Num(Total(rows, "TotalAmount") - Total(untaxed, "TotalAmount")),
              Num(Total(untaxed, "TotalAmount") * LossRate))
  }

  /** Segmentation and bookkeeping of `run`: the untaxed orders, then one
      segment per known status, every one restricted to positive totals.
      The first filter raises before any segment exists. */
  function MissingTaxStatus(t: Table): (res: Result<TaxSplit, FilterError>)
    ensures res.Success? <==> Ready(t)
    ensures res.Failure? ==> ApplyFilters(t, NullStatusSpec).Failure? && res.error == ApplyFilters(t, NullStatusSpec).error
    ensures res.Success? ==> res.value == Segment(t)
  {
    SpecsOk(t);
    var f := ApplyFilters(t, NullStatusSpec);
    if f.Failure? then Failure(f.error) else Success(Segment(t))
  }

  /** The five segments share no order. A positive order with a missing
      or a known status is in its own segment; one with any other status,
      or with a total that is not positive, is in none. */
  lemma TaxPartition(t: Table)
    requires Ready(t)
    ensures var s := Segment(t);
      && (forall k, r :: 0 <= k < |KnownStatuses| && r in s.untaxed ==> r !in s.byStatus[k])
      && (forall j, k, r :: 0 <= j < k < |KnownStatuses| && r in s.byStatus[j] ==> r !in s.byStatus[k])
      && (forall r :: r in t.rows && IsPositive(r) && Cell(r, "Tax Exempt Status") == Null ==> r in s.untaxed)
      && (forall k, r :: 0 <= k < |KnownStatuses| && r in t.rows && IsPositive(r) && HasStatus(r, KnownStatuses[k]) ==>
            r in s.byStatus[k])
      && (forall r :: r in t.rows && !IsPositive(r) ==> Outside(s, r))
      && (forall r :: r in t.rows && Cell(r, "Tax Exempt Status").Str? && Cell(r, "Tax Exempt Status").s !in KnownStatuses ==>
            Outside(s, r))
  {
    var s := Segment(t);
    StatusesDistinct();
    forall r ensures r in s.untaxed <==> r in t.rows && IsUntaxed(r) {
      WhereMembership(t.rows, IsUntaxed, r);
    }
  }

  /** The reported revenue is the total of every order outside the
      untaxed segment. */
  lemma TaxRevenue(t: Table)
    requires Ready(t)
    ensures Segment(t).result.totalRevenue
         == Money(Select(t.rows, Negate(Where(t.rows, IsUntaxed))), "TotalAmount")
  {
    TotalSplit(t.rows, Where(t.rows, IsUntaxed), "TotalAmount");
  }
}

=== FILE: usecase7.dfy ===
/** The zero-quantity use case: subscription lines with a zero quantity
    that were never terminated, against the other subscriptions, which are
    found by Subscription ID. */
module Usecase7 {
  import opened Wrappers
  import opened Values
  import opened Tables
  import opened Filters
  import opened Segments

  const ZeroQuantitySpec: Spec :=
    [ ("Quantity", Ops([("=", Num(0.0))])),
      ("Terminated Date", Ops([("isna", Bool(true))])) ]

  /** A zero-quantity line in plain terms: the quantity equals zero as a
      number (`False` counts as zero) and no termination date is set. */
  predicate IsZeroQuantity(r: Row) {
    && NumView(Cell(r, "Quantity")) == Some(0.0)
    && Cell(r, "Terminated Date") == Null
  }

  lemma ZeroQuantitySpecMeaning()
    ensures forall r :: RowSat(ZeroQuantitySpec, r) <==> IsZeroQuantity(r)
  {
    forall r ensures RowSat(ZeroQuantitySpec, r) <==> IsZeroQuantity(r) {
      RowSatPair("Quantity", Ops([("=", Num(0.0))]), "Terminated Date", Ops([("isna", Bool(true))]), r);
      CondSatSingle("=", Num(0.0), Cell(r, "Quantity"));
      CondSatSingle("isna", Bool(true), Cell(r, "Terminated Date"));
    }
  }

  datatype ZeroQuantitySplit = ZeroQuantitySplit(zero: seq<Row>, others: seq<Row>, pie: seq<int>, result: RunResult)

  /** `df[~df["Subscription ID"].isin(zero["Subscription ID"])]`. */
  function Others(t: Table, zero: seq<Row>): seq<Row> {
    Select(t.rows, Negate(IsinMask(Column(t.rows, "Subscription ID"), Column(zero, "Subscription ID"))))
  }

  /** Segmentation and bookkeeping of `run`: the zero-quantity lines, the
      other lines by Subscription ID, the pie values
      `[zero, len(df) - zero]` and the returned dict. The complement reads
      the Subscription ID column and the dict the net price, each raising
      when its column is missing. */
  function ZeroQuantityLines(t: Table): (res: Result<ZeroQuantitySplit, FilterError>)
    ensures res.Success? <==> SpecOk(t, ZeroQuantitySpec) && "Subscription ID" in t.columns && "Net Price" in t.columns
    ensures SpecOk(t, ZeroQuantitySpec) && "Subscription ID" !in t.columns ==> res == Failure(MissingColumn("Subscription ID"))
    ensures SpecOk(t, ZeroQuantitySpec) && "Subscription ID" in t.columns && "Net Price" !in t.columns
        ==> res == Failure(MissingColumn("Net Price"))
    ensures res.Success? ==> IsSubsequence(res.value.zero, t.rows)
    ensures res.Success? ==> forall r :: r in res.value.zero <==> r in t.rows && IsZeroQuantity(r)
    ensures res.Success? ==> res.value.result.name == "Zero_Quantity_Line"
    ensures res.Success? ==> res.value.result.recordsFound == |res.value.zero|
    ensures res.Success? ==> res.value.result.totalLoss == Money(res.value.zero, "Net Price")
    ensures res.Success? ==> |res.value.pie| == 2 && res.value.pie[0] == |res.value.zero|
    ensures res.Success? ==> res.value.pie[0] + res.value.pie[1] == |t.rows|
  {
    var filtered := ApplyFilters(t, ZeroQuantitySpec);
    var missing := MissingRead(t.columns, ["Subscription ID", "Net Price"]);
    if filtered.Failure? then Failure(filtered.error)
    else if missing.Some? then Failure(missing.value)
    else
      var zero := filtered.value.rows;
      ZeroQuantitySpecMeaning();
      FilterSplit(t, ZeroQuantitySpec, IsZeroQuantity, "Net Price");
      Success(ZeroQuantitySplit(zero, Others(t, zero), [|zero|, |t.rows| - |zero|],
        RunResult("Zero_Quantity_Line", |zero|,
                  Num(Total(t.rows, "Net Price") - Total(zero, "Net Price")),
                  Money(zero, "Net Price"))))
  }

  /** With unique Subscription IDs the other lines are exactly the lines
      that are not zero-quantity, the second pie value counts them, and the
      reported revenue is their total net price. */
  lemma ZeroQuantityPartition(t: Table)
    requires SpecOk(t, ZeroQuantitySpec) && "Subscription ID" in t.columns && "Net Price" in t.columns
    requires UniqueKey(t.rows, "Subscription ID")
    ensures var s := ZeroQuantityLines(t).value;
      && (forall r :: r in s.others <==> r in t.rows && !IsZeroQuantity(r))
      && s.pie[1] == |s.others|
      && s.result.totalRevenue == Money(s.others, "Net Price")
  {
    var zero := ApplyFilters(t, ZeroQuantitySpec).value.rows;
    var s := ZeroQuantityLines(t).value;
    assert s.zero == zero && s.others == Others(t, zero);
    ZeroQuantitySpecMeaning();
    FilterKeySplit(t, ZeroQuantitySpec, IsZeroQuantity, "Subscription ID", "Net Price");
  }
}

=== FILE: usecase8.dfy ===
/** The eternal-trial use case: subscriptions priced at zero for longer
    than 90 days outside the marketing family, set against the three other
    price and duration bands. */
module Usecase8 {
  import opened Wrappers
  import opened Values
  import opened Tables
  import opened Filters
  import opened Loaders
  import opened Segments

  /** The trial length the filters draw the line at, in days. */
  const TrialDays: int := 90

  /** `End Date - Start Date`: a span of days, null when either end is. */
  function Duration(r: Row): (d: Value)
    ensures d.Span? || d.Null?
    ensures d.Span? <==> Cell(r, "Start Date").Date? && Cell(r, "End Date").Date?
  {
    var s := Cell(r, "Start Date");
    var e := Cell(r, "End Date");
    if s.Date? && e.Date? then Span(e.day - s.day) else Null
  }

  /** The columns `run` drops once the durations are known. */
  const ExtractionColumns: seq<string> := ["SBQQ__Product__r", "SBQQ__Contract__r", "Contract Id", "Contract Status"]

  /** The subscriptions with their contract duration added and the
      extraction columns dropped. */
  function WithDuration(t: Table): (d: Table)
    ensures |d.rows| == |t.rows|
    ensures "Contract Duration" in d.columns
    ensures forall c :: c != "Contract Duration" && c !in ExtractionColumns ==> (c in d.columns <==> c in t.columns)
    ensures forall c :: c in ExtractionColumns ==> c !in d.columns
    ensures forall r :: r in d.rows ==> Cell(r, "Contract Duration").Span? || Cell(r, "Contract Duration").Null?
    ensures "Product Family" in d.columns <==> "Product Family" in t.columns
    ensures "Net Price" in d.columns <==> "Net Price" in t.columns
  {
    DurationColumns(t);
    DurationKinds(t);
    Drop(SetColumn(t, "Contract Duration", Durations(t)), ExtractionColumns)
  }

  /** Which columns survive adding the duration and dropping the
      extraction columns. */
  lemma DurationColumns(t: Table)
    ensures var d := Drop(SetColumn(t, "Contract Duration", Durations(t)), ExtractionColumns);
      && "Contract Duration" in d.columns
      && (forall c :: c != "Contract Duration" && c !in ExtractionColumns ==> (c in d.columns <==> c in t.columns))
      && (forall c :: c in ExtractionColumns ==> c !in d.columns)
      && ("Product Family" in d.columns <==> "Product Family" in t.columns)
      && ("Net Price" in d.columns <==> "Net Price" in t.columns)
  {
    ExtractionColumnsSpare();
    var s := SetColumn(t, "Contract Duration", Durations(t));
    assert "Contract Duration" in s.columns;
    assert forall c :: c != "Contract Duration" ==> (c in s.columns <==> c in t.columns);
  }

  /** The duration of every row, in row order. */
  function Durations(t: Table): (v: seq<Value>)
    ensures |v| == |t.rows|
    ensures forall i :: 0 <= i < |t.rows| ==> v[i] == Duration(t.rows[i])
  {
    seq(|t.rows|, i requires 0 <= i < |t.rows| => Duration(t.rows[i]))
  }

  /** None of the columns the segments read is an extraction column. */
  lemma ExtractionColumnsSpare()
    ensures "Contract Duration" !in ExtractionColumns
    ensures "Product Family" !in ExtractionColumns && "Net Price" !in ExtractionColumns
    ensures "List Price" !in ExtractionColumns
  {
    assert |"Contract Duration"| == 17 && "Contract Duration"[0] != "SBQQ__Contract__r"[0];
    assert |"Product Family"| == 14 && |"Net Price"| == 9 && |"List Price"| == 10;
    assert forall k :: 0 <= k < |ExtractionColumns| ==> |ExtractionColumns[k]| in {16, 17, 11, 15};
  }

  /** After the drop every row holds a duration or a null. */
  lemma DurationKinds(t: Table)
    ensures var d := Drop(SetColumn(t, "Contract Duration", Durations(t)), ExtractionColumns);
      forall r :: r in d.rows ==> Cell(r, "Contract Duration").Span? || Cell(r, "Contract Duration").Null?
  {
    var s := SetColumn(t, "Contract Duration", Durations(t));
    var d := Drop(s, ExtractionColumns);
    ExtractionColumnsSpare();
    forall r | r in d.rows ensures Cell(r, "Contract Duration").Span? || Cell(r, "Contract Duration").Null? {
      var i :| 0 <= i < |d.rows| && d.rows[i] == r;
      assert Cell(s.rows[i], "Contract Duration") == Duration(t.rows[i]);
    }
  }

  /** Each row of `WithDuration(t)` carries the duration of the row it
      came from, and every other column unchanged. */
  lemma WithDurationCells(t: Table, i: nat)
    requires i < |t.rows|
    ensures Cell(WithDuration(t).rows[i], "Contract Duration") == Duration(t.rows[i])
    ensures forall c :: c in {"Net Price", "List Price", "Product Family"} ==>
              Cell(WithDuration(t).rows[i], c) == Cell(t.rows[i], c)
  {
    ExtractionColumnsSpare();
    var s := SetColumn(t, "Contract Duration", Durations(t));
    assert WithDuration(t) == Drop(s, ExtractionColumns);
  }

  /** On the table with durations, the first filter raises exactly when the
      family or the price column is missing. */
  lemma EternalFilterOk(t: Table)
    ensures ApplyFilters(WithDuration(t), EternalSpec).Success?
        <==> "Product Family" in t.columns && "Net Price" in t.columns
  {
    SpecsOk(WithDuration(t));
  }

  const EternalSpec: Spec :=
    [ ("Product Family", Ops([("!=", Str("Marketing"))])),
      ("Net Price", Ops([("=", Num(0.0))])),
      ("Contract Duration", Ops([(">", Span(TrialDays))])) ]

  const ZeroShortSpec: Spec :=
    [ ("Net Price", Ops([("=", Num(0.0))])),
      ("Contract Duration", Ops([("<=", Span(TrialDays))])) ]

  const PricedLongSpec: Spec :=
    [ ("Net Price", Ops([("!=", Num(0.0))])),
      ("Contract Duration", Ops([(">", Span(TrialDays))])) ]

  const PricedShortSpec: Spec :=
    [ ("Net Price", Ops([("!=", Num(0.0))])),
      ("Contract Duration", Ops([("<=", Span(TrialDays))])) ]

  /** `== 0` holds for a zero number or `False`; a null price is not free. */
  predicate IsFree(r: Row) {
    NumView(Cell(r, "Net Price")) == Some(0.0)
  }

  predicate IsLong(r: Row) {
    Cell(r, "Contract Duration").Span? && Cell(r, "Contract Duration").days > TrialDays
  }

  predicate IsShort(r: Row) {
    Cell(r, "Contract Duration").Span? && Cell(r, "Contract Duration").days <= TrialDays
  }

  /** A null family counts as outside marketing, since `!=` holds on a null. */
  predicate IsMarketing(r: Row) {
    Cell(r, "Product Family") == Str("Marketing")
  }

  predicate IsEternalTrial(r: Row) { !IsMarketing(r) && IsFree(r) && IsLong(r) }
  predicate IsFreeShort(r: Row) { IsFree(r) && IsShort(r) }
  predicate IsPricedLong(r: Row) { !IsFree(r) && IsLong(r) }
  predicate IsPricedShort(r: Row) { !IsFree(r) && IsShort(r) }

  lemma SpecsMeaning()
    ensures forall r :: RowSat(EternalSpec, r) <==> IsEternalTrial(r)
    ensures forall r :: RowSat(ZeroShortSpec, r) <==> IsFreeShort(r)
    ensures forall r :: RowSat(PricedLongSpec, r) <==> IsPricedLong(r)
    ensures forall r :: RowSat(PricedShortSpec, r) <==> IsPricedShort(r)
  {
    forall r
      ensures RowSat(EternalSpec, r) <==> IsEternalTrial(r)
      ensures RowSat(ZeroShortSpec, r) <==> IsFreeShort(r)
      ensures RowSat(PricedLongSpec, r) <==> IsPricedLong(r)
      ensures RowSat(PricedShortSpec, r) <==> IsPricedShort(r)
    {
      EternalRow(r);
      BandRows(r);
    }
  }

  lemma EternalRow(r: Row)
    ensures RowSat(EternalSpec, r) <==> IsEternalTrial(r)
  {
    RowSatTriple("Product Family", Ops([("!=", Str("Marketing"))]), "Net Price", Ops([("=", Num(0.0))]),
                 "Contract Duration", Ops([(">", Span(TrialDays))]), r);
    CondSatSingle("!=", Str("Marketing"), Cell(r, "Product Family"));
    CondSatSingle("=", Num(0.0), Cell(r, "Net Price"));
    CondSatSingle(">", Span(TrialDays), Cell(r, "Contract Duration"));
  }

  lemma BandRows(r: Row)
    ensures RowSat(ZeroShortSpec, r) <==> IsFreeShort(r)
    ensures RowSat(PricedLongSpec, r) <==> IsPricedLong(r)
    ensures RowSat(PricedShortSpec, r) <==> IsPricedShort(r)
  {
    var p := Cell(r, "Net Price");
    var d := Cell(r, "Contract Duration");
    RowSatPair("Net Price", Ops([("=", Num(0.0))]), "Contract Duration", Ops([("<=", Span(TrialDays))]), r);
    RowSatPair("Net Price", Ops([("!=", Num(0.0))]), "Contract Duration", Ops([(">", Span(TrialDays))]), r);
    RowSatPair("Net Price", Ops([("!=", Num(0.0))]), "Contract Duration", Ops([("<=", Span(TrialDays))]), r);
    CondSatSingle("=", Num(0.0), p);
    CondSatSingle("!=", Num(0.0), p);
    CondSatSingle(">", Span(TrialDays), d);
    CondSatSingle("<=", Span(TrialDays), d);
  }

  /** On the table with durations the four filters raise only on a missing
      family or price column. */
  lemma SpecsOk(d: Table)
    requires "Contract Duration" in d.columns
    requires forall r :: r in d.rows ==> Cell(r, "Contract Duration").Span? || Cell(r, "Contract Duration").Null?
    ensures SpecOk(d, EternalSpec) <==> "Product Family" in d.columns && "Net Price" in d.columns
    ensures SpecOk(d, ZeroShortSpec) <==> "Net Price" in d.columns
    ensures SpecOk(d, PricedLongSpec) <==> "Net Price" in d.columns
    ensures SpecOk(d, PricedShortSpec) <==> "Net Price" in d.columns
  {
    SpecOkTriple(d, "Product Family", Ops([("!=", Str("Marketing"))]), "Net Price", Ops([("=", Num(0.0))]),
                 "Contract Duration", Ops([(">", Span(TrialDays))]));
    SpecOkPair(d, "Net Price", Ops([("=", Num(0.0))]), "Contract Duration", Ops([("<=", Span(TrialDays))]));
    SpecOkPair(d, "Net Price", Ops([("!=", Num(0.0))]), "Contract Duration", Ops([(">", Span(TrialDays))]));
    SpecOkPair(d, "Net Price", Ops([("!=", Num(0.0))]), "Contract Duration", Ops([("<=", Span(TrialDays))]));
    CondOkSingle(d, "Product Family", "!=", Str("Marketing"));
    CondOkSingle(d, "Net Price", "=", Num(0.0));
    CondOkSingle(d, "Net Price", "!=", Num(0.0));
    CondOkSingle(d, "Contract Duration", ">", Span(TrialDays));
    CondOkSingle(d, "Contract Duration", "<=", Span(TrialDays));
    var cells := Column(d.rows, "Contract Duration");
    forall i | 0 <= i < |cells|
      ensures CompareTypeOk(">", cells[i], Span(TrialDays)) && CompareTypeOk("<=", cells[i], Span(TrialDays))
    {
      assert d.rows[i] in d.rows;
    }
  }

  datatype TrialSplit = TrialSplit(
    eternal: seq<Row>, freeShort: seq<Row>, pricedLong: seq<Row>, pricedShort: seq<Row>,
    pie: seq<int>, result: RunResult)

  lemma TrialFacts(d: Table)
    requires SpecOk(d, EternalSpec) && SpecOk(d, ZeroShortSpec)
    requires SpecOk(d, PricedLongSpec) && SpecOk(d, PricedShortSpec)
    ensures ApplyFilters(d, EternalSpec).value.rows == Select(d.rows, Where(d.rows, IsEternalTrial))
    ensures ApplyFilters(d, ZeroShortSpec).value.rows == Select(d.rows, Where(d.rows, IsFreeShort))
    ensures ApplyFilters(d, PricedLongSpec).value.rows == Select(d.rows, Where(d.rows, IsPricedLong))
    ensures ApplyFilters(d, PricedShortSpec).value.rows == Select(d.rows, Where(d.rows, IsPricedShort))
  {
    SpecsMeaning();
    FilterIsWhere(d, EternalSpec, IsEternalTrial);
    FilterIsWhere(d, ZeroShortSpec, IsFreeShort);
    FilterIsWhere(d, PricedLongSpec, IsPricedLong);
    FilterIsWhere(d, PricedShortSpec, IsPricedShort);
  }

  /** On a table with durations and the columns the filters read, every
      filter keeps the rows of its band. */
  lemma SegmentFacts(d: Table)
    requires "Contract Duration" in d.columns && "Product Family" in d.columns && "Net Price" in d.columns
    requires forall r :: r in d.rows ==> Cell(r, "Contract Duration").Span? || Cell(r, "Contract Duration").Null?
    ensures ApplyFilters(d, EternalSpec).Success? && ApplyFilters(d, ZeroShortSpec).Success?
    ensures ApplyFilters(d, PricedLongSpec).Success? && ApplyFilters(d, PricedShortSpec).Success?
    ensures ApplyFilters(d, EternalSpec).value.rows == Select(d.rows, Where(d.rows, IsEternalTrial))
    ensures ApplyFilters(d, ZeroShortSpec).value.rows == Select(d.rows, Where(d.rows, IsFreeShort))
    ensures ApplyFilters(d, PricedLongSpec).value.rows == Select(d.rows, Where(d.rows, IsPricedLong))
    ensures ApplyFilters(d, PricedShortSpec).value.rows == Select(d.rows, Where(d.rows, IsPricedShort))
  {
    SpecsOk(d);
    TrialFacts(d);
  }

  /** The four segments of a table with durations and with the columns
      the filters read. */
  function Segment(d: Table): (s: TrialSplit)
    requires "Contract Duration" in d.columns && "Product Family" in d.columns && "Net Price" in d.columns
    requires forall r :: r in d.rows ==> Cell(r, "Contract Duration").Span? || Cell(r, "Contract Duration").Null?
    ensures s.eternal == Select(d.rows, Where(d.rows, IsEternalTrial))
    ensures s.freeShort == Select(d.rows, Where(d.rows, IsFreeShort))
    ensures s.pricedLong == Select(d.rows, Where(d.rows, IsPricedLong))
    ensures s.pricedShort == Select(d.rows, Where(d.rows, IsPricedShort))
    ensures s.pie == [|s.eternal|, |s.freeShort|, |s.pricedLong|, |s.pricedShort|]
    ensures s.result.name == "The_Eternal_Trial"
    ensures s.result.recordsFound == |s.eternal|
    ensures s.result.totalLoss == Money(s.eternal, "List Price")
  {
    SegmentFacts(d);
    var e := ApplyFilters(d, EternalSpec).value.rows;
    var zs := ApplyFilters(d, ZeroShortSpec).value.rows;
    var pl := ApplyFilters(d, PricedLongSpec).value.rows;
    var ps := ApplyFilters(d, PricedShortSpec).value.rows;
    TrialSplit(e, zs, pl, ps, [|e|, |zs|, |pl|, |ps|],
      RunResult("The_Eternal_Trial", |e|,
                Num(Total(d.rows, "List Price") - Total(e, "List Price")),
                Money(e, "List Price")))
  }

  /** Segmentation and bookkeeping of `run` on the extracted, renamed
      subscriptions. A missing date column raises when the duration is
      computed, a missing family or price column in the filters, and a
      missing list price column when the returned dict is built. */
  function EternalTrial(t: Table): (res: Result<TrialSplit, FilterError>)
    requires DatesParsed(t, "Start Date", "End Date")
    ensures res.Failure? <==>
      || "Start Date" !in t.columns || "End Date" !in t.columns
      || "Product Family" !in t.columns || "Net Price" !in t.columns
      || "List Price" !in t.columns
    ensures "Start Date" in t.columns && "End Date" in t.columns && "Product Family" in t.columns &&
            "Net Price" in t.columns && "List Price" !in t.columns
        ==> res == Failure(MissingColumn("List Price"))
    ensures res.Success? ==> res.value == Segment(WithDuration(t))
  {
    if "Start Date" !in t.columns then Failure(MissingColumn("Start Date"))
    else if "End Date" !in t.columns then Failure(MissingColumn("End Date"))
    else
      var d := WithDuration(t);
      var eternal := ApplyFilters(d, EternalSpec);
      EternalFilterOk(t);
      assert "List Price" !in ExtractionColumns;
      assert "List Price" in d.columns <==> "List Price" in t.columns;
      if eternal.Failure? then Failure(eternal.error)
      else if MissingRead(d.columns, ["List Price"]).Some? then Failure(MissingRead(d.columns, ["List Price"]).value)
      else Success(Segment(d))
  }

  /** The four segments share no subscription. Every subscription with
      both dates is in exactly one of them, except a free long one of the
      marketing family, which is in none; one missing a date is in none. */
  lemma TrialPartition(t: Table)
    requires DatesParsed(t, "Start Date", "End Date") && "Start Date" in t.columns && "End Date" in t.columns
    requires "Product Family" in t.columns && "Net Price" in t.columns && "List Price" in t.columns
    ensures var s := EternalTrial(t).value;
      && (forall r :: r in s.eternal ==> r !in s.freeShort && r !in s.pricedLong && r !in s.pricedShort)
      && (forall r :: r in s.freeShort ==> r !in s.pricedLong && r !in s.pricedShort)
      && (forall r :: r in s.pricedLong ==> r !in s.pricedShort)
      && (forall r :: r in WithDuration(t).rows && Cell(r, "Contract Duration").Span? ==>
            (r in s.eternal || r in s.freeShort || r in s.pricedLong || r in s.pricedShort
             <==> !(IsMarketing(r) && IsFree(r) && IsLong(r))))
      && (forall r :: r in WithDuration(t).rows && Cell(r, "Contract Duration").Null? ==>
            r !in s.eternal && r !in s.freeShort && r !in s.pricedLong && r !in s.pricedShort)
  {
    var s := EternalTrial(t).value;
    var d := WithDuration(t).rows;
    forall r ensures
      && (r in s.eternal <==> r in d && IsEternalTrial(r))
      && (r in s.freeShort <==> r in d && IsFreeShort(r))
      && (r in s.pricedLong <==> r in d && IsPricedLong(r))
      && (r in s.pricedShort <==> r in d && IsPricedShort(r))
    {
      TrialMembership(t, r);
    }
    BandsExclusive();
  }

  /** The four bands exclude each other; a row with a duration is in one
      of them unless free, long and marketing, and one without is in none. */
  lemma BandsExclusive()
    ensures forall r :: IsEternalTrial(r) ==> !IsFreeShort(r) && !IsPricedLong(r) && !IsPricedShort(r)
    ensures forall r :: IsFreeShort(r) ==> !IsPricedLong(r) && !IsPricedShort(r)
    ensures forall r :: IsPricedLong(r) ==> !IsPricedShort(r)
    ensures forall r :: Cell(r, "Contract Duration").Span? ==>
      (IsEternalTrial(r) || IsFreeShort(r) || IsPricedLong(r) || IsPricedShort(r)
       <==> !(IsMarketing(r) && IsFree(r) && IsLong(r)))
    ensures forall r :: Cell(r, "Contract Duration").Null? ==>
      !IsEternalTrial(r) && !IsFreeShort(r) && !IsPricedLong(r) && !IsPricedShort(r)
  {
  }

  /** Each segment holds the rows of its band of the table with
      durations. */
  lemma TrialMembership(t: Table, r: Row)
    requires DatesParsed(t, "Start Date", "End Date") && "Start Date" in t.columns && "End Date" in t.columns
    requires "Product Family" in t.columns && "Net Price" in t.columns && "List Price" in t.columns
    ensures var s := EternalTrial(t).value; var d := WithDuration(t).rows;
      && (r in s.eternal <==> r in d && IsEternalTrial(r))
      && (r in s.freeShort <==> r in d && IsFreeShort(r))
      && (r in s.pricedLong <==> r in d && IsPricedLong(r))
      && (r in s.pricedShort <==> r in d && IsPricedShort(r))
  {
    var d := WithDuration(t).rows;
    assert EternalTrial(t).value == Segment(WithDuration(t));
    WhereMembership(d, IsEternalTrial, r);
    WhereMembership(d, IsFreeShort, r);
    WhereMembership(d, IsPricedLong, r);
    WhereMembership(d, IsPricedShort, r);
  }

  /** The free short and the priced short segments together are the short
      subscriptions, and likewise for the long ones outside marketing:
      counts and list-price totals add up. */
  lemma TrialBands(t: Table)
    requires DatesParsed(t, "Start Date", "End Date") && "Start Date" in t.columns && "End Date" in t.columns
    requires "Product Family" in t.columns && "Net Price" in t.columns && "List Price" in t.columns
    ensures var s := EternalTrial(t).value; var d := WithDuration(t).rows;
      && |s.freeShort| + |s.pricedShort| == |Select(d, Where(d, IsShort))|
      && Total(s.freeShort, "List Price") + Total(s.pricedShort, "List Price")
         == Total(Select(d, Where(d, IsShort)), "List Price")
      && |s.eternal| + |s.pricedLong| <= |Select(d, Where(d, IsLong))|
  {
    var d := WithDuration(t).rows;
    DisjointUnion(d, IsFreeShort, IsPricedShort, IsShort, "List Price");
    DisjointUnion(d, IsEternalTrial, IsPricedLong, r => IsLong(r) && !(IsMarketing(r) && IsFree(r)), "List Price");
    WhereMonotone(d, r => IsLong(r) && !(IsMarketing(r) && IsFree(r)), IsLong);
  }
}

=== FILE: usecase9.dfy ===
/** The co-term-failure use case: accounts holding more than one contract
    whose contracts all end within 90 days of each other, so that they
    could have been co-termed. Every contract of such an account is
    flagged. */
module Usecase9 {
  import opened Wrappers
  import opened Values
  import opened Tables
  import opened Segments

  /** The widest spread of end dates, in days, that still counts as one
      renewal window. */
  const WindowDays: int := 90

  datatype CoTermError =
    | MissingColumn(column: string)   // KeyError
    | NoContracts(account: Value)     // IndexError from `.iloc[0]` on an empty frame

  /** `df["AccountId"] == account`. */
  function AccountMask(rows: seq<Row>, account: Value): (m: seq<bool>)
    ensures |m| == |rows| && forall i :: 0 <= i < |rows| ==> m[i] == PyEq(Cell(rows[i], "AccountId"), account)
  {
    seq(|rows|, i requires 0 <= i < |rows| => PyEq(Cell(rows[i], "AccountId"), account))
  }

  /** The contracts of one account. */
  function AccountRows(rows: seq<Row>, account: Value): (rs: seq<Row>)
    ensures forall r :: r in rs <==> r in rows && PyEq(Cell(r, "AccountId"), account)
  {
    var m := AccountMask(rows, account);
    forall r ensures r in Select(rows, m) <==> r in rows && PyEq(Cell(r, "AccountId"), account) {
      SelectMembership(rows, m, r);
    }
    Select(rows, m)
  }

  predicate AllDated(rows: seq<Row>) {
    forall r :: r in rows ==> Cell(r, "EndDate").Date?
  }

  /** The account's contracts could share one renewal: every end date is
      known and no two lie more than the window apart. */
  predicate CoTermed(rows: seq<Row>) {
    && rows != []
    && AllDated(rows)
    && forall a, b :: a in rows && b in rows ==> Cell(a, "EndDate").day - Cell(b, "EndDate").day <= WindowDays
  }

  /** The last end date (`.iloc[-1]` after sorting by end date). */
  function LatestEnd(rows: seq<Row>): (d: int)
    requires rows != [] && AllDated(rows)
    ensures forall r :: r in rows ==> Cell(r, "EndDate").day <= d
    ensures exists r :: r in rows && Cell(r, "EndDate").day == d
  {
    var here := Cell(rows[0], "EndDate").day;
    if |rows| == 1 then here
    else
      var rest := LatestEnd(rows[1..]);
      assert forall r :: r in rows ==> r == rows[0] || r in rows[1..];
      if here >= rest then here else rest
  }

  /** The first end date (`.iloc[0]` after sorting by end date). */
  function EarliestEnd(rows: seq<Row>): (d: int)
    requires rows != [] && AllDated(rows)
    ensures forall r :: r in rows ==> d <= Cell(r, "EndDate").day
    ensures exists r :: r in rows && Cell(r, "EndDate").day == d
  {
    var here := Cell(rows[0], "EndDate").day;
    if |rows| == 1 then here
    else
      var rest := EarliestEnd(rows[1..]);
      assert forall r :: r in rows ==> r == rows[0] || r in rows[1..];
      if here <= rest then here else rest
  }

  /** `(last_end - first_end).days <= 90` on the sorted contracts. A
      missing end date sorts last and makes the difference NaN, which
      fails the test. */
  predicate WindowTest(rows: seq<Row>)
    requires rows != []
  {
    AllDated(rows) && LatestEnd(rows) - EarliestEnd(rows) <= WindowDays
  }

  /** The test of `run` decides exactly the co-term property. */
  lemma WindowTestMeaning(rows: seq<Row>)
    requires rows != []
    ensures WindowTest(rows) <==> CoTermed(rows)
  {
    if AllDated(rows) {
      var hi := LatestEnd(rows);
      var lo := EarliestEnd(rows);
      if CoTermed(rows) {
        var a :| a in rows && Cell(a, "EndDate").day == hi;
        var b :| b in rows && Cell(b, "EndDate").day == lo;
        assert hi - lo <= WindowDays;
      }
    }
  }

  /** The accounts of `accounts` that the loop adds to the flagged set, or
      the first account with no contract. */
  function FlagAccounts(rows: seq<Row>, accounts: seq<Value>): (res: Result<seq<Value>, CoTermError>)
    ensures res.Success? <==> forall k :: 0 <= k < |accounts| ==> AccountRows(rows, accounts[k]) != []
    ensures res.Failure? ==> exists k :: 0 <= k < |accounts| && res.error == NoContracts(accounts[k])
                                                         && AccountRows(rows, accounts[k]) == []
    ensures res.Success? ==> forall a :: a in res.value <==> a in accounts && CoTermed(AccountRows(rows, a))
  {
    if accounts == [] then Success([])
    else
      var own := AccountRows(rows, accounts[0]);
      if own == [] then Failure(NoContracts(accounts[0]))
      else
        var rest := FlagAccounts(rows, accounts[1..]);
        if rest.Failure? then rest
        else
          WindowTestMeaning(own);
          Success(if WindowTest(own) then [accounts[0]] + rest.value else rest.value)
  }

  /** The contract belongs to a listed account whose contracts could be
      co-termed. */
  predicate OfCoTermedAccount(rows: seq<Row>, accounts: seq<Value>, r: Row) {
    exists a :: a in accounts && PyEq(Cell(r, "AccountId"), a) && CoTermed(AccountRows(rows, a))
  }

  datatype CoTermSplit = CoTermSplit(contracts: seq<Row>, failure: seq<Row>, other: seq<Row>, pie: seq<int>, result: RunResult)

  /** The flagged contracts and the others, given the flagged accounts. */
  function Segment(t: Table, accounts: seq<Value>, flagged: seq<Value>): (s: CoTermSplit)
    requires forall k :: 0 <= k < |accounts| ==> AccountRows(t.rows, accounts[k]) != []
    requires forall a :: a in flagged <==> a in accounts && CoTermed(AccountRows(t.rows, a))
    ensures s.contracts == t.rows
    ensures forall r :: r in s.failure <==>
      r in t.rows && OfCoTermedAccount(t.rows, accounts, r)
    ensures forall r :: r in s.other <==>
      r in t.rows && !IsinMask([Cell(r, "Contract ID")], Column(s.failure, "Contract ID"))[0]
    ensures |s.pie| == 2 && s.pie[0] == |s.failure| && s.pie[0] + s.pie[1] == |t.rows|
    ensures s.result == RunResult("The_Co_Term_Failure", |s.failure|, Null, Null)
  {
    var failure := Select(t.rows, IsinMask(Column(t.rows, "AccountId"), flagged));
    var other := Select(t.rows, Negate(IsinMask(Column(t.rows, "Contract ID"), Column(failure, "Contract ID"))));
    FailureMembership(t.rows, accounts, flagged);
    OtherMembership(t.rows, failure);
    var flaggedCount: nat := |failure|;
    var otherCount: nat := |t.rows| - flaggedCount;
    CoTermSplit(t.rows, failure, other, [flaggedCount, otherCount],
      RunResult("The_Co_Term_Failure", flaggedCount, Null, Null))
  }

  /** Segmentation and bookkeeping of `run`, given the account ids of the
      grouped query and the contracts of the second query after renaming.
      With no account all three frames are empty; otherwise the steps
      raise in order on the date columns, the account column, an account
      with no contract, then the contract id column. */
  function CoTermFailure(accounts: seq<Value>, t: Table): (res: Result<CoTermSplit, CoTermError>)
    requires DatesParsed(t, "StartDate", "EndDate")
    ensures accounts == [] ==> res == Success(CoTermSplit([], [], [], [0, 0], RunResult("The_Co_Term_Failure", 0, Null, Null)))
    ensures accounts != [] ==> (res.Success? <==>
      && "StartDate" in t.columns && "EndDate" in t.columns && "AccountId" in t.columns
      && FlagAccounts(t.rows, accounts).Success? && "Contract ID" in t.columns)
    ensures accounts != [] && res.Success? ==> res.value == Segment(t, accounts, FlagAccounts(t.rows, accounts).value)
    ensures accounts != [] && res.Failure? ==>
      || res.error.MissingColumn?
      || exists a :: a in accounts && res.error == NoContracts(a) && AccountRows(t.rows, a) == []
  {
    if accounts == [] then Success(CoTermSplit([], [], [], [0, 0], RunResult("The_Co_Term_Failure", 0, Null, Null)))
    else if "StartDate" !in t.columns then Failure(MissingColumn("StartDate"))
    else if "EndDate" !in t.columns then Failure(MissingColumn("EndDate"))
    else if "AccountId" !in t.columns then Failure(MissingColumn("AccountId"))
    else
      var flagged := FlagAccounts(t.rows, accounts);
      if flagged.Failure? then Failure(flagged.error)
      else if "Contract ID" !in t.columns then Failure(MissingColumn("Contract ID"))
      else Success(Segment(t, accounts, flagged.value))
  }

  /** `df["AccountId"].isin(flagged)` keeps the contracts of the flagged
      accounts. An account listed is never null here, since a null account
      has no contract and raises before. */
  lemma FailureMembership(rows: seq<Row>, accounts: seq<Value>, flagged: seq<Value>)
    requires forall k :: 0 <= k < |accounts| ==> AccountRows(rows, accounts[k]) != []
    requires forall a :: a in flagged <==> a in accounts && CoTermed(AccountRows(rows, a))
    ensures forall r :: r in Select(rows, IsinMask(Column(rows, "AccountId"), flagged)) <==>
      r in rows && OfCoTermedAccount(rows, accounts, r)
  {
    var m := IsinMask(Column(rows, "AccountId"), flagged);
    forall r
      ensures r in Select(rows, m) <==>
        r in rows && OfCoTermedAccount(rows, accounts, r)
    {
      SelectMembership(rows, m, r);
      if r in Select(rows, m) {
        var i :| 0 <= i < |rows| && m[i] && rows[i] == r;
        var k :| 0 <= k < |flagged| && IsinEq(Cell(r, "AccountId"), flagged[k]);
        var a := flagged[k];
        assert a in accounts;
        var j :| 0 <= j < |accounts| && accounts[j] == a;
        assert AccountRows(rows, a) != [];
        assert !a.Null? by {
          var x := AccountRows(rows, a)[0];
          assert x in AccountRows(rows, a);
        }
      }
      if r in rows && OfCoTermedAccount(rows, accounts, r) {
        var a :| a in accounts && PyEq(Cell(r, "AccountId"), a) && CoTermed(AccountRows(rows, a));
        assert a in flagged;
        var k :| 0 <= k < |flagged| && flagged[k] == a;
        var i :| 0 <= i < |rows| && rows[i] == r;
        assert IsinEq(Column(rows, "AccountId")[i], flagged[k]);
      }
    }
  }

  lemma OtherMembership(rows: seq<Row>, failure: seq<Row>)
    ensures forall r :: r in Select(rows, Negate(IsinMask(Column(rows, "Contract ID"), Column(failure, "Contract ID")))) <==>
      r in rows && !IsinMask([Cell(r, "Contract ID")], Column(failure, "Contract ID"))[0]
  {
    var m := Negate(IsinMask(Column(rows, "Contract ID"), Column(failure, "Contract ID")));
    forall r ensures r in Select(rows, m) <==>
      r in rows && !IsinMask([Cell(r, "Contract ID")], Column(failure, "Contract ID"))[0]
    {
      SelectMembership(rows, m, r);
    }
  }

  /** With contract ids unique, the other contracts are exactly those not
      flagged, and the two pie slices count every contract once. */
  lemma CoTermPartition(accounts: seq<Value>, t: Table)
    requires DatesParsed(t, "StartDate", "EndDate") && CoTermFailure(accounts, t).Success?
    requires UniqueKey(t.rows, "Contract ID")
    ensures var s := CoTermFailure(accounts, t).value;
      && (forall r :: r in s.other <==> r in s.contracts && r !in s.failure)
      && |s.failure| + |s.other| == |s.contracts|
      && s.pie[0] + s.pie[1] == |s.contracts|
  {
    var s := CoTermFailure(accounts, t).value;
    if accounts != [] {
      var flagged := FlagAccounts(t.rows, accounts).value;
      var mask := IsinMask(Column(t.rows, "AccountId"), flagged);
      assert s.failure == Select(t.rows, mask);
      ComplementByKey(t.rows, mask, "Contract ID");
      SelectComplementSizes(t.rows, mask);
      forall r ensures r in s.other <==> r in s.contracts && r !in s.failure {
        SelectMembership(t.rows, mask, r);
        SelectMembership(t.rows, Negate(mask), r);
      }
    }
  }
}

=== FILE: values.dfy ===
/** Cell values of a table and the comparison rules pandas applies to them.
    A cell holds one JSON-like CRM field value; `Null` stands for `None`,
    `NaN` and `NaT` alike. Money is an exact `real`; dates are whole days
    and durations (`Timedelta`) whole days too. */
module Values {
  import opened Wrappers
  import Text

  datatype Value =
    | Null
    | Bool(b: bool)
    | Num(x: real)
    | Str(s: string)
    | Date(day: int)
    | Span(days: int)
    | Obj(fields: map<string, Value>)
    | List(items: seq<Value>)

  /** Python treats `True`/`False` as the numbers 1 and 0. */
  function NumView(v: Value): Option<real> {
    match v
    case Num(x) => Some(x)
    case Bool(b) => Some(if b then 1.0 else 0.0)
    case _ => None
  }

  /** Element-wise `==` of pandas: never true when either side is null;
      numbers (and booleans) compare by value, everything else by content. */
  predicate PyEq(a: Value, b: Value) {
    && !a.Null? && !b.Null?
    && (if NumView(a).Some? && NumView(b).Some? then NumView(a) == NumView(b) else a == b)
  }

  /** The matching `Series.isin` uses: like `==`, except that a null also
      matches a null. */
  predicate IsinEq(a: Value, b: Value) {
    (a.Null? && b.Null?) || PyEq(a, b)
  }

  /** Two non-null values of kinds Python can order against each other. */
  predicate Orderable(a: Value, b: Value) {
    || (NumView(a).Some? && NumView(b).Some?)
    || (a.Str? && b.Str?)
    || (a.Date? && b.Date?)
    || (a.Span? && b.Span?)
  }

  /** Strict `<` between orderable values. */
  predicate Less(a: Value, b: Value)
    requires Orderable(a, b)
  {
    if NumView(a).Some? && NumView(b).Some? then NumView(a).value < NumView(b).value
    else if a.Str? then Text.LexLessEq(a.s, b.s) && a.s != b.s
    else if a.Date? then a.day < b.day
    else a.days < b.days
  }

  /** Two non-null values Python can order are equal, less or greater,
      and exactly one of the three. */
  lemma OrderTrichotomy(a: Value, b: Value)
    requires !a.Null? && !b.Null? && Orderable(a, b)
    ensures Orderable(b, a)
    ensures PyEq(a, b) || Less(a, b) || Less(b, a)
    ensures !(PyEq(a, b) && Less(a, b)) && !(PyEq(a, b) && Less(b, a)) && !(Less(a, b) && Less(b, a))
  {
    if a.Str? && b.Str? {
      Text.LexTotal(a.s, b.s);
      if Text.LexLessEq(a.s, b.s) && Text.LexLessEq(b.s, a.s) {
        Text.LexAntisymmetric(a.s, b.s);
      }
    }
  }

  /** The six comparison operators pandas evaluates element-wise. */
  predicate IsComparison(op: string) {
    op in {"=", "!=", ">=", "<=", ">", "<"}
  }

  predicate IsOrdering(op: string) {
    op in {">=", "<=", ">", "<"}
  }

  /** An ordering comparison of `x` against `v` raises `TypeError` exactly
      when both are non-null and of kinds Python cannot order. */
  predicate CompareTypeOk(op: string, x: Value, v: Value) {
    IsOrdering(op) && !x.Null? && !v.Null? ==> Orderable(x, v)
  }

  /** Element-wise `x <op> v` with pandas null semantics: every comparison
      with a null on either side is false, except `!=`, which is true. */
  predicate Compare(op: string, x: Value, v: Value)
    requires IsComparison(op)
  {
    if op == "=" then PyEq(x, v)
    else if op == "!=" then !PyEq(x, v)
    else if x.Null? || v.Null? || !Orderable(x, v) then false
    else if op == "<" then Less(x, v)
    else if op == ">" then Less(v, x)
    else if op == "<=" then !Less(v, x)
    else !Less(x, v)
  }

  /** On the numbers the comparisons are the familiar ones. */
  lemma CompareNumbers(op: string, a: real, b: real)
    requires IsComparison(op)
    ensures Compare(op, Num(a), Num(b)) ==
      (if op == "=" then a == b
       else if op == "!=" then a != b
       else if op == "<" then a < b
       else if op == ">" then a > b
       else if op == "<=" then a <= b
       else a >= b)
  {
  }

  /** Every comparison except `!=` is false as soon as one side is null. */
  lemma CompareNull(op: string, v: Value)
    requires IsComparison(op)
    ensures Compare(op, Null, v) <==> op == "!="
    ensures Compare(op, v, Null) <==> op == "!="
  {
  }

  /** `=` and `!=` are complementary on every pair of values. */
  lemma EqualsComplement(x: Value, v: Value)
    ensures Compare("=", x, v) != Compare("!=", x, v)
  {
  }
}

=== FILE: wrappers.dfy ===
/** Failure-compatible result types used throughout the model. A Python
    exception raised by an operation becomes a `Failure` carrying the error. */
module Wrappers {

  datatype Option<+T> = None | Some(value: T) {

    predicate IsFailure() {
      None?
    }

    function PropagateFailure<U>(): Option<U>
      requires None?
    {
      None
    }

    function Extract(): T
      requires Some?
    {
      value
    }

    function GetOr(default: T): T {
      match this
      case Some(v) => v
      case None => default
    }
  }

  datatype Result<+R, +E> = Success(value: R) | Failure(error: E) {

    predicate IsFailure() {
      Failure?
    }

    function PropagateFailure<U>(): Result<U, E>
      requires Failure?
    {
      Failure(this.error)
    }

    function Extract(): R
      requires Success?
    {
      value
    }
  }
}
